=== FILE: README.md ===
# Framework YAML maintenance scripts, modelled in Dafny

The repository keeps a library of "framework" prompt files as YAML documents.
A set of maintenance scripts repairs and migrates them. This project models
the decision logic and text transformations of six of those scripts, as pure
functions over the loaded YAML value or over the file text:

- `convert_frameworks_to_proper_yaml.py`: the legacy tag parser
  `parse_xml_content` (module `TagParser`) and `convert_framework` (module
  `Converter`). Tagged content becomes a `structure` mapping with an
  `original_content` backup, and the document text is rendered.
- `fix_all_yaml_compliance.py`: `YAMLRemediator.fix_yaml_file` and
  `_fix_escaped_content` (module `Remediator`). No-break spaces are removed,
  a `---` marker is added, and quoted values with `\n`, `\t` or `\"` escapes
  are rewritten as literal blocks. The remediator's counters are kept across files.
- `add_yaml_doc_markers.py`: `add_doc_marker` (module `DocMarkers`).
- `fix_yaml_formatting.py`: `fix_yaml_file` (module `Formatting`). It
  serialises a document as a fixed sequence of lines.
- `add_framework_metadata.py`: `add_metadata_to_framework` and the
  `METADATA_TEMPLATES` table (module `Metadata`).
- `refactor_frameworks.py`: `refactor_framework_file` (module `Refactor`).

Two shared modules support them:

- `Values` is the value tree `yaml.safe_load` returns. Mappings are kept as
  insertion-ordered entry lists, like a Python `dict`. The module also holds
  the dict operations the scripts use: `in`, `[]`, `.get()`, item
  assignment, and truthiness.
- `PyStrings` holds the `str` methods the scripts use. It works over
  `seq<char>`.

The regular expressions are replaced by explicit scanners. Lemmas prove each
scanner accepts exactly what its pattern matches at a position:
`MatchAtSound`/`MatchAtComplete` and `EscMatchSound`/`EscMatchComplete`.

File reads and writes are parameters of the model:

- a read is an input: the text, or the failure it raised;
- a write is either an input saying whether it succeeds, or an output
  (the text or document that would be written).

`yaml.dump` and Python's `repr` of nested values are function parameters.

As written, the escape rewrite in `_fix_escaped_content` puts an empty line
before every line of the new literal block. Group 1 of its pattern is the
whole whitespace run before the key, and that run includes the preceding
newline. The rewrite reuses it as the indentation of each content line. The
model keeps this behaviour. The lemma `Remediator.BlankLineBeforeEachLine`
states it for every match whose indent starts with a newline: the block's
lines are joined by blank lines.

Running the remediator's three fixes on their own output can change it
again. A value whose first closing quote is escaped runs on to the next
quote, and the text it swallows can form a fresh match on the next pass.
The model keeps this as well. `Remediator.PipelineNotIdempotent` shows it
on a concrete text, and `Remediator.FixTextFixedIff` says exactly which
marked texts the fixes leave alone.

## Model

| member | source | states |
|---|---|---|
| TagParser.MatchAtSound | scripts/convert_frameworks_to_proper_yaml.py:25 | every match the scanner reports is an opening tag `<name>` with a valid tag name, a body, and the matching `</name>` right after it |
| TagParser.MatchAtComplete | scripts/convert_frameworks_to_proper_yaml.py:25 | wherever `<name>` starts with a valid tag name and the first `</name>` after it closes the body, the scanner reports exactly that name, body and end |
| TagParser.ScanSound | scripts/convert_frameworks_to_proper_yaml.py:27 | the `findall` matches are genuine matches, lie inside the text and do not overlap, in left-to-right order |
| TagParser.ScanCovers | scripts/convert_frameworks_to_proper_yaml.py:27 | every position from the scan start where the pattern matches lies inside some reported match, so nothing is missed |
| TagParser.Scan | scripts/convert_frameworks_to_proper_yaml.py:25-38 | the scan reports genuine, ordered, non-overlapping matches, and every match body is strictly shorter than the text, so the recursive parse of a body terminates |
| TagParser.NoTagPairGivesContent | scripts/convert_frameworks_to_proper_yaml.py:27-31 | text with no tag pair parses to the single key `content` holding the stripped text |
| TagParser.CleanTagChars | scripts/convert_frameworks_to_proper_yaml.py:35 | a cleaned tag name keeps the stripped name's length, maps spaces and hyphens to underscores and keeps every other character |
| TagParser.ParseKeys | scripts/convert_frameworks_to_proper_yaml.py:33-52 | every matched tag's cleaned name is a key of the parse result |
| TagParser.LastMatchWins | scripts/convert_frameworks_to_proper_yaml.py:33-45 | when two matches share a cleaned name, the later one's value is the one kept |
| TagParser.PlainBodyStoredAsText | scripts/convert_frameworks_to_proper_yaml.py:38-42 | a body with no nested tags is stored as its stripped text, not as a one-key mapping |
| TagParser.Outside | scripts/convert_frameworks_to_proper_yaml.py:48 | the substitution that deletes the matches removes nothing from text in which the pattern matches nowhere; `TagParser.OutsideIsGaps` gives what it keeps in general |
| TagParser.OutsideIsGaps | scripts/convert_frameworks_to_proper_yaml.py:48 | deleting the matches keeps exactly the gaps between the matches `re.findall` reports at :27: the text before the first, between each and the next, and after the last |
| TagParser.LeftoverStored | scripts/convert_frameworks_to_proper_yaml.py:48-52 | text outside every match is stored, stripped and without hyphens, under `additional_content` |
| TagParser.Parse | scripts/convert_frameworks_to_proper_yaml.py:15-56 | the parse result is never empty and has no duplicate keys |
| Values.PutAllLast | scripts/convert_frameworks_to_proper_yaml.py:42-45 | assigning a list of entries in order leaves each key with the value of its last assignment |
| Converter.SkipCases | scripts/convert_frameworks_to_proper_yaml.py:68-79 | non-mappings, documents without `framework`, frameworks without `content` and content without an opening tag are skipped untouched |
| Converter.BadShapesRaise | scripts/convert_frameworks_to_proper_yaml.py:72-78 | a null, boolean or numeric framework value, or content that is not a string, raises `TypeError` before anything is written |
| Converter.TaggedContentConverts | scripts/convert_frameworks_to_proper_yaml.py:78-142 | tagged content is converted exactly when the documentation is absent or a mapping; otherwise the call fails with `AttributeError` |
| Converter.WriteFails | scripts/convert_frameworks_to_proper_yaml.py:113-120 | the write fails exactly when `documentation` exists and is not a mapping |
| Converter.Restructure | scripts/convert_frameworks_to_proper_yaml.py:87-94 | the framework gains `structure` (the parse) and `original_content` (the unchanged content); every other framework key keeps its value |
| Converter.StructuredConversion | scripts/convert_frameworks_to_proper_yaml.py:86-140 | a structured parse keeps every other top-level key, stores the restructured framework, and renders text that starts with `---` and ends with the indented content block |
| Converter.PlainContentStillRewritten | scripts/convert_frameworks_to_proper_yaml.py:95-97 | a parse with only `content` leaves the document unchanged, yet the file is still rewritten and reported as converted |
| Converter.ReconvertIsFixedPoint | scripts/convert_frameworks_to_proper_yaml.py:72-94 | converting a converted document again gives the same result, because the content is kept verbatim |
| Converter.ConvertedShape | scripts/convert_frameworks_to_proper_yaml.py:68-142 | a converted document is a mapping that keeps `framework` and every other top-level key, and the text written for it starts with the document marker line |
| Converter.FailedWriteMarked | scripts/convert_frameworks_to_proper_yaml.py:100-120 | when the write raises, the text already written to the truncated file starts with the document marker line |
| Converter.Convert | scripts/convert_frameworks_to_proper_yaml.py:59-142 | a converted document is a mapping; the lemmas `Converter.SkipCases`, `Converter.BadShapesRaise`, `Converter.TaggedContentConverts`, `Converter.ConvertedShape` and `Converter.ReconvertIsFixedPoint` state each outcome |
| Converter.Preamble | scripts/convert_frameworks_to_proper_yaml.py:101-120 | the rendered text always starts with the document marker line |
| TagParser.MatchAt | scripts/convert_frameworks_to_proper_yaml.py:25 | a match reported at a position starts there, spans the opening tag, the body and the closing tag, and lies inside the text |
| Remediator.EscMatchSound | scripts/fix_all_yaml_compliance.py:146 | every escape match the scanner reports has a whitespace indent, a key with its colon, and a quoted value holding a backslash escape, as the pattern requires |
| Remediator.EscMatchComplete | scripts/fix_all_yaml_compliance.py:146 | any indent, key and escaped quoted value laid out at a position is found there, and the match reaches at least as far |
| Remediator.EscScan | scripts/fix_all_yaml_compliance.py:146-167 | the matches the substitution replaces lie inside the text, in order, each starting at or after the end of the one before; `Remediator.EscMatchSound`, `Remediator.EscMatchComplete` and `Remediator.ScanFindsMatch` say what each is and that none is missed |
| Remediator.Sub | scripts/fix_all_yaml_compliance.py:146-167 | where the pattern matches nowhere the substitution gives the text back unchanged; `Remediator.SubIsSplice` and `Remediator.SubUnchangedIff` give the general case |
| Remediator.SubIsSplice | scripts/fix_all_yaml_compliance.py:167 | the substitution equals splicing each found match's replacement into the text between non-overlapping matches |
| Remediator.NoBackslashUnchanged | scripts/fix_all_yaml_compliance.py:146-167 | text without a backslash has no escape matches and comes back unchanged |
| Remediator.BlockReadsBack | scripts/fix_all_yaml_compliance.py:153-165 | the replacement is the `key: \|` header followed by one line per line of the unescaped value, each behind the indent plus two spaces; removing that prefix gives back the unescaped value |
| Remediator.UnescapeInvertsEscape | scripts/fix_all_yaml_compliance.py:157 | undoing the three escapes inverts escaping newlines, tabs and quotes in any text without backslashes |
| Remediator.BlankLineBeforeEachLine | scripts/fix_all_yaml_compliance.py:149-165 | for every match whose indent starts with a newline, the replacement is the header and the value's lines, each behind the rest of the indent and two spaces, joined by blank lines, so an empty line precedes every line of the literal block |
| Remediator.Replacement | scripts/fix_all_yaml_compliance.py:160-165 | the replacement opens with the header line: the indent, the key group and ` \|` |
| Remediator.MatchChanges | scripts/fix_all_yaml_compliance.py:160-167 | replacing a match always changes the text, since the header has a space where the value's opening quote stood |
| Remediator.SubUnchangedIff | scripts/fix_all_yaml_compliance.py:167 | the substitution leaves the text as it was exactly when it finds no match |
| Remediator.ScanFindsMatch | scripts/fix_all_yaml_compliance.py:146-167 | if the pattern matches at some position, the substitution from any earlier position finds at least one match |
| Remediator.FixText | scripts/fix_all_yaml_compliance.py:99-111 | the three fixes in order; when the escape pattern matches nowhere in the marked text the escape fix changes nothing; `Remediator.FixTextFixedIff` and `Remediator.PipelineNotIdempotent` say when the whole is a no-op |
| Remediator.FixTextFixedIff | scripts/fix_all_yaml_compliance.py:99-114 | on text that has its marker and no no-break space, the three fixes leave it unchanged exactly when the pattern matches nowhere in it |
| Remediator.PipelineNotIdempotent | scripts/fix_all_yaml_compliance.py:99-167 | a concrete text whose fixed form is changed again by a second pass of the fixes |
| Remediator.RemoveNbsp | scripts/fix_all_yaml_compliance.py:99-103 | no no-break space is left, every other character stays in place, and text without one is unchanged |
| Remediator.FixFile | scripts/fix_all_yaml_compliance.py:79-130 | a file is written and counted as fixed exactly when it was read, the fixes changed it and the write succeeded; read and write failures append an error message; `nbsp_removed` and `doc_markers_added` grow by one when their fix applied, and `escapes_fixed` by the number of escape matches rewritten |
| Remediator.FixFileConsistent | scripts/fix_all_yaml_compliance.py:113-130 | after any file the counters stay consistent: files fixed plus errors never exceed files processed, and no value is counted as quoted |
| Remediator.ProcessAll | scripts/fix_all_yaml_compliance.py:180-181 | the loop over the files counts each one as processed, and the errors recorded before it stay at the head of the error list |
| Remediator.ProcessAllCounts | scripts/fix_all_yaml_compliance.py:124-130 | processing a list of files counts each one once, keeps the counters consistent, and keeps every earlier error, in order, at the head of the list |
| Remediator.CleanFileUntouched | scripts/fix_all_yaml_compliance.py:113-122 | a file with a marker, no no-break space and no backslash is not written and changes no counter besides files processed |
| Remediator.MarkerStep | scripts/fix_all_yaml_compliance.py:105-108 | the marker step prepends `---` only when missing, always leaves a marker, keeps the text as a suffix and is idempotent |
| DocMarkers.AddMarkerMarks | scripts/add_yaml_doc_markers.py:36-41 | the text after the marker step always starts with `---` once stripped |
| DocMarkers.AddMarkerIdempotent | scripts/add_yaml_doc_markers.py:36-39 | adding the marker twice is the same as adding it once |
| DocMarkers.AddMarkerKeepsText | scripts/add_yaml_doc_markers.py:39 | the original text survives as a suffix, and at most the four marker characters are added |
| DocMarkers.AddDocMarker | scripts/add_yaml_doc_markers.py:19-48 | the result is `True` exactly when a file was written, and what is written is `---\n` followed by the text read |
| DocMarkers.MarkedIsKept | scripts/add_yaml_doc_markers.py:36-37 | a file that already has a marker is neither written nor reported as modified |
| DocMarkers.UnmarkedIsPrepended | scripts/add_yaml_doc_markers.py:39-44 | an unmarked file is written with the marker prepended, and the written text is marked |
| DocMarkers.SecondCallIsNoOp | scripts/add_yaml_doc_markers.py:36-44 | running the script on the text it just wrote changes nothing |
| DocMarkers.ErrorsAreReported | scripts/add_yaml_doc_markers.py:32-48 | read and write errors give `False` without a write, and a decoding error propagates |
| Formatting.FixFile | scripts/fix_yaml_formatting.py:31-74 | the file is left alone exactly when the loaded data is falsy, and rewritten exactly when the data is truthy and the record can be read |
| Formatting.EmptyDataUnchanged | scripts/fix_yaml_formatting.py:31-33 | an empty file, an empty mapping or an empty string leaves the file unchanged |
| Formatting.ErrorCases | scripts/fix_yaml_formatting.py:37-49 | a non-mapping raises `TypeError`, a missing `name` or `category` raises `KeyError` for it, and a documentation value that is not a mapping raises `AttributeError` |
| Formatting.ExtractOkWhenWellShaped | scripts/fix_yaml_formatting.py:37-66 | the record can be read exactly when `name` and `category` exist and the documentation and framework are mappings and the content is a string |
| Formatting.RewrittenWhenWellShaped | scripts/fix_yaml_formatting.py:31-74 | a mapping is rewritten exactly when it is well shaped |
| Formatting.Extract | scripts/fix_yaml_formatting.py:37-62 | the document can be read only if it is a mapping holding `name` and `category`; `Formatting.ErrorCases` gives the error for each other case and `Formatting.ExtractOkWhenWellShaped` the exact condition |
| Formatting.RecordFromDocument | scripts/fix_yaml_formatting.py:37-62 | the record holds the document's name, version (default empty), category, documentation and content (default empty) |
| Formatting.DocSectionSpec | scripts/fix_yaml_formatting.py:49-57 | a documentation line is written for exactly the truthy fields among purpose, use_case, character_count and operational_guide, in that order |
| Formatting.Lines | scripts/fix_yaml_formatting.py:36-67 | six fixed lines, one per documentation field written and one per content line; `Formatting.LinesShape` gives each line |
| Formatting.LinesShape | scripts/fix_yaml_formatting.py:36-67 | the lines are the name, the quoted version, the category, the documentation header and section, the framework and content headers, then one line per content line |
| Formatting.FileLines | scripts/fix_yaml_formatting.py:69-72 | splitting the written text at newlines gives back the lines followed by one empty piece for the final newline |
| Formatting.ContentReadsBack | scripts/fix_yaml_formatting.py:65-67 | removing the four-space indent from the content lines gives back the content, empty lines included |
| Formatting.ExtraKeysDropped | scripts/fix_yaml_formatting.py:31-74 | adding any top-level key the writer does not read leaves the record read unchanged, and the whole outcome unchanged for a document that was not empty, so such keys are dropped |
| Formatting.FrameworkExtraKeysDropped | scripts/fix_yaml_formatting.py:31-74 | framework keys other than `content` change neither the record read nor the outcome |
| Formatting.Render | scripts/fix_yaml_formatting.py:69-72 | the written text ends with the final newline |
| Formatting.NumericVersionQuoted | scripts/fix_yaml_formatting.py:39-44 | a numeric version renders exactly like the same text given as a string, double-quoted |
| Formatting.VersionRecord | scripts/fix_yaml_formatting.py:40 | a numeric and a string version of the same text give the same reading outcome and differ only in the version field |
| Metadata.FirstMatch | scripts/add_framework_metadata.py:161-166 | a result is a template key contained in the file stem, and no earlier key is contained in it; no result means no key is contained |
| Metadata.FirstMatchIsLeast | scripts/add_framework_metadata.py:161-166 | the chosen key is the first key in table order that the file stem contains, in both directions |
| Metadata.ChosenTemplate | scripts/add_framework_metadata.py:161-166 | when the first contained key is number j, the j-th template is used |
| Metadata.GenericWhenNoKey | scripts/add_framework_metadata.py:168-174 | when no key is contained, the generic template built from the stem and folder is used, with version `1.0` |
| Metadata.TableComplete | scripts/add_framework_metadata.py:18-132 | every entry of the table supplies a non-empty purpose and use case and a non-blank version |
| Metadata.ChooseTemplate | scripts/add_framework_metadata.py:161-174 | whichever template is chosen supplies all three values, and the generic one, used when no key matches, has version `1.0` |
| Metadata.FillDoc | scripts/add_framework_metadata.py:179-185 | a missing or falsy purpose or use case gets the template's value, a present one is kept, and other documentation keys are untouched |
| Metadata.FillVersion | scripts/add_framework_metadata.py:187-189 | a missing, falsy or blank version gets the template's value, and other keys are untouched |
| Metadata.Fill | scripts/add_framework_metadata.py:176-199 | the call succeeds exactly when the documentation is a mapping; it writes exactly when a field needed filling, and then reports a modification |
| Metadata.AddMetadata | scripts/add_framework_metadata.py:152-199 | empty data counts as an empty mapping, other non-mappings and non-mapping documentation raise, and `True` goes with a write |
| Metadata.WrittenKeys | scripts/add_framework_metadata.py:191-195 | the dumped document has the filled documentation, the filled version, and every other key unchanged |
| Metadata.NothingOverwritten | scripts/add_framework_metadata.py:179-189 | a field that is already present is never overwritten, and a missing one is filled from the template |
| Metadata.FilledIsComplete | scripts/add_framework_metadata.py:179-189 | after filling, none of the three fields is missing |
| Metadata.SecondRunIsNoOp | scripts/add_framework_metadata.py:176-199 | running the script on the document it just wrote changes nothing |
| Metadata.EmptyDataFilled | scripts/add_framework_metadata.py:155-157 | falsy data (null, an empty value, zero, false) behaves as an empty mapping and is written with all three fields |
| Metadata.FillEmpty | scripts/add_framework_metadata.py:176-192 | an empty document is written as version then documentation with purpose and use case |
| Refactor.RefactorFile | scripts/refactor_frameworks.py:16-64 | a document is refactored exactly when its framework has a legacy content string holding `<system_prompt>` |
| Refactor.NoFrameworkSkipped | scripts/refactor_frameworks.py:16-18 | a document without `framework` is left alone |
| Refactor.NoLegacySkipped | scripts/refactor_frameworks.py:16-18 | a framework without `legacy_content` is left alone |
| Refactor.UntaggedSkipped | scripts/refactor_frameworks.py:22-26 | legacy content without `<system_prompt>` is skipped as an unknown format |
| Refactor.RefactoredDocument | scripts/refactor_frameworks.py:51-64 | the refactored document replaces only `framework`, with the prompt's shape, and keeps every key in place |
| Refactor.ShapeReadsBack | scripts/refactor_frameworks.py:51-61 | the new framework has the single key `system_prompt`, and the rules, steps, final output and directive can be read back from it |
| Refactor.FirstBodyAbsent | scripts/refactor_frameworks.py:29 | a section is missing exactly when every closing tag starts before the end of every opening tag |
| Refactor.FirstBodyFound | scripts/refactor_frameworks.py:29-32 | a found section body lies right after the first opening tag and ends at the first closing tag after it |
| Refactor.FirstBodyFindsBlock | scripts/refactor_frameworks.py:29-32 | a block at the first opening tag, with no closing tag inside it, is the body found |
| Refactor.RulesRoundTrip | scripts/refactor_frameworks.py:33 | rules written as `<rule>` blocks are found again, in order, whenever no rule contains `</rule>` and the gap text between blocks does not contain `<rule>` |
| Refactor.RulesSection | scripts/refactor_frameworks.py:28-34 | a formatting-rules section built from rules, none containing `</rule>`, with gaps not containing `<rule>`, yields those rules, stripped |
| Refactor.StepsOnOneLine | scripts/refactor_frameworks.py:41 | every step found has a name and a description without line breaks, since the step pattern is not DOTALL |
| Refactor.StepsRoundTrip | scripts/refactor_frameworks.py:41 | steps written one to a line are found again, in order, whenever no name contains `">`, no description contains `</step>`, neither holds a line break, and the gap does not contain `<step name="` |
| Refactor.StepsSection | scripts/refactor_frameworks.py:36-42 | a scratchpad-logic section built from such steps (no `">` in a name, no `</step>` in a description, no line break in either, no `<step name="` in the gap) yields those steps, stripped |
| Refactor.MissingSections | scripts/refactor_frameworks.py:28-49 | a missing section gives no rules, no steps, or an empty final output or directive |
| Refactor.ExtractPrompt | scripts/refactor_frameworks.py:28-49 | no contract of its own; `Refactor.RulesSection`, `Refactor.StepsSection`, `Refactor.MissingSections`, `Refactor.AbsentBlockEmpty` and `Refactor.ExtractedStripped` state what it extracts |
| Refactor.ExtractedStripped | scripts/refactor_frameworks.py:28-49 | every rule, step name, step description, final output and directive extracted is its own `strip()` |
| Refactor.AbsentBlockEmpty | scripts/refactor_frameworks.py:44-49 | a final output or directive with no block is the empty string |

## Left out

- File reading, writing and encodings. A read is an input: its text or the failure. A write is an input saying whether it succeeds, or an output. A write that fails after `open(..., 'w')` has truncated the file is not modelled.
- `yaml.safe_load` parsing and YAML syntax errors. The loaded value is an input.
- `yaml.dump` and `str()` of nested lists and mappings: these are the `dump` and `repr` function parameters. Dump options such as key order and flow style are not modelled.
- `str.title()` in the generic metadata template: the `title` function parameter.
- The `main` functions: directory walks, globbing, argument and environment handling, printing, logging, the success rate and the JSON report. `Remediator.ProcessAll` stands for the per-file loop.
- `Remediator.Unescape`: the script first tries `unicode_escape` decoding, which resolves every Python escape and re-decodes non-ASCII text. The model uses the fallback chain of three `replace` calls instead, so it treats only `\n`, `\t` and `\"`. The visible difference: on a value that `unicode_escape` rejects, such as `\x` without hex digits or a trailing lone backslash, the decoder raises `UnicodeDecodeError`. The `except SyntaxError` clause does not catch it, so the script records an error and leaves the file alone, where the model rewrites it. Non-ASCII text in a value is also decoded differently.
- `Remediator.FixText`: the fixes are not idempotent. A second pass over the output can change it again (`Remediator.PipelineNotIdempotent`). Only the restricted fixed point holds: marked text without no-break spaces where the pattern matches nowhere is left alone (`Remediator.FixTextFixedIff`, `Remediator.CleanTextFixed`).
- `TagParser.IsWordChar`: `\w` is modelled on ASCII letters, digits and `_`. Python's Unicode word characters beyond ASCII are not included.
- `Formatting.FixFile`: a list or mapping in a documentation field is rendered through `repr` and counts as truthy when non-empty, as in Python. Its YAML validity is not checked.
- The other scripts and the tests in the repository are not part of this model.

=== FILE: converter.dfy ===
/**
  `convert_framework`: decides whether a loaded framework document holds
  legacy tag markup in `framework.content`, attaches the parsed structure and
  a verbatim backup when the parse has structure, and renders the document
  text that is written back. Reading and writing the file are left to the
  caller; `repr` renders lists and mappings inside f-strings and `dump`
  stands for `yaml.dump` of the structure.
 */
module Converter {
  import opened Optional
  import opened PyStrings
  import opened Values
  import opened TagParser

  /** What one call does: nothing (`False`, file untouched), a rewrite with
      the updated document and the text written (`True`), or a Python
      exception, together with the text already written to the truncated
      file when the exception comes while writing. */
  datatype Outcome =
    | Skipped
    | Converted(data: Value, text: string)
    | Failed(error: PyError, partial: Option<string>)

  /** `re.search(r'<\w+[\s\w-]*>', s)` succeeds: somewhere an opening tag
      is complete. The name run cannot stop early, since `>` is not a name
      character. */
  predicate HasOpenTag(s: string) {
    exists i | 0 <= i < |s| :: OpenTagAt(s, i)
  }

  predicate OpenTagAt(s: string, i: nat) {
    && i + 1 < |s| && s[i] == '<' && IsWordChar(s[i + 1])
    && NameEnd(s, i + 2) < |s| && s[NameEnd(s, i + 2)] == '>'
  }

  /** A parse is kept as structure unless it is a lone `content` entry. */
  predicate IsStructured(parsed: seq<Entry>) {
    |parsed| > 1 || !HasKey(parsed, "content")
  }

  /** The new `framework` mapping: the parse under `structure` (which keeps
      its place if the key exists) and the content under
      `original_content`, every other key kept. */
  function Restructure(fw: seq<Entry>, content: string): (r: seq<Entry>)
    ensures Lookup(r, "structure") == Some(Map(Parse(content)))
    ensures Lookup(r, "original_content") == Some(Str(content))
    ensures forall k | k != "structure" && k != "original_content" :: Lookup(r, k) == Lookup(fw, k)
  {
    Put(Put(fw, "structure", Map(Parse(content))), "original_content", Str(content))
  }

  /** The whole call. */
  function Convert(data: Value, repr: Value -> string, dump: Value -> string): (r: Outcome)
    ensures r.Converted? ==> r.data.Map?
  {
    if !data.Map? || !HasKey(data.entries, "framework") then Skipped
    else
      var fw := Lookup(data.entries, "framework").value;
      match Values.Contains(fw, "content")
      case Raise(e) => Failed(e, None)
      case Ok(present) =>
        if !present then Skipped
        else
          match GetItem(fw, "content")
          case Raise(e) => Failed(e, None)
          case Ok(c) =>
            if !c.Str? then Failed(TypeError, None)
            else if !HasOpenTag(c.s) then Skipped
            else if IsStructured(Parse(c.s)) then
              var fw' := Restructure(fw.entries, c.s);
              Write(Put(data.entries, "framework", Map(fw')), fw', c.s, repr, dump)
            else
              Write(data.entries, fw.entries, c.s, repr, dump)
  }

  /** `key: "value"` for a string, `key: value` otherwise. */
  function ScalarLine(indent: string, key: string, v: Value, repr: Value -> string): string {
    if v.Str? then indent + key + ": \"" + v.s + "\"\n"
    else indent + key + ": " + Show(v, repr) + "\n"
  }

  /** The `name`, `version` and `category` lines, for the keys present. */
  function MetaLines(es: seq<Entry>, repr: Value -> string): string {
    MetaLine(es, "name", repr) + MetaLine(es, "version", repr) + MetaLine(es, "category", repr)
  }

  function MetaLine(es: seq<Entry>, key: string, repr: Value -> string): string {
    match Lookup(es, key)
    case Some(v) => ScalarLine("", key, v, repr)
    case None => ""
  }

  /** One indented line per documentation item, in mapping order. */
  function DocLines(items: seq<Entry>, repr: Value -> string): string {
    if items == [] then ""
    else ScalarLine("  ", items[0].key, items[0].val, repr) + DocLines(items[1..], repr)
  }

  /** The `framework:` section: the dumped structure when the mapping has
      one, then every content line under `content: |+`. */
  function FrameworkLines(fw: seq<Entry>, content: string, dump: Value -> string): string {
    var structure :=
      match Lookup(fw, "structure")
      case Some(st) => "  structure:\n" + IndentLines(SplitLines(dump(st)), "    ")
      case None => "";
    "framework:\n" + structure + "  content: |+\n" + IndentLines(SplitLines(content), "    ")
  }

  /** The file text for the document `es`; `.items()` on a documentation
      value that is not a mapping raises once `documentation:` is out. */
  function Write(es: seq<Entry>, fw: seq<Entry>, content: string,
                 repr: Value -> string, dump: Value -> string): (r: Outcome)
    ensures r.Converted? ==> r.data == Map(es)
    ensures r.Converted? ==> r.text == Preamble(es, repr) + FrameworkLines(fw, content, dump)
    ensures r.Failed? ==> r.error == AttributeError && r.partial.Some? && StartsWith(r.partial.value, "---\n")
  {
    var doc := Lookup(es, "documentation");
    if doc.Some? && !doc.value.Map? then
      StartsWithPrefix("---\n", MetaLines(es, repr) + "documentation:\n");
      Failed(AttributeError, Some("---\n" + (MetaLines(es, repr) + "documentation:\n")))
    else Converted(Map(es), Preamble(es, repr) + FrameworkLines(fw, content, dump))
  }

  /** The marker, the metadata lines and the documentation section. */
  function Preamble(es: seq<Entry>, repr: Value -> string): (r: string)
    ensures StartsWith(r, "---\n")
  {
    var docs :=
      match Lookup(es, "documentation")
      case Some(Map(items)) => "documentation:\n" + DocLines(items, repr)
      case _ => "";
    StartsWithPrefix("---\n", MetaLines(es, repr) + docs);
    "---\n" + (MetaLines(es, repr) + docs)
  }

  /** `data['framework']`, when `data` is a mapping that has it. */
  function Framework(data: Value): (r: Option<Value>)
    ensures r.Some? <==> data.Map? && HasKey(data.entries, "framework")
  {
    if data.Map? then Lookup(data.entries, "framework") else None
  }

  /** `data['framework']['content']` is the string `c`. */
  predicate HasContent(data: Value, c: string) {
    match Framework(data)
    case Some(Map(fw)) => Lookup(fw, "content") == Some(Str(c))
    case _ => false
  }

  /** Writing cannot fail: there is no documentation, or it is a mapping. */
  predicate DocumentationWritable(data: Value) {
    data.Map? && match Lookup(data.entries, "documentation")
                 case None => true
                 case Some(doc) => doc.Map?
  }

  /** The ways `convert_framework` returns `False` and leaves the file
      alone: the document is not a mapping, has no `framework`, its
      framework mapping has no `content`, or the content holds no opening
      tag. */
  lemma SkipCases(data: Value, repr: Value -> string, dump: Value -> string)
    ensures !data.Map? ==> Convert(data, repr, dump).Skipped?
    ensures Framework(data).None? ==> Convert(data, repr, dump).Skipped?
    ensures forall fw | Framework(data) == Some(Map(fw)) && !HasKey(fw, "content") ::
              Convert(data, repr, dump).Skipped?
    ensures forall c | HasContent(data, c) && !HasOpenTag(c) :: Convert(data, repr, dump).Skipped?
  {
  }

  /** A converted document is a mapping that keeps `framework` and every
      other key, and the text written for it starts with the marker line. */
  lemma ConvertedShape(data: Value, repr: Value -> string, dump: Value -> string)
    requires Convert(data, repr, dump).Converted?
    ensures data.Map? && Framework(Convert(data, repr, dump).data).Some?
    ensures forall k | k != "framework" ::
              Lookup(Convert(data, repr, dump).data.entries, k) == Lookup(data.entries, k)
    ensures StartsWith(Convert(data, repr, dump).text, "---\n")
  {
    var c := ConvertedContent(data, repr, dump);
    TaggedContentConverts(data, c, repr, dump);
    if IsStructured(Parse(c)) {
      StructuredConversion(data, c, repr, dump);
    } else {
      PlainContentStillRewritten(data, c, repr, dump);
      ConvertPlain(data, c, repr, dump);
    }
  }

  /** The content a converted document was converted from. */
  lemma ConvertedContent(data: Value, repr: Value -> string, dump: Value -> string) returns (c: string)
    requires Convert(data, repr, dump).Converted? || Convert(data, repr, dump).Failed?
    requires !Convert(data, repr, dump).Failed? || Convert(data, repr, dump).partial.Some?
    ensures HasContent(data, c) && HasOpenTag(c)
  {
    var fw := Framework(data).value;
    c := Lookup(fw.entries, "content").value.s;
  }

  /** A write that fails leaves a file that starts with the marker line. */
  lemma FailedWriteMarked(data: Value, repr: Value -> string, dump: Value -> string)
    requires Convert(data, repr, dump).Failed? && Convert(data, repr, dump).partial.Some?
    ensures StartsWith(Convert(data, repr, dump).partial.value, "---\n")
  {
    var c := ConvertedContent(data, repr, dump);
    if IsStructured(Parse(c)) {
      ConvertStructured(data, c, repr, dump);
    } else {
      ConvertPlain(data, c, repr, dump);
    }
  }

  /** Content that does hold an opening tag is always rewritten, unless
      writing the documentation raises; so the skips above are the only
      ones for a well-shaped document. */
  lemma TaggedContentConverts(data: Value, c: string, repr: Value -> string, dump: Value -> string)
    requires HasContent(data, c) && HasOpenTag(c)
    ensures Convert(data, repr, dump).Converted? <==> DocumentationWritable(data)
    ensures !DocumentationWritable(data) ==> (Convert(data, repr, dump).Failed?
                                              && Convert(data, repr, dump).error == AttributeError)
  {
    var fw := Framework(data).value.entries;
    if IsStructured(Parse(c)) {
      ConvertStructured(data, c, repr, dump);
      var fw' := Restructure(fw, c);
      var es := Put(data.entries, "framework", Map(fw'));
      assert Lookup(es, "documentation") == Lookup(data.entries, "documentation");
      WriteFails(es, fw', c, repr, dump);
    } else {
      ConvertPlain(data, c, repr, dump);
      WriteFails(data.entries, fw, c, repr, dump);
    }
  }

  /** Writing fails exactly when the documentation is there but is not a
      mapping. */
  lemma WriteFails(es: seq<Entry>, fw: seq<Entry>, c: string, repr: Value -> string, dump: Value -> string)
    ensures Write(es, fw, c, repr, dump).Converted? <==>
              (Lookup(es, "documentation").None? || Lookup(es, "documentation").value.Map?)
    ensures Write(es, fw, c, repr, dump).Failed? <==>
              (Lookup(es, "documentation").Some? && !Lookup(es, "documentation").value.Map?)
  {
  }

  /** Shapes Python rejects before the file is opened: `in` on a
      framework value that is neither a mapping, a string nor a list, and
      content that is not a string. */
  lemma BadShapesRaise(data: Value, repr: Value -> string, dump: Value -> string)
    requires Framework(data).Some?
    ensures var fw := Framework(data).value;
            (fw.Null? || fw.Bool? || fw.Num?) ==> Convert(data, repr, dump) == Failed(TypeError, None)
    ensures var fw := Framework(data).value;
            fw.Map? && Lookup(fw.entries, "content").Some? && !Lookup(fw.entries, "content").value.Str?
            ==> Convert(data, repr, dump) == Failed(TypeError, None)
  {
  }

  /** A structured parse: the document keeps every top-level key but
      `framework`, which becomes the restructured mapping, and the text starts with the document marker
      and ends with the dumped structure and every content line under
      `content: |+`. */
  lemma StructuredConversion(data: Value, c: string, repr: Value -> string, dump: Value -> string)
    requires HasContent(data, c) && HasOpenTag(c) && IsStructured(Parse(c))
    requires DocumentationWritable(data)
    ensures Convert(data, repr, dump).Converted?
    ensures forall k | k != "framework" ::
              Lookup(Convert(data, repr, dump).data.entries, k) == Lookup(data.entries, k)
    ensures Framework(Convert(data, repr, dump).data)
            == Some(Map(Restructure(Framework(data).value.entries, c)))
    ensures StartsWith(Convert(data, repr, dump).text, "---\n")
    ensures EndsWith(Convert(data, repr, dump).text,
                     "  structure:\n" + IndentLines(SplitLines(dump(Map(Parse(c)))), "    ")
                     + "  content: |+\n" + IndentLines(SplitLines(c), "    "))
  {
    var fw := Framework(data).value.entries;
    var fw' := Restructure(fw, c);
    var es := Put(data.entries, "framework", Map(fw'));
    ConvertStructured(data, c, repr, dump);
    assert Lookup(es, "documentation") == Lookup(data.entries, "documentation");
    WriteFails(es, fw', c, repr, dump);
    var r := Write(es, fw', c, repr, dump);
    var tail := "  structure:\n" + IndentLines(SplitLines(dump(Map(Parse(c)))), "    ")
                + "  content: |+\n" + IndentLines(SplitLines(c), "    ");
    FrameworkLinesWithStructure(fw', c, dump, Map(Parse(c)));
    EndsWithSuffix(Preamble(es, repr), FrameworkLines(fw', c, dump));
    EndsWithSuffix("framework:\n", tail);
    EndsWithTrans(r.text, FrameworkLines(fw', c, dump), tail);
    StartsWithExtend(Preamble(es, repr), FrameworkLines(fw', c, dump), "---\n");
  }

  /** A structured parse: the call writes the document whose framework is
      restructured. */
  lemma ConvertStructured(data: Value, c: string, repr: Value -> string, dump: Value -> string)
    requires HasContent(data, c) && HasOpenTag(c) && IsStructured(Parse(c))
    ensures var fw' := Restructure(Framework(data).value.entries, c);
            Convert(data, repr, dump) == Write(Put(data.entries, "framework", Map(fw')), fw', c, repr, dump)
  {
  }

  /** A plain parse: the call writes the document as it was loaded. */
  lemma ConvertPlain(data: Value, c: string, repr: Value -> string, dump: Value -> string)
    requires HasContent(data, c) && HasOpenTag(c) && !IsStructured(Parse(c))
    ensures Convert(data, repr, dump) == Write(data.entries, Framework(data).value.entries, c, repr, dump)
  {
  }

  /** The framework section of a mapping that has a structure. */
  lemma FrameworkLinesWithStructure(fw: seq<Entry>, content: string, dump: Value -> string, st: Value)
    requires Lookup(fw, "structure") == Some(st)
    ensures FrameworkLines(fw, content, dump)
            == "framework:\n" + ("  structure:\n" + IndentLines(SplitLines(dump(st)), "    ")
                                + "  content: |+\n" + IndentLines(SplitLines(content), "    "))
  {
    var structure := "  structure:\n" + IndentLines(SplitLines(dump(st)), "    ");
    var contentLines := "  content: |+\n" + IndentLines(SplitLines(content), "    ");
    assert FrameworkLines(fw, content, dump) == "framework:\n" + structure + contentLines;
    ConcatAssoc("framework:\n", structure, contentLines);
  }

  /** A plain parse (a lone `content` entry) leaves the document as it was,
      and the call still rewrites the file and reports a conversion. */
  lemma PlainContentStillRewritten(data: Value, c: string, repr: Value -> string, dump: Value -> string)
    requires HasContent(data, c) && HasOpenTag(c) && !IsStructured(Parse(c))
    requires DocumentationWritable(data)
    ensures Convert(data, repr, dump).Converted?
    ensures Convert(data, repr, dump).data == data
  {
  }

  /** Nothing guards against converting twice: the converted document,
      converted again, comes out the same and with the same text. */
  lemma ReconvertIsFixedPoint(data: Value, repr: Value -> string, dump: Value -> string)
    requires data.Map? && UniqueKeys(data.entries)
    requires Framework(data).Some? && Framework(data).value.Map?
    requires UniqueKeys(Framework(data).value.entries)
    requires Convert(data, repr, dump).Converted?
    ensures Convert(Convert(data, repr, dump).data, repr, dump) == Convert(data, repr, dump)
  {
    var fw := Framework(data).value.entries;
    var c := Lookup(fw, "content").value.s;
    assert HasContent(data, c) && HasOpenTag(c);
    TaggedContentConverts(data, c, repr, dump);
    if IsStructured(Parse(c)) {
      var fw' := Restructure(fw, c);
      var es := Put(data.entries, "framework", Map(fw'));
      ConvertStructured(data, c, repr, dump);
      assert Convert(data, repr, dump).data == Map(es);
      PutUnique(fw, "structure", Map(Parse(c)));
      PutUnique(Put(fw, "structure", Map(Parse(c))), "original_content", Str(c));
      PutUnique(data.entries, "framework", Map(fw'));
      assert HasContent(Map(es), c);
      assert DocumentationWritable(Map(es));
      ConvertStructured(Map(es), c, repr, dump);
      assert Restructure(fw', c) == fw' by {
        PutPresent(fw', "structure");
        PutPresent(fw', "original_content");
      }
      PutPresent(es, "framework");
    } else {
      PlainContentStillRewritten(data, c, repr, dump);
    }
  }

  /** `p` is a prefix of `p + t`. */
  lemma StartsWithPrefix(p: string, t: string)
    ensures StartsWith(p + t, p)
  {
    assert (p + t)[..|p|] == p;
  }

  /** A prefix of `p` is a prefix of `p + t`. */
  lemma StartsWithExtend(p: string, t: string, q: string)
    requires StartsWith(p, q)
    ensures StartsWith(p + t, q)
  {
    assert (p + t)[..|q|] == p[..|q|];
  }

  /** A suffix of a suffix is a suffix. */
  lemma EndsWithTrans(s: string, t: string, u: string)
    requires EndsWith(s, t) && EndsWith(t, u)
    ensures EndsWith(s, u)
  {
    assert s[|s| - |u|..] == s[|s| - |t|..][|t| - |u|..];
  }

  /** `t` is a suffix of `p + t`. */
  lemma EndsWithSuffix(p: string, t: string)
    ensures EndsWith(p + t, t)
  {
    assert (p + t)[|p|..] == t;
  }

  /** Every match of the tag pattern opens with a complete opening tag, so
      content the converter skips for want of one has no tag pair for the
      parser either. */
  lemma NoOpenTagNoMatches(s: string)
    requires !HasOpenTag(s)
    ensures Matches(s) == []
  {
    if Matches(s) != [] {
      ScanSound(s, 0);
      MatchOpensWithTag(s, Matches(s)[0].start);
    }
  }

  lemma MatchOpensWithTag(s: string, i: nat)
    requires MatchAt(s, i).Some?
    ensures i < |s| && OpenTagAt(s, i)
  {
  }
}

=== FILE: docmarkers.dfy ===
/**
  The YAML document start marker `---`: the test both scripts apply
  (`content.strip().startswith('---')`), the prepend, and the stand-alone
  `add_doc_marker`, with the file read and write as inputs.
 */
module DocMarkers {
  import opened Optional
  import opened PyStrings

  /** The stripped text already begins with `---`. */
  predicate HasStartMarker(s: string) {
    StartsWith(Strip(s), "---")
  }

  /** `---\n` in front, unless the marker is already there. */
  function AddMarker(s: string): string {
    if HasStartMarker(s) then s else "---\n" + s
  }

  /** After the step the marker is present. */
  lemma AddMarkerMarks(s: string)
    ensures HasStartMarker(AddMarker(s))
  {
    if !HasStartMarker(s) {
      assert "---\n" + s == "---" + ("\n" + s);
      StripKeepsSolidPrefix("---", "\n" + s);
    }
  }

  /** Applying the step twice is applying it once. */
  lemma AddMarkerIdempotent(s: string)
    ensures AddMarker(AddMarker(s)) == AddMarker(s)
  {
    AddMarkerMarks(s);
  }

  /** The original text survives byte for byte after the marker. */
  lemma AddMarkerKeepsText(s: string)
    ensures EndsWith(AddMarker(s), s)
    ensures |AddMarker(s)| - |s| in {0, 4}
  {
    assert AddMarker(s)[|AddMarker(s)| - |s|..] == s;
  }

  /** What reading the file gives: its text, an `IOError`, or a decoding
      error (a `ValueError`, which `add_doc_marker` does not catch). */
  datatype Read = Text(s: string) | IOFailure | DecodeFailure

  /** One call: the value returned and the text written, or the decoding
      error propagating. */
  datatype Outcome =
    | Returned(modified: bool, written: Option<string>)
    | DecodeErrorRaised

  /** `add_doc_marker`; `writeOk` says whether opening and writing the file
      succeeds. */
  function AddDocMarker(read: Read, writeOk: bool): (r: Outcome)
    ensures r.Returned? && r.modified <==> r.Returned? && r.written.Some?
    ensures r.Returned? && r.written.Some? ==> read.Text? && r.written.value == "---\n" + read.s
  {
    match read
    case IOFailure => Returned(false, None)
    case DecodeFailure => DecodeErrorRaised
    case Text(s) =>
      if HasStartMarker(s) then Returned(false, None)
      else if !writeOk then Returned(false, None)
      else Returned(true, Some("---\n" + s))
  }

  /** Marked text is left alone and the call returns `False`. */
  lemma MarkedIsKept(s: string, writeOk: bool)
    requires HasStartMarker(s)
    ensures AddDocMarker(Text(s), writeOk) == Returned(false, None)
  {
  }

  /** Unmarked text gets exactly `---\n` in front and the call returns
      `True`; afterwards the marker is present. */
  lemma UnmarkedIsPrepended(s: string)
    requires !HasStartMarker(s)
    ensures AddDocMarker(Text(s), true) == Returned(true, Some("---\n" + s))
    ensures HasStartMarker(AddDocMarker(Text(s), true).written.value)
  {
    AddMarkerMarks(s);
  }

  /** Running the script on its own output changes nothing: the second call
      returns `False` and writes nothing. */
  lemma SecondCallIsNoOp(s: string, writeOk: bool)
    ensures var first := AddDocMarker(Text(s), true);
            var after := if first.written.Some? then first.written.value else s;
            AddDocMarker(Text(after), writeOk) == Returned(false, None)
  {
    AddMarkerMarks(s);
  }

  /** An `IOError`, reading or writing, makes the call return `False`; a
      decoding error propagates. */
  lemma ErrorsAreReported(s: string)
    ensures AddDocMarker(IOFailure, true) == Returned(false, None)
    ensures !HasStartMarker(s) ==> AddDocMarker(Text(s), false) == Returned(false, None)
    ensures AddDocMarker(DecodeFailure, true) == DecodeErrorRaised
  {
  }
}

=== FILE: formatting.dfy ===
/**
  `fix_yaml_formatting.fix_yaml_file`: rewrites a loaded framework document
  as a fixed sequence of lines, with the version always double-quoted and
  the content as a literal block. Loading the file is left to the caller,
  which passes the loaded value; `repr` renders lists and mappings inside
  f-strings.
 */
module Formatting {
  import opened Optional
  import opened PyStrings
  import opened Values

  /** What one call does: returns `False` without writing, writes `text`
      and returns `True`, or raises. */
  datatype Outcome =
    | Unchanged
    | Rewritten(text: string)
    | Raised(error: PyError)

  /** The documentation fields that are emitted, in output order. */
  const DocFields: seq<string> := ["purpose", "use_case", "character_count", "operational_guide"]

  /** The line for one documentation field. */
  function DocLine(field: string, v: Value, repr: Value -> string): string {
    "  " + field + ": " + Show(v, repr)
  }

  /** `doc.get(f)` for each field `f`, `None` when the field is missing. */
  function FieldValues(doc: seq<Entry>, fields: seq<string>): (vs: seq<Value>)
    ensures |vs| == |fields|
  {
    seq(|fields|, i requires 0 <= i < |fields| => Get(doc, fields[i], Null))
  }

  /** A line for each field whose value (in `vals`, field by field) is
      truthy. */
  function DocLines(fields: seq<string>, vals: seq<Value>, repr: Value -> string): (r: seq<string>)
    requires |vals| == |fields|
    ensures |r| <= |fields|
  {
    if fields == [] then []
    else
      (if Truthy(vals[0]) then [DocLine(fields[0], vals[0], repr)] else [])
      + DocLines(fields[1..], vals[1..], repr)
  }

  /** The documentation lines of a documentation mapping. */
  function DocSection(doc: seq<Entry>, repr: Value -> string): seq<string> {
    DocLines(DocFields, FieldValues(doc, DocFields), repr)
  }

  /** A piece of the content, indented four spaces unless it is empty. */
  function ContentLine(piece: string): string {
    if piece == "" then "" else "    " + piece
  }

  function ContentLines(pieces: seq<string>): (r: seq<string>)
    ensures |r| == |pieces|
    ensures forall i | 0 <= i < |pieces| :: r[i] == ContentLine(pieces[i])
  {
    if pieces == [] then [] else [ContentLine(pieces[0])] + ContentLines(pieces[1..])
  }

  /** The lines of the rewritten file, in order. */
  function Layout(name: string, version: string, category: string,
                  docLines: seq<string>, contentLines: seq<string>): seq<string>
  {
    ["name: " + name, "version: \"" + version + "\"", "category: " + category, "documentation:"]
    + docLines + ["framework:", "  content: |"] + contentLines
  }

  /** The parts of a document that reach the output. */
  datatype Record = Record(name: Value, version: Value, category: Value,
                           doc: seq<Entry>, content: string)

  /** `data['name']`, `data.get('version', '')`, `data['category']`, the
      documentation mapping and `framework.content`, read in the order the
      function reads them. Subscripting a document that is not a mapping
      raises `TypeError`; everything after that depends only on what the
      five keys hold. */
  function Extract(data: Value): (r: Result<Record>)
    ensures r.Ok? ==> data.Map? && HasKey(data.entries, "name") && HasKey(data.entries, "category")
  {
    if !data.Map? then Raise(TypeError)
    else
      var es := data.entries;
      ReadRecord(Lookup(es, "name"), Lookup(es, "version"), Lookup(es, "category"),
                 Lookup(es, "documentation"), Lookup(es, "framework"))
  }

  /** The record from what the five keys hold (`None` when missing): a
      missing `name` or `category` raises `KeyError`; `.get` on a
      documentation or framework value that is not a mapping raises
      `AttributeError`. */
  function ReadRecord(name: Option<Value>, version: Option<Value>, category: Option<Value>,
                      doc: Option<Value>, fw: Option<Value>): (r: Result<Record>)
    ensures r.Ok? ==> name.Some? && category.Some?
  {
    if name.None? then Raise(KeyError("name"))
    else if category.None? then Raise(KeyError("category"))
    else
      var d := if doc.Some? then doc.value else Map([]);
      if !d.Map? then Raise(AttributeError)
      else
        match FrameworkContent(fw)
        case Raise(e) => Raise(e)
        case Ok(content) =>
          var v := if version.Some? then version.value else Str("");
          Ok(Record(name.value, v, category.value, d.entries, content))
  }

  /** `data.get('framework', {}).get('content', '')`, which must be a
      string for `.split` to exist. */
  function FrameworkContent(fw: Option<Value>): (r: Result<string>)
    ensures r.Raise? ==> r.error == AttributeError
  {
    var f := if fw.Some? then fw.value else Map([]);
    if !f.Map? then Raise(AttributeError)
    else
      match Lookup(f.entries, "content")
      case None => Ok("")
      case Some(Str(c)) => Ok(c)
      case Some(_) => Raise(AttributeError)
  }

  /** The lines of the rewritten file, in order: six fixed lines, one per
      documentation field written and one per content line. */
  function Lines(rec: Record, repr: Value -> string): (r: seq<string>)
    ensures |r| == 6 + |DocSection(rec.doc, repr)| + |Split(rec.content, '\n')|
  {
    Layout(Show(rec.name, repr), Show(rec.version, repr), Show(rec.category, repr),
           DocSection(rec.doc, repr), ContentLines(Split(rec.content, '\n')))
  }

  /** The lines joined by newlines, plus the final newline. */
  function Render(rec: Record, repr: Value -> string): (text: string)
    ensures EndsWith(text, "\n")
  {
    var text := Join(Lines(rec, repr), "\n") + "\n";
    assert text[|text| - 1..] == "\n";
    text
  }

  /** The whole call, from the loaded document. */
  function FixFile(data: Value, repr: Value -> string): (r: Outcome)
    ensures r.Unchanged? <==> !Truthy(data)
    ensures r.Rewritten? <==> Truthy(data) && Extract(data).Ok?
  {
    if !Truthy(data) then Unchanged
    else
      match Extract(data)
      case Raise(e) => Raised(e)
      case Ok(rec) => Rewritten(Render(rec, repr))
  }

  /** Empty or missing data: `False`, nothing written. */
  lemma EmptyDataUnchanged(repr: Value -> string)
    ensures FixFile(Null, repr) == Unchanged
    ensures FixFile(Map([]), repr) == Unchanged
    ensures FixFile(Str(""), repr) == Unchanged
  {
  }

  /** The ways the call raises: a truthy document that is not a mapping, a
      missing `name` or `category`, and a `documentation`, `framework` or
      `content` of the wrong kind. */
  lemma ErrorCases(data: Value, repr: Value -> string)
    requires Truthy(data)
    ensures !data.Map? ==> FixFile(data, repr) == Raised(TypeError)
    ensures data.Map? && !HasKey(data.entries, "name") ==> FixFile(data, repr) == Raised(KeyError("name"))
    ensures data.Map? && HasKey(data.entries, "name") && !HasKey(data.entries, "category")
            ==> FixFile(data, repr) == Raised(KeyError("category"))
    ensures data.Map? && HasKey(data.entries, "name") && HasKey(data.entries, "category")
            && Lookup(data.entries, "documentation").Some?
            && !Lookup(data.entries, "documentation").value.Map?
            ==> FixFile(data, repr) == Raised(AttributeError)
  {
  }

  /** A document the output can be built from: `name` and `category`
      present, documentation and framework mappings (or missing), and
      string content (or missing). */
  predicate WellShaped(es: seq<Entry>) {
    && HasKey(es, "name") && HasKey(es, "category")
    && Get(es, "documentation", Map([])).Map?
    && Get(es, "framework", Map([])).Map?
    && Get(Get(es, "framework", Map([])).entries, "content", Str("")).Str?
  }

  /** A well-shaped document is exactly one a record can be read from. */
  lemma ExtractOkWhenWellShaped(es: seq<Entry>)
    ensures Extract(Map(es)).Ok? <==> WellShaped(es)
  {
    var fw := Lookup(es, "framework");
    assert FrameworkContent(fw).Ok? <==>
             (Get(es, "framework", Map([])).Map?
              && Get(Get(es, "framework", Map([])).entries, "content", Str("")).Str?);
  }

  /** A non-empty document is rewritten, and `True` returned, exactly when
      it is well shaped. */
  lemma RewrittenWhenWellShaped(es: seq<Entry>, repr: Value -> string)
    requires es != []
    ensures FixFile(Map(es), repr).Rewritten? <==> WellShaped(es)
  {
    assert Truthy(Map(es));
    ExtractOkWhenWellShaped(es);
  }

  /** What is written is built from the values the document holds, `""`
      standing in for a missing version or content and no documentation
      lines for a missing documentation mapping. */
  lemma RecordFromDocument(es: seq<Entry>)
    requires WellShaped(es)
    ensures var rec := Extract(Map(es)).value;
            && Lookup(es, "name") == Some(rec.name)
            && Lookup(es, "category") == Some(rec.category)
            && (HasKey(es, "version") ==> Lookup(es, "version") == Some(rec.version))
            && (!HasKey(es, "version") ==> rec.version == Str(""))
            && (HasKey(es, "documentation") ==> Lookup(es, "documentation") == Some(Map(rec.doc)))
            && (!HasKey(es, "documentation") ==> rec.doc == [])
            && (!HasKey(es, "framework") ==> rec.content == "")
  {
    ExtractOkWhenWellShaped(es);
  }

  /** Reading a content line back as a literal block does: drop the four
      spaces of indentation. */
  function Unindent(line: string): string {
    if StartsWith(line, "    ") then line[4..] else line
  }

  function UnindentAll(lines: seq<string>): (r: seq<string>)
    ensures |r| == |lines|
    ensures forall i | 0 <= i < |lines| :: r[i] == Unindent(lines[i])
  {
    if lines == [] then [] else [Unindent(lines[0])] + UnindentAll(lines[1..])
  }

  /** The content block gives back the content: unindenting its lines and
      joining them with newlines restores `framework.content` exactly,
      empty lines included. */
  lemma ContentReadsBack(content: string)
    ensures UnindentAll(ContentLines(Split(content, '\n'))) == Split(content, '\n')
    ensures Join(UnindentAll(ContentLines(Split(content, '\n'))), "\n") == content
  {
    var pieces := Split(content, '\n');
    var back := UnindentAll(ContentLines(pieces));
    forall i | 0 <= i < |pieces|
      ensures back[i] == pieces[i]
    {
      var p := pieces[i];
      if p != "" {
        assert ("    " + p)[4..] == p;
      }
    }
    SplitSpec(content, '\n');
  }

  /** No content line holds a newline. */
  lemma ContentLinesSingle(content: string)
    ensures forall i | 0 <= i < |ContentLines(Split(content, '\n'))| ::
              '\n' !in ContentLines(Split(content, '\n'))[i]
  {
    SplitSpec(content, '\n');
  }

  /** Which of the values are truthy. */
  function Flags(vals: seq<Value>): (fs: seq<bool>)
    ensures |fs| == |vals|
  {
    seq(|vals|, i requires 0 <= i < |vals| => Truthy(vals[i]))
  }

  /** The indices from `k` on whose flag is set. */
  function TruthyAt(flags: seq<bool>, k: nat): (ks: seq<nat>)
    requires k <= |flags|
    decreases |flags| - k
  {
    if k == |flags| then []
    else (if flags[k] then [k] else []) + TruthyAt(flags, k + 1)
  }

  /** The listed indices are in range and increasing, so each is listed
      once. */
  lemma {:induction false} TruthyAtOrdered(flags: seq<bool>, k: nat)
    requires k <= |flags|
    decreases |flags| - k
    ensures forall i | 0 <= i < |TruthyAt(flags, k)| :: k <= TruthyAt(flags, k)[i] < |flags|
    ensures forall i, j | 0 <= i < j < |TruthyAt(flags, k)| :: TruthyAt(flags, k)[i] < TruthyAt(flags, k)[j]
  {
    if k < |flags| {
      TruthyAtOrdered(flags, k + 1);
      var rest := TruthyAt(flags, k + 1);
      var ks := TruthyAt(flags, k);
      if flags[k] {
        assert ks == [k] + rest;
        forall i | 1 <= i < |ks|
          ensures ks[i] == rest[i - 1] && k < ks[i] < |flags|
        {
        }
        forall i, j | 0 <= i < j < |ks|
          ensures ks[i] < ks[j]
        {
          if i > 0 {
            assert ks[i] == rest[i - 1] && ks[j] == rest[j - 1];
          }
        }
      } else {
        assert ks == rest;
      }
    }
  }

  /** An index is listed exactly when its flag is set. */
  lemma {:induction false} TruthyAtMembers(flags: seq<bool>, k: nat)
    requires k <= |flags|
    decreases |flags| - k
    ensures forall f | k <= f < |flags| :: f in TruthyAt(flags, k) <==> flags[f]
  {
    if k < |flags| {
      TruthyAtMembers(flags, k + 1);
      TruthyAtOrdered(flags, k + 1);
      var rest := TruthyAt(flags, k + 1);
      forall i | 0 <= i < |rest|
        ensures rest[i] != k
      {
      }
      assert k !in rest;
      var ks := TruthyAt(flags, k);
      assert ks == if flags[k] then [k] + rest else rest;
      forall f | k <= f < |flags|
        ensures f in ks <==> flags[f]
      {
        if f > k {
          assert f in ks <==> f in rest;
        }
      }
    }
  }

  /** The documentation lines are exactly the truthy fields in field
      order: the `i`-th line belongs to the `i`-th truthy field. */
  lemma {:induction false} DocLinesSpec(fields: seq<string>, vals: seq<Value>, k: nat, repr: Value -> string)
    requires |vals| == |fields| && k <= |fields|
    decreases |fields| - k
    ensures |DocLines(fields[k..], vals[k..], repr)| == |TruthyAt(Flags(vals), k)|
    ensures forall i | 0 <= i < |TruthyAt(Flags(vals), k)| ::
              && TruthyAt(Flags(vals), k)[i] < |fields|
              && DocLines(fields[k..], vals[k..], repr)[i]
                 == DocLine(fields[TruthyAt(Flags(vals), k)[i]], vals[TruthyAt(Flags(vals), k)[i]], repr)
  {
    if k < |fields| {
      DocLinesSpec(fields, vals, k + 1, repr);
      assert fields[k..][1..] == fields[k + 1..] && vals[k..][1..] == vals[k + 1..];
      assert fields[k..][0] == fields[k] && vals[k..][0] == vals[k];
      var rest := TruthyAt(Flags(vals), k + 1);
      var ks := TruthyAt(Flags(vals), k);
      var lrest := DocLines(fields[k + 1..], vals[k + 1..], repr);
      var ls := DocLines(fields[k..], vals[k..], repr);
      if Flags(vals)[k] {
        assert ks == [k] + rest;
        assert ls == [DocLine(fields[k], vals[k], repr)] + lrest;
        forall i | 1 <= i < |ks|
          ensures ks[i] < |fields| && ls[i] == DocLine(fields[ks[i]], vals[ks[i]], repr)
        {
          assert ks[i] == rest[i - 1] && ls[i] == lrest[i - 1];
        }
      } else {
        assert ks == rest && ls == lrest;
      }
    }
  }

  /** The positions in `DocFields` of the fields a mapping sets truthily. */
  function DocIndices(doc: seq<Entry>): seq<nat> {
    TruthyAt(Flags(FieldValues(doc, DocFields)), 0)
  }

  /** For the documentation mapping: one line per truthy field among
      `purpose`, `use_case`, `character_count`, `operational_guide`, in
      that order, each `  field: value` with the mapping's value. */
  lemma DocSectionSpec(doc: seq<Entry>, repr: Value -> string)
    ensures |DocSection(doc, repr)| == |DocIndices(doc)|
    ensures forall i, j | 0 <= i < j < |DocIndices(doc)| :: DocIndices(doc)[i] < DocIndices(doc)[j]
    ensures forall f | 0 <= f < |DocFields| ::
              f in DocIndices(doc) <==> Truthy(Get(doc, DocFields[f], Null))
    ensures forall i | 0 <= i < |DocIndices(doc)| ::
              && DocIndices(doc)[i] < |DocFields|
              && DocSection(doc, repr)[i]
                 == DocLine(DocFields[DocIndices(doc)[i]], Get(doc, DocFields[DocIndices(doc)[i]], Null), repr)
  {
    var vals := FieldValues(doc, DocFields);
    TruthyAtOrdered(Flags(vals), 0);
    TruthyAtMembers(Flags(vals), 0);
    DocLinesSpec(DocFields, vals, 0, repr);
    assert DocFields[0..] == DocFields && vals[0..] == vals;
  }

  /** Where each part of the record lands among the lines. */
  lemma LinesShape(rec: Record, repr: Value -> string)
    ensures var ls := Lines(rec, repr);
            var docs := DocSection(rec.doc, repr);
            var d := |docs|;
            && |ls| == 6 + d + |Split(rec.content, '\n')|
            && ls[0] == "name: " + Show(rec.name, repr)
            && ls[1] == "version: \"" + Show(rec.version, repr) + "\""
            && ls[2] == "category: " + Show(rec.category, repr)
            && ls[3] == "documentation:"
            && ls[4..4 + d] == docs
            && ls[4 + d] == "framework:"
            && ls[5 + d] == "  content: |"
            && ls[6 + d..] == ContentLines(Split(rec.content, '\n'))
  {
  }

  /** No line of `ls` holds a newline. */
  predicate SingleLines(ls: seq<string>) {
    forall k | 0 <= k < |ls| :: '\n' !in ls[k]
  }

  lemma SingleLinesConcat(a: seq<string>, b: seq<string>)
    requires SingleLines(a) && SingleLines(b)
    ensures SingleLines(a + b)
  {
    forall k | 0 <= k < |a + b|
      ensures '\n' !in (a + b)[k]
    {
      if k >= |a| {
        assert (a + b)[k] == b[k - |a|];
      }
    }
  }

  /** No line holds a newline when no shown scalar does. */
  lemma LinesSingle(rec: Record, repr: Value -> string)
    requires '\n' !in Show(rec.name, repr)
    requires '\n' !in Show(rec.version, repr)
    requires '\n' !in Show(rec.category, repr)
    requires SingleLines(DocSection(rec.doc, repr))
    ensures SingleLines(Lines(rec, repr))
  {
    var head := ["name: " + Show(rec.name, repr), "version: \"" + Show(rec.version, repr) + "\"",
                 "category: " + Show(rec.category, repr), "documentation:"];
    var docs := DocSection(rec.doc, repr);
    var mid := ["framework:", "  content: |"];
    var body := ContentLines(Split(rec.content, '\n'));
    assert SingleLines(head);
    assert SingleLines(mid);
    assert SingleLines(body) by {
      ContentLinesSingle(rec.content);
    }
    SingleLinesConcat(head, docs);
    SingleLinesConcat(head + docs, mid);
    SingleLinesConcat(head + docs + mid, body);
  }

  /** Splitting the file at newlines gives back its lines, then the empty
      piece after the final newline, when no scalar shown on a line holds
      a newline itself; `LinesShape` says where each part of the record
      sits among them and `ContentReadsBack` that the content lines give
      back the content. */
  lemma FileLines(rec: Record, repr: Value -> string)
    requires '\n' !in Show(rec.name, repr)
    requires '\n' !in Show(rec.version, repr)
    requires '\n' !in Show(rec.category, repr)
    requires SingleLines(DocSection(rec.doc, repr))
    ensures Split(Render(rec, repr), '\n') == Lines(rec, repr) + [""]
  {
    var lines := Lines(rec, repr);
    var all := lines + [""];
    assert Render(rec, repr) == Join(all, "\n") by {
      JoinSnoc(lines, "", "\n");
    }
    assert SingleLines(all) by {
      LinesSingle(rec, repr);
      SingleLinesConcat(lines, [""]);
    }
    SplitJoin(all, '\n');
  }

  /** The call depends on the document only through its truthiness and
      the record read from it. */
  lemma FixFileByRecord(d1: Value, d2: Value, repr: Value -> string)
    requires Truthy(d1) == Truthy(d2) && Extract(d1) == Extract(d2)
    ensures FixFile(d1, repr) == FixFile(d2, repr)
  {
  }

  /** Two truthy documents reading the same record have the same outcome. */
  lemma FixFileSame(d1: Value, d2: Value, repr: Value -> string)
    requires Truthy(d1) && Truthy(d2) && Extract(d1) == Extract(d2)
    ensures FixFile(d1, repr) == FixFile(d2, repr)
  {
    FixFileByRecord(d1, d2, repr);
  }

  /** Keys other than `name`, `version`, `category`, `documentation` and
      `framework` are dropped: adding one leaves the record read as it was,
      and so the outcome of a document that was not already empty. (An
      empty document is left alone, while one holding only the extra key
      is truthy and raises for its missing `name`.) */
  lemma ExtraKeysDropped(es: seq<Entry>, k: string, v: Value, repr: Value -> string)
    requires k !in {"name", "version", "category", "documentation", "framework"}
    ensures Extract(Map(Put(es, k, v))) == Extract(Map(es))
    ensures es != [] ==> FixFile(Map(Put(es, k, v)), repr) == FixFile(Map(es), repr)
  {
    ExtraKeysRecord(es, k, v);
    if es != [] {
      PutNonEmpty(es, k, v);
      FixFileSame(Map(Put(es, k, v)), Map(es), repr);
    }
  }

  lemma ExtraKeysRecord(es: seq<Entry>, k: string, v: Value)
    requires k !in {"name", "version", "category", "documentation", "framework"}
    ensures Extract(Map(Put(es, k, v))) == Extract(Map(es))
  {
    var es' := Put(es, k, v);
    assert Lookup(es', "name") == Lookup(es, "name");
    assert Lookup(es', "category") == Lookup(es, "category");
    assert Lookup(es', "version") == Lookup(es, "version");
    assert Lookup(es', "documentation") == Lookup(es, "documentation");
    assert Lookup(es', "framework") == Lookup(es, "framework");
  }

  /** Only `framework.content` is read from the framework mapping: any
      other key of it changes nothing. */
  lemma FrameworkKeysDropped(fw: seq<Entry>, k: string, v: Value)
    requires k != "content"
    ensures FrameworkContent(Some(Map(Put(fw, k, v)))) == FrameworkContent(Some(Map(fw)))
  {
    assert Lookup(Put(fw, k, v), "content") == Lookup(fw, "content");
  }

  /** The record depends on the framework mapping only through the
      content it yields. */
  lemma ReadRecordByContent(n: Option<Value>, ver: Option<Value>, c: Option<Value>, d: Option<Value>,
                            f1: Option<Value>, f2: Option<Value>)
    requires FrameworkContent(f1) == FrameworkContent(f2)
    ensures ReadRecord(n, ver, c, d, f1) == ReadRecord(n, ver, c, d, f2)
  {
  }

  /** Two documents that agree on the five keys read the same record. */
  lemma ExtractByKeys(a: seq<Entry>, b: seq<Entry>)
    requires Lookup(a, "name") == Lookup(b, "name") && Lookup(a, "version") == Lookup(b, "version")
    requires Lookup(a, "category") == Lookup(b, "category")
    requires Lookup(a, "documentation") == Lookup(b, "documentation")
    requires FrameworkContent(Lookup(a, "framework")) == FrameworkContent(Lookup(b, "framework"))
    ensures Extract(Map(a)) == Extract(Map(b))
  {
    ReadRecordByContent(Lookup(a, "name"), Lookup(a, "version"), Lookup(a, "category"),
                        Lookup(a, "documentation"), Lookup(a, "framework"), Lookup(b, "framework"));
  }

  /** The whole document with another key in its framework mapping reads
      the same record, and so has the same outcome. */
  lemma FrameworkExtraKeysDropped(es: seq<Entry>, fw: seq<Entry>, k: string, v: Value, repr: Value -> string)
    requires k != "content"
    ensures Extract(Map(Put(es, "framework", Map(Put(fw, k, v)))))
            == Extract(Map(Put(es, "framework", Map(fw))))
    ensures FixFile(Map(Put(es, "framework", Map(Put(fw, k, v)))), repr)
            == FixFile(Map(Put(es, "framework", Map(fw))), repr)
  {
    var a := Put(es, "framework", Map(Put(fw, k, v)));
    var b := Put(es, "framework", Map(fw));
    FrameworkKeysRecord(es, fw, k, v);
    PutNonEmpty(es, "framework", Map(Put(fw, k, v)));
    PutNonEmpty(es, "framework", Map(fw));
    FixFileSame(Map(a), Map(b), repr);
  }

  lemma FrameworkKeysRecord(es: seq<Entry>, fw: seq<Entry>, k: string, v: Value)
    requires k != "content"
    ensures Extract(Map(Put(es, "framework", Map(Put(fw, k, v)))))
            == Extract(Map(Put(es, "framework", Map(fw))))
  {
    var a := Put(es, "framework", Map(Put(fw, k, v)));
    var b := Put(es, "framework", Map(fw));
    FrameworkKeysDropped(fw, k, v);
    assert Lookup(a, "framework") == Some(Map(Put(fw, k, v)));
    assert Lookup(b, "framework") == Some(Map(fw));
    ExtractByKeys(a, b);
  }

  /** The version does not decide whether a record can be read. */
  lemma ReadRecordVersion(n: Option<Value>, c: Option<Value>, d: Option<Value>, f: Option<Value>,
                          v1: Value, v2: Value)
    ensures ReadRecord(n, Some(v1), c, d, f).Ok? == ReadRecord(n, Some(v2), c, d, f).Ok?
    ensures ReadRecord(n, Some(v1), c, d, f).Raise? ==>
              ReadRecord(n, Some(v1), c, d, f) == ReadRecord(n, Some(v2), c, d, f)
    ensures ReadRecord(n, Some(v1), c, d, f).Ok? ==>
              && ReadRecord(n, Some(v1), c, d, f).value.version == v1
              && ReadRecord(n, Some(v2), c, d, f).value
                 == ReadRecord(n, Some(v1), c, d, f).value.(version := v2)
  {
  }

  /** Setting the version to a number or to the string of its digits
      reads the same record but for the version. */
  lemma VersionRecord(es: seq<Entry>, t: string)
    ensures var ra := Extract(Map(Put(es, "version", Num(t))));
            var rb := Extract(Map(Put(es, "version", Str(t))));
            && (ra.Raise? ==> ra == rb)
            && (ra.Ok? ==> rb.Ok? && ra.value.version == Num(t)
                           && rb.value == ra.value.(version := Str(t)))
  {
    var a := Put(es, "version", Num(t));
    var b := Put(es, "version", Str(t));
    var n, c, d, f := Lookup(a, "name"), Lookup(a, "category"), Lookup(a, "documentation"), Lookup(a, "framework");
    assert Extract(Map(a)) == ReadRecord(n, Some(Num(t)), c, d, f);
    assert Extract(Map(b)) == ReadRecord(n, Some(Str(t)), c, d, f) by {
      assert Lookup(b, "name") == n && Lookup(b, "category") == c;
      assert Lookup(b, "documentation") == d && Lookup(b, "framework") == f;
    }
    ReadRecordVersion(n, c, d, f, Num(t), Str(t));
  }

  /** A numeric version and the string of the same digits render the
      same file, with the version line `version: "<digits>"`: the version
      is quoted either way (`VersionRecord` shows the two documents read
      records that differ only there). */
  lemma NumericVersionQuoted(rec: Record, t: string, repr: Value -> string)
    ensures Render(rec.(version := Num(t)), repr) == Render(rec.(version := Str(t)), repr)
    ensures Lines(rec.(version := Num(t)), repr)[1] == "version: \"" + t + "\""
  {
    assert Lines(rec.(version := Num(t)), repr) == Lines(rec.(version := Str(t)), repr);
  }
}

=== FILE: metadata.dfy ===
/**
  `add_metadata_to_framework`: fills the documentation's `purpose` and
  `use_case` and the top-level `version` of a framework document from a
  template picked by the file name. The loaded document is an input and the
  document to dump is an output; reading, parsing and writing the file are
  left to the caller.
 */
module Metadata {
  import opened Optional
  import opened PyStrings
  import opened Values

  /** The three values a template supplies. */
  datatype Template = Template(purpose: string, useCase: string, version: string)

  /** The keys of `METADATA_TEMPLATES`, in its insertion order: a key is
      looked for as a substring of the file name, and the first key found
      wins. */
  const TemplateKeys: seq<string> := [
    "scratchpad-2.5",
    "scratchpad-2.6",
    "scratchpad-2.7",
    "scratchpad-lite",
    "scratchpad-concise",
    "scratchpad-think",
    "pplx-profile",
    "deep-researcher",
    "deeper-research",
    "emotional-intelligence",
    "planning-13",
    "novelize-review",
    "saganpad",
    "unified-conscious",
    "sonnet-thinking",
    "gemini-cli",
    "flow-gpt5",
    "game-design-gabg",
    "nlm-extended",
    "nlm-framework-500",
    "human-condition-benchmark",
    "podsynth"
  ]

  /** The values of `METADATA_TEMPLATES`: `Templates[j]` belongs to
      `TemplateKeys[j]`. */
  const Templates: seq<Template> := [
    Template("Structured AI reasoning framework with comprehensive cognitive operations",
             "Complex reasoning tasks requiring detailed analysis, synthesis, and metacognition",
             "2.5"),
    Template("Enhanced reasoning framework with improved attention management and pathway clarity",
             "Advanced problem-solving, strategic planning, research analysis",
             "2.6"),
    Template("Latest comprehensive scratchpad framework with optimized cognitive workflow",
             "High-complexity tasks requiring systematic reasoning, quality validation, and exploration",
             "2.7"),
    Template("Lightweight reasoning framework optimized for character-constrained environments",
             "Quick tasks in Comet Browser or similar character-limited platforms",
             "1.0"),
    Template("Minimal scratchpad framework focusing on essential reasoning steps only",
             "Simple queries requiring structured thinking without extensive metacognition",
             "1.0"),
    Template("Thinking-focused framework emphasizing deliberate cognitive processes",
             "Deep analytical tasks requiring explicit thought articulation",
             "1.0"),
    Template("Scratchpad framework optimized for Perplexity AI platform constraints",
             "Research queries on Perplexity requiring structured reasoning within platform limits",
             "1.0"),
    Template("Systematic research framework for thorough investigation and source analysis",
             "Academic research, literature reviews, comprehensive topic exploration",
             "1.0"),
    Template("Advanced research framework with enhanced depth and source validation",
             "Complex research projects requiring rigorous methodology and citation tracking",
             "1.0"),
    Template("Framework emphasizing emotional awareness, empathy, and nuanced human interaction",
             "Counseling scenarios, interpersonal communication, emotional support contexts",
             "1.0"),
    Template("Structured planning framework with 13-step systematic approach",
             "Project planning, strategic initiatives, complex task decomposition",
             "1.3"),
    Template("Literary analysis framework for narrative structure and storytelling evaluation",
             "Novel critique, creative writing feedback, narrative arc analysis",
             "1.0"),
    Template("Science communication framework inspired by Carl Sagan's accessible style",
             "Explaining complex scientific concepts to general audiences",
             "1.0"),
    Template("Holistic framework integrating multiple cognitive and awareness dimensions",
             "Philosophical inquiry, consciousness exploration, integrated thinking",
             "1.0"),
    Template("Reasoning framework optimized for Claude Sonnet model capabilities",
             "Complex reasoning tasks leveraging Sonnet's strengths in analysis and synthesis",
             "1.0"),
    Template("Command-line optimized framework for Gemini API interactions",
             "Terminal-based workflows, scripting, automated Gemini API calls",
             "1.0"),
    Template("Framework designed for fluid, conversational reasoning with GPT-5 architecture",
             "Natural dialogue-based problem solving, iterative refinement conversations",
             "5.0"),
    Template("Game design framework for mechanics, balance, and gameplay analysis",
             "Game development, mechanics design, player experience optimization",
             "1.0"),
    Template("Extended natural language modeling framework with enhanced linguistic analysis",
             "NLP tasks, linguistic research, language model evaluation",
             "1.0"),
    Template("Compact NLM framework optimized for 500-word constraint environments",
             "Brief linguistic analysis, summarization, constrained NLP tasks",
             "1.0"),
    Template("Framework for evaluating AI understanding of human experiences and conditions",
             "Ethics evaluation, empathy testing, human-centered AI assessment",
             "1.0"),
    Template("Podcast synthesis framework for audio content analysis and summarization",
             "Podcast production, audio content strategy, episode planning",
             "1.0")
  ]

  /** The index of the first key, from `i` on, that occurs in `stem`. */
  function FirstMatch(stem: string, i: nat): (r: Option<nat>)
    requires i <= |TemplateKeys|
    decreases |TemplateKeys| - i
    ensures r.Some? ==> i <= r.value < |TemplateKeys| && PyStrings.Contains(stem, TemplateKeys[r.value])
    ensures r.Some? ==> forall j | i <= j < r.value :: !PyStrings.Contains(stem, TemplateKeys[j])
    ensures r.None? ==> forall j | i <= j < |TemplateKeys| :: !PyStrings.Contains(stem, TemplateKeys[j])
  {
    if i == |TemplateKeys| then None
    else if PyStrings.Contains(stem, TemplateKeys[i]) then Some(i)
    else FirstMatch(stem, i + 1)
  }

  /** The template built when no key matches, from the file name and the
      name of the folder holding the file; `title` is Python's
      `str.title()`. */
  function Generic(stem: string, folder: string, title: string -> string): Template {
    Template(title(ReplaceChar(stem, '-', ' ')) + " framework for specialized AI reasoning",
             title(ReplaceChar(folder, '-', ' ')) + " tasks requiring structured cognitive approach",
             "1.0")
  }

  /** The template for a file called `stem` in folder `folder`: whichever
      is chosen supplies all three values, and the generic one has version
      `1.0`. */
  function ChooseTemplate(stem: string, folder: string, title: string -> string): (t: Template)
    ensures Complete(t)
    ensures FirstMatch(stem, 0).None? ==> t.version == "1.0"
  {
    match FirstMatch(stem, 0)
    case Some(j) =>
      TableComplete();
      Templates[j]
    case None =>
      DigitFirstNotBlank("1.0");
      Generic(stem, folder, title)
  }

  /** `str(v).strip()` is empty. `None`, the booleans and the `repr` of a
      list or mapping (which begins with a bracket) never are. */
  predicate ShowsBlank(v: Value) {
    match v
    case Num(t) => Strip(t) == ""
    case Str(s) => Strip(s) == ""
    case _ => false
  }

  /** `not data.get('version') or not str(data.get('version')).strip()` */
  predicate VersionMissing(v: Option<Value>) {
    v.None? || !Truthy(v.value) || ShowsBlank(v.value)
  }

  /** `not doc.get(field)` */
  predicate FieldMissing(doc: seq<Entry>, field: string) {
    !Truthy(Get(doc, field, Null))
  }

  /** The documentation mapping after the two fills: `purpose` first, then
      `use_case`, each written only when missing or falsy. */
  function FillDoc(doc: seq<Entry>, t: Template): (d: seq<Entry>)
    ensures Lookup(d, "purpose") ==
              if FieldMissing(doc, "purpose") then Some(Str(t.purpose)) else Lookup(doc, "purpose")
    ensures Lookup(d, "use_case") ==
              if FieldMissing(doc, "use_case") then Some(Str(t.useCase)) else Lookup(doc, "use_case")
    ensures forall k | k != "purpose" && k != "use_case" :: Lookup(d, k) == Lookup(doc, k)
  {
    var d1 := if FieldMissing(doc, "purpose") then Put(doc, "purpose", Str(t.purpose)) else doc;
    if FieldMissing(d1, "use_case") then Put(d1, "use_case", Str(t.useCase)) else d1
  }

  /** The document after the version fill. */
  function FillVersion(es: seq<Entry>, t: Template): (r: seq<Entry>)
    ensures Lookup(r, "version") ==
              if VersionMissing(Lookup(es, "version")) then Some(Str(t.version)) else Lookup(es, "version")
    ensures forall k | k != "version" :: Lookup(r, k) == Lookup(es, k)
  {
    if VersionMissing(Lookup(es, "version")) then Put(es, "version", Str(t.version)) else es
  }

  /** Some field is missing, so the call writes the file. */
  predicate NeedsFill(es: seq<Entry>, doc: seq<Entry>) {
    FieldMissing(doc, "purpose") || FieldMissing(doc, "use_case") || VersionMissing(Lookup(es, "version"))
  }

  /** What one call returns, and the document it dumps back to the file
      when it dumps one. */
  datatype Outcome = Outcome(modified: bool, written: Option<Value>)

  /** The fill on a mapping: the documentation must be a mapping (a missing
      one counts as `{}`), or `.get` raises `AttributeError`. The file is
      written, and `True` returned, exactly when a field was filled. */
  function Fill(es: seq<Entry>, t: Template): (r: Result<Outcome>)
    ensures r.Ok? <==> Get(es, "documentation", Map([])).Map?
    ensures r.Raise? ==> r.error == AttributeError
    ensures r.Ok? ==> (r.value.modified <==> r.value.written.Some?)
    ensures r.Ok? ==> (r.value.modified <==> NeedsFill(es, Get(es, "documentation", Map([])).entries))
  {
    var doc := Get(es, "documentation", Map([]));
    if !doc.Map? then Raise(AttributeError)
    else if NeedsFill(es, doc.entries) then
      Ok(Outcome(true, Some(Map(Put(FillVersion(es, t), "documentation", Map(FillDoc(doc.entries, t)))))))
    else Ok(Outcome(false, None))
  }

  /** `add_metadata_to_framework` on the loaded document `data` of the file
      `<folder>/<stem>.yml`. Empty or null data is read as `{}`; any other
      document that is not a mapping has no `.get` and raises. */
  function AddMetadata(data: Value, stem: string, folder: string, title: string -> string): (r: Result<Outcome>)
    ensures r.Ok? <==> !Truthy(data) || (data.Map? && Get(data.entries, "documentation", Map([])).Map?)
    ensures r.Ok? ==> (r.value.modified <==> r.value.written.Some?)
  {
    var t := ChooseTemplate(stem, folder, title);
    if !Truthy(data) then Fill([], t)
    else if data.Map? then Fill(data.entries, t)
    else Raise(AttributeError)
  }

  /** The documentation mapping `.get` returns, `{}` when it is absent. */
  function DocOf(es: seq<Entry>): seq<Entry> {
    var d := Get(es, "documentation", Map([]));
    if d.Map? then d.entries else []
  }

  /** The template comes from the first key of the table, in table order,
      that is a substring of the file name. */
  lemma FirstMatchIsLeast(stem: string, j: nat)
    requires j < |TemplateKeys|
    ensures FirstMatch(stem, 0) == Some(j) <==>
              PyStrings.Contains(stem, TemplateKeys[j])
              && forall i | 0 <= i < j :: !PyStrings.Contains(stem, TemplateKeys[i])
  {
  }

  /** A file whose name holds the `j`-th key and none before it gets the
      `j`-th template. */
  lemma ChosenTemplate(stem: string, folder: string, title: string -> string, j: nat)
    requires j < |TemplateKeys| && PyStrings.Contains(stem, TemplateKeys[j])
    requires forall i | 0 <= i < j :: !PyStrings.Contains(stem, TemplateKeys[i])
    ensures ChooseTemplate(stem, folder, title) == Templates[j]
  {
    FirstMatchIsLeast(stem, j);
  }

  /** A file whose name holds no key gets the generic template, whose
      version is `1.0`. */
  lemma GenericWhenNoKey(stem: string, folder: string, title: string -> string)
    requires forall i | 0 <= i < |TemplateKeys| :: !PyStrings.Contains(stem, TemplateKeys[i])
    ensures ChooseTemplate(stem, folder, title) == Generic(stem, folder, title)
    ensures ChooseTemplate(stem, folder, title).version == "1.0"
  {
  }

  /** Every value a template supplies counts as present once written. */
  predicate Complete(t: Template) {
    t.purpose != "" && t.useCase != "" && !VersionMissing(Some(Str(t.version)))
  }

  /** A text that starts with a digit is not blank after `strip()`. */
  lemma DigitFirstNotBlank(v: string)
    requires v != [] && '0' <= v[0] <= '9'
    ensures !VersionMissing(Some(Str(v)))
  {
    StripNonEmpty(v);
  }

  /** Every template in the table is complete. */
  lemma TableComplete()
    ensures |Templates| == |TemplateKeys|
    ensures forall j | 0 <= j < |Templates| :: Complete(Templates[j])
  {
    forall j | 0 <= j < |Templates|
      ensures Complete(Templates[j])
    {
      DigitFirstNotBlank(Templates[j].version);
    }
  }


  /** The written document: the documentation after the fills under its
      old key, the version after its fill, every other key as it was. */
  lemma WrittenKeys(es: seq<Entry>, t: Template)
    requires Fill(es, t).Ok? && Fill(es, t).value.modified
    ensures Fill(es, t).value.written.value.Map?
    ensures Lookup(Fill(es, t).value.written.value.entries, "documentation") == Some(Map(FillDoc(DocOf(es), t)))
    ensures Lookup(Fill(es, t).value.written.value.entries, "version") ==
              if VersionMissing(Lookup(es, "version")) then Some(Str(t.version)) else Lookup(es, "version")
    ensures forall k | k != "version" && k != "documentation" ::
              Lookup(Fill(es, t).value.written.value.entries, k) == Lookup(es, k)
  {
  }

  /** A field that is present and truthy is never overwritten: `purpose`,
      `use_case` and `version` keep their values, and only missing or
      falsy ones take the template's. */
  lemma NothingOverwritten(es: seq<Entry>, t: Template)
    requires Fill(es, t).Ok? && Fill(es, t).value.modified
    ensures !FieldMissing(DocOf(es), "purpose") ==>
              Lookup(FillDoc(DocOf(es), t), "purpose") == Lookup(DocOf(es), "purpose")
    ensures FieldMissing(DocOf(es), "purpose") ==>
              Lookup(FillDoc(DocOf(es), t), "purpose") == Some(Str(t.purpose))
    ensures !FieldMissing(DocOf(es), "use_case") ==>
              Lookup(FillDoc(DocOf(es), t), "use_case") == Lookup(DocOf(es), "use_case")
    ensures FieldMissing(DocOf(es), "use_case") ==>
              Lookup(FillDoc(DocOf(es), t), "use_case") == Some(Str(t.useCase))
    ensures !VersionMissing(Lookup(es, "version")) ==>
              Lookup(Fill(es, t).value.written.value.entries, "version") == Lookup(es, "version")
  {
    WrittenKeys(es, t);
  }

  /** After the fills with a complete template nothing is missing. */
  lemma FilledIsComplete(es: seq<Entry>, t: Template)
    requires Complete(t)
    ensures !FieldMissing(FillDoc(es, t), "purpose") && !FieldMissing(FillDoc(es, t), "use_case")
    ensures !VersionMissing(Lookup(FillVersion(es, t), "version"))
  {
    var d := FillDoc(es, t);
    assert !FieldMissing(d, "purpose") by {
      assert FieldMissing(es, "purpose") ==> Lookup(d, "purpose") == Some(Str(t.purpose));
    }
    assert !FieldMissing(d, "use_case") by {
      assert FieldMissing(es, "use_case") ==> Lookup(d, "use_case") == Some(Str(t.useCase));
    }
  }

  /** Running the script again on the document it wrote returns `False`
      and writes nothing. */
  lemma SecondRunIsNoOp(data: Value, stem: string, folder: string, title: string -> string)
    requires AddMetadata(data, stem, folder, title).Ok?
    requires AddMetadata(data, stem, folder, title).value.modified
    ensures AddMetadata(AddMetadata(data, stem, folder, title).value.written.value, stem, folder, title)
            == Ok(Outcome(false, None))
  {
    var t := ChooseTemplate(stem, folder, title);
    var es := if Truthy(data) then data.entries else [];
    assert AddMetadata(data, stem, folder, title) == Fill(es, t);
    FillTwice(es, t);
    AddMetadataOnMapping(Fill(es, t).value.written.value.entries, stem, folder, title);
  }

  /** A non-empty mapping goes straight to the fill. */
  lemma AddMetadataOnMapping(es: seq<Entry>, stem: string, folder: string, title: string -> string)
    requires es != []
    ensures AddMetadata(Map(es), stem, folder, title) == Fill(es, ChooseTemplate(stem, folder, title))
  {
    assert Truthy(Map(es));
  }

  /** The fill with a complete template leaves a document it does not fill
      again. */
  lemma FillTwice(es: seq<Entry>, t: Template)
    requires Complete(t) && Fill(es, t).Ok? && Fill(es, t).value.modified
    ensures Fill(es, t).value.written.value.Map?
    ensures Fill(es, t).value.written.value.entries != []
    ensures Fill(Fill(es, t).value.written.value.entries, t) == Ok(Outcome(false, None))
  {
    WrittenKeys(es, t);
    var w := Put(FillVersion(es, t), "documentation", Map(FillDoc(DocOf(es), t)));
    PutNonEmpty(FillVersion(es, t), "documentation", Map(FillDoc(DocOf(es), t)));
    FilledIsComplete(DocOf(es), t);
    FilledIsComplete(es, t);
    assert Get(w, "documentation", Map([])) == Map(FillDoc(DocOf(es), t));
    assert !NeedsFill(w, FillDoc(DocOf(es), t));
  }

  /** With no documentation both fields are filled, `purpose` first. */
  lemma FillDocEmpty(t: Template)
    ensures FillDoc([], t) == [Entry("purpose", Str(t.purpose)), Entry("use_case", Str(t.useCase))]
  {
    var d1 := [Entry("purpose", Str(t.purpose))];
    assert Put([], "purpose", Str(t.purpose)) == d1 by {
      assert Assign([], "purpose", Str(t.purpose)) == d1;
    }
    assert FieldMissing(d1, "use_case") by {
      assert d1[0].key[0] == 'p';
      assert Lookup(d1[1..], "use_case") == None;
    }
    AppendNewKey(d1, "use_case", Str(t.useCase));
  }

  /** With no version the version is filled, and the documentation then
      goes in after it. */
  lemma FillVersionEmpty(t: Template, doc: Value)
    ensures Put(FillVersion([], t), "documentation", doc)
            == [Entry("version", Str(t.version)), Entry("documentation", doc)]
  {
    var v := [Entry("version", Str(t.version))];
    assert FillVersion([], t) == v by {
      assert Assign([], "version", Str(t.version)) == v;
    }
    assert v[0].key[0] == 'v';
    AppendNewKey(v, "documentation", doc);
  }

  /** Assigning a key that the one-entry mapping lacks appends it. */
  lemma AppendNewKey(es: seq<Entry>, k: string, v: Value)
    requires |es| == 1 && es[0].key != k
    ensures Put(es, k, v) == es + [Entry(k, v)]
  {
    assert Assign(es, k, v) == [es[0]] + Assign(es[1..], k, v);
    assert es[1..] == [];
  }

  /** With nothing in the document every field is filled: the version
      goes in first and the documentation after it. */
  lemma FillEmpty(t: Template)
    ensures Fill([], t)
            == Ok(Outcome(true, Some(Map([
                 Entry("version", Str(t.version)),
                 Entry("documentation", Map([Entry("purpose", Str(t.purpose)), Entry("use_case", Str(t.useCase))]))]))))
  {
    FillDocEmpty(t);
    FillVersionEmpty(t, Map(FillDoc([], t)));
    assert Get([], "documentation", Map([])) == Map([]);
  }

  /** An empty file, or one holding only `null`, `false`, `0` or `""`, is
      read as `{}`: the call returns `True` and writes the version first and
      then the documentation with both fields. */
  lemma EmptyDataFilled(data: Value, stem: string, folder: string, title: string -> string)
    requires !Truthy(data)
    ensures AddMetadata(data, stem, folder, title) == AddMetadata(Map([]), stem, folder, title)
    ensures AddMetadata(data, stem, folder, title)
            == Ok(Outcome(true, Some(Map([
                 Entry("version", Str(ChooseTemplate(stem, folder, title).version)),
                 Entry("documentation", Map([
                   Entry("purpose", Str(ChooseTemplate(stem, folder, title).purpose)),
                   Entry("use_case", Str(ChooseTemplate(stem, folder, title).useCase))]))]))))
  {
    FillEmpty(ChooseTemplate(stem, folder, title));
  }
}

=== FILE: optional.dfy ===
/** A value that may be absent: the result of a search that can fail. */
module Optional {

  datatype Option<+T> = None | Some(value: T)
}

=== FILE: pystrings.dfy ===
/**
  The Python `str` operations the scripts rely on (`isspace`, `strip`,
  `startswith`, `in`, `find`, `replace`, `split`, `join`, `splitlines`),
  written over `string` = `seq<char>`.
 */
module PyStrings {
  import opened Optional

  /** `str.isspace()` for one character. The same set is stripped by
      `str.strip()` and matched by `\s` in a `str` pattern. */
  predicate IsSpace(c: char) {
    || ('\t' <= c <= '\r')
    || ('\U{1C}' <= c <= ' ')
    || c == '\U{85}' || c == '\U{A0}' || c == '\U{1680}'
    || ('\U{2000}' <= c <= '\U{200A}')
    || c == '\U{2028}' || c == '\U{2029}' || c == '\U{202F}'
    || c == '\U{205F}' || c == '\U{3000}'
  }

  /** The line boundaries of `str.splitlines()` (`\r\n` counts as one). */
  predicate IsLineBreak(c: char) {
    || ('\n' <= c <= '\r')
    || ('\U{1C}' <= c <= '\U{1E}')
    || c == '\U{85}' || c == '\U{2028}' || c == '\U{2029}'
  }

  /** `s.startswith(p)` */
  predicate StartsWith(s: string, p: string) {
    |p| <= |s| && s[..|p|] == p
  }

  /** `s.endswith(t)` */
  predicate EndsWith(s: string, t: string) {
    |t| <= |s| && s[|s| - |t|..] == t
  }

  /** `pat` occurs in `s` starting at index `k`. */
  predicate OccursAt(s: string, pat: string, k: int) {
    0 <= k && k + |pat| <= |s| && s[k..k + |pat|] == pat
  }

  /** `pat in s` for strings: a substring test. */
  predicate Contains(s: string, pat: string) {
    exists k | 0 <= k <= |s| - |pat| :: OccursAt(s, pat, k)
  }

  /** `s.lstrip()` */
  function LStrip(s: string): (r: string)
    ensures |r| <= |s| && r == s[|s| - |r|..]
    ensures forall i | 0 <= i < |s| - |r| :: IsSpace(s[i])
    ensures r == [] || !IsSpace(r[0])
  {
    if s == [] || !IsSpace(s[0]) then s else LStrip(s[1..])
  }

  /** `s.rstrip()` */
  function RStrip(s: string): (r: string)
    ensures |r| <= |s| && r == s[..|r|]
    ensures forall i | |r| <= i < |s| :: IsSpace(s[i])
    ensures r == [] || !IsSpace(r[|r| - 1])
  {
    if s == [] || !IsSpace(s[|s| - 1]) then s else RStrip(s[..|s| - 1])
  }

  /** `s.strip()`: the result never begins or ends with whitespace. */
  function Strip(s: string): (r: string)
    ensures |r| <= |s|
    ensures r == [] || (!IsSpace(r[0]) && !IsSpace(r[|r| - 1]))
  {
    RStrip(LStrip(s))
  }

  /** A string with no whitespace at either end is its own strip. */
  lemma StripFixesTrimmed(s: string)
    requires s == [] || (!IsSpace(s[0]) && !IsSpace(s[|s| - 1]))
    ensures Strip(s) == s
  {
    assert LStrip(s) == s;
  }

  /** `strip()` is idempotent. */
  lemma StripIdempotent(s: string)
    ensures Strip(Strip(s)) == Strip(s)
  {
    var t := Strip(s);
    assert t == [] || (!IsSpace(t[0]) && !IsSpace(t[|t| - 1]));
    StripFixesTrimmed(t);
  }

  /** A string that begins with a non-space character strips to something
      non-empty. */
  lemma StripNonEmpty(s: string)
    requires s != [] && !IsSpace(s[0])
    ensures Strip(s) != []
  {
    assert LStrip(s) == s;
  }

  /** Stripping a text that begins with a prefix free of whitespace keeps
      that prefix in front: `(p + t).strip().startswith(p)`. */
  lemma StripKeepsSolidPrefix(p: string, t: string)
    requires p != [] && forall i | 0 <= i < |p| :: !IsSpace(p[i])
    ensures StartsWith(Strip(p + t), p)
  {
    var s := p + t;
    assert s[0] == p[0];
    assert LStrip(s) == s;
    assert s[|p| - 1] == p[|p| - 1];
    var r := RStrip(s);
    assert r[..|p|] == s[..|p|] == p;
  }

  /** `pat` is spelled out character by character from `k` on: the
      occurrence test `Find` makes, one character at a time. */
  predicate SpellsAt(s: string, pat: string, k: nat)
    requires k + |pat| <= |s|
    decreases |pat|
  {
    |pat| == 0 || (s[k] == pat[0] && SpellsAt(s, pat[1..], k + 1))
  }

  /** Spelling a pattern out is an occurrence of it. */
  lemma {:induction false} SpellsAtOccurs(s: string, pat: string, k: nat)
    requires k + |pat| <= |s|
    decreases |pat|
    ensures SpellsAt(s, pat, k) <==> OccursAt(s, pat, k)
  {
    if |pat| > 0 {
      SpellsAtOccurs(s, pat[1..], k + 1);
      assert s[k..k + |pat|] == [s[k]] + s[k + 1..k + 1 + |pat[1..]|];
      assert pat == [pat[0]] + pat[1..];
    }
  }

  /** Some character of `s[from..k]` is a newline. */
  predicate CrossesNewline(s: string, from: nat, k: nat) {
    exists j | from <= j < k && j < |s| :: s[j] == '\n'
  }

  /** The first index `k >= from` at which `pat` occurs in `s` (see
      `FindSpec`). With `dotAll` false the search gives up at the first
      newline it would have to step over, which is how a lazy `.*?`
      followed by a literal behaves in a pattern compiled without
      `re.DOTALL`. */
  function Find(s: string, pat: string, from: nat, dotAll: bool): (r: Option<nat>)
    requires |pat| > 0
    decreases |s| - from
    ensures r.Some? ==> from <= r.value && r.value + |pat| <= |s|
  {
    if from + |pat| > |s| then None
    else if SpellsAt(s, pat, from) then Some(from)
    else if !dotAll && s[from] == '\n' then None
    else Find(s, pat, from + 1, dotAll)
  }

  /** A found index is an occurrence with none before it (and, without
      `dotAll`, no newline before it); when nothing is found, every
      occurrence lies beyond a newline the search may not cross. */
  lemma {:induction false} FindSpec(s: string, pat: string, from: nat, dotAll: bool)
    requires |pat| > 0
    decreases |s| - from
    ensures var r := Find(s, pat, from, dotAll);
            && (r.Some? ==> OccursAt(s, pat, r.value))
            && (r.Some? ==> forall k | from <= k < r.value :: !OccursAt(s, pat, k))
            && (r.Some? && !dotAll ==> forall k | from <= k < r.value :: s[k] != '\n')
            && (r.None? ==> forall k | from <= k && OccursAt(s, pat, k) ::
                              !dotAll && CrossesNewline(s, from, k))
  {
    if from + |pat| <= |s| {
      SpellsAtOccurs(s, pat, from);
    }
    if from + |pat| <= |s| && !OccursAt(s, pat, from) && (dotAll || s[from] != '\n') {
      FindSpec(s, pat, from + 1, dotAll);
      var r := Find(s, pat, from, dotAll);
      if r.None? {
        forall k | from <= k && OccursAt(s, pat, k)
          ensures !dotAll && CrossesNewline(s, from, k)
        {
          assert k != from;
          assert CrossesNewline(s, from + 1, k);
        }
      }
    }
  }

  /** `pat in s` is decided by a search from the front. */
  lemma FindDecidesContains(s: string, pat: string)
    requires |pat| > 0
    ensures Contains(s, pat) <==> Find(s, pat, 0, true).Some?
  {
    FindSpec(s, pat, 0, true);
    if Find(s, pat, 0, true).Some? {
      var k := Find(s, pat, 0, true).value;
      assert OccursAt(s, pat, k);
    }
  }

  /** The search steps over positions where the pattern does not occur
      (and, without `dotAll`, that are not newlines). */
  lemma {:induction false} FindSkips(s: string, pat: string, from: nat, upto: nat, dotAll: bool)
    requires |pat| > 0 && from <= upto <= |s|
    requires forall x | from <= x < upto :: !OccursAt(s, pat, x) && (dotAll || s[x] != '\n')
    decreases upto - from
    ensures Find(s, pat, from, dotAll) == Find(s, pat, upto, dotAll)
  {
    if from < upto {
      if from + |pat| <= |s| {
        SpellsAtOccurs(s, pat, from);
      }
      FindSkips(s, pat, from + 1, upto, dotAll);
    }
  }

  /** The first character of `pat` appears nowhere else in it, as in
      `</rule>` or `">`: two occurrences of such a pattern never overlap. */
  predicate LoneHead(pat: string) {
    |pat| > 0 && forall i | 0 < i < |pat| :: pat[i] != pat[0]
  }

  /** A stretch `s[a..b]` that does not contain a lone-headed pattern, and
      is followed by the end or by the pattern's first character, holds no
      occurrence starting inside it, not even one running past `b`. */
  lemma NoOccurrenceWithin(s: string, pat: string, a: nat, b: nat)
    requires LoneHead(pat) && a <= b <= |s|
    requires !Contains(s[a..b], pat)
    requires b == |s| || s[b] == pat[0]
    ensures forall x | a <= x < b :: !OccursAt(s, pat, x)
  {
    forall x | a <= x < b
      ensures !OccursAt(s, pat, x)
    {
      if x + |pat| <= b {
        if OccursAt(s, pat, x) {
          var t := s[a..b];
          assert t[x - a..x - a + |pat|] == pat by {
            forall i | 0 <= i < |pat|
              ensures t[x - a..x - a + |pat|][i] == pat[i]
            {
              assert t[x - a + i] == s[x + i] == s[x..x + |pat|][i];
            }
          }
          assert OccursAt(t, pat, x - a);
        }
      } else if x + |pat| <= |s| {
        assert s[b] != pat[b - x];
      }
    }
  }

  /** A search standing on an occurrence finds it. */
  lemma FindHere(s: string, pat: string, from: nat, dotAll: bool)
    requires |pat| > 0 && OccursAt(s, pat, from)
    ensures Find(s, pat, from, dotAll) == Some(from)
  {
    SpellsAtOccurs(s, pat, from);
  }

  /** A search starting at or past the end finds nothing. */
  lemma FindPastEnd(s: string, pat: string, from: nat, dotAll: bool)
    requires |pat| > 0 && from >= |s|
    ensures Find(s, pat, from, dotAll) == None
  {
  }

  /** `s.replace(a, b)` for single characters. */
  function ReplaceChar(s: string, a: char, b: char): (r: string)
    ensures |r| == |s|
    ensures forall i | 0 <= i < |s| :: r[i] == (if s[i] == a then b else s[i])
  {
    seq(|s|, i requires 0 <= i < |s| => if s[i] == a then b else s[i])
  }

  /** `s.replace(pat, rep)`: occurrences are found left to right and never
      overlap. */
  function ReplaceAll(s: string, pat: string, rep: string): (r: string)
    requires |pat| > 0
    decreases |s|
  {
    if |s| < |pat| then s
    else if s[..|pat|] == pat then rep + ReplaceAll(s[|pat|..], pat, rep)
    else [s[0]] + ReplaceAll(s[1..], pat, rep)
  }

  /** A text with no occurrence of the pattern's first character is left
      alone by `replace`. */
  lemma {:induction false} ReplaceAllAbsent(s: string, pat: string, rep: string)
    requires |pat| > 0 && pat[0] !in s
    ensures ReplaceAll(s, pat, rep) == s
  {
    if |s| >= |pat| {
      assert s[0] != pat[0];
      ReplaceAllAbsent(s[1..], pat, rep);
    }
  }

  /** `replace` consumes an occurrence at the front and carries on after it. */
  lemma ReplaceAllHit(pat: string, rest: string, rep: string)
    requires |pat| > 0
    ensures ReplaceAll(pat + rest, pat, rep) == rep + ReplaceAll(rest, pat, rep)
  {
    assert (pat + rest)[..|pat|] == pat && (pat + rest)[|pat|..] == rest;
  }

  /** A leading character that cannot start the pattern is copied. */
  lemma ReplaceAllSkip(c: char, rest: string, pat: string, rep: string)
    requires |pat| > 0 && c != pat[0]
    ensures ReplaceAll([c] + rest, pat, rep) == [c] + ReplaceAll(rest, pat, rep)
  {
    assert ([c] + rest)[1..] == rest;
    if |[c] + rest| >= |pat| {
      assert ([c] + rest)[..|pat|][0] == c;
    }
  }

  /** Every character removed: `s.replace(c, '')`, and likewise
      `re.sub(c + '+', '', s)`. */
  function Remove(s: string, c: char): (r: string)
    ensures c !in r
    ensures |r| <= |s|
    ensures c !in s ==> r == s
  {
    if s == [] then []
    else if s[0] == c then Remove(s[1..], c)
    else [s[0]] + Remove(s[1..], c)
  }

  /** `sep.join(parts)` */
  function Join(parts: seq<string>, sep: string): string {
    if |parts| == 0 then ""
    else if |parts| == 1 then parts[0]
    else parts[0] + sep + Join(parts[1..], sep)
  }

  lemma ConcatAssoc(a: string, b: string, c: string)
    ensures a + b + c == a + (b + c)
  {
  }

  /** A slice is its first character followed by the rest. */
  lemma SliceCons(s: string, p: nat, k: nat)
    requires p < k <= |s|
    ensures s[p..k] == [s[p]] + s[p + 1..k]
  {
  }

  /** Two strings with the same first character are equal exactly when
      their rests are. */
  lemma ConsEq(c: char, a: string, b: string)
    ensures [c] + a == [c] + b <==> a == b
  {
    if [c] + a == [c] + b {
      assert a == ([c] + a)[1..] && b == ([c] + b)[1..];
    }
  }

  lemma JoinConsHead(c: string, p: string, ps: seq<string>, sep: string)
    ensures Join([c + p] + ps, sep) == c + Join([p] + ps, sep)
  {
    if |ps| > 0 {
      assert ([c + p] + ps)[1..] == ps;
      assert ([p] + ps)[1..] == ps;
    }
  }

  /** `s.split(sep)` for a one-character separator (see `SplitSpec`). */
  function Split(s: string, sep: char): (parts: seq<string>)
    ensures |parts| >= 1
    decreases |s|
  {
    if s == [] then [""]
    else
      var rest := Split(s[1..], sep);
      if s[0] == sep then [""] + rest
      else [[s[0]] + rest[0]] + rest[1..]
  }

  /** One more piece than there are separators, none containing the
      separator, and joining the pieces back with the separator gives `s`
      again. */
  lemma {:induction false} SplitSpec(s: string, sep: char)
    ensures forall k | 0 <= k < |Split(s, sep)| :: sep !in Split(s, sep)[k]
    ensures Join(Split(s, sep), [sep]) == s
    decreases |s|
  {
    if s != [] {
      var rest := Split(s[1..], sep);
      SplitSpec(s[1..], sep);
      assert s == [s[0]] + s[1..];
      if s[0] != sep {
        JoinConsHead([s[0]], rest[0], rest[1..], [sep]);
        assert [rest[0]] + rest[1..] == rest;
      }
    }
  }

  /** A leading piece free of the separator joins the first part. */
  lemma {:induction false} SplitAfterPlain(a: string, t: string, sep: char)
    requires sep !in a
    ensures Split(a + t, sep) == [a + Split(t, sep)[0]] + Split(t, sep)[1..]
    decreases |a|
  {
    var parts := Split(t, sep);
    if a == [] {
      assert a + t == t && a + parts[0] == parts[0];
      assert [parts[0]] + parts[1..] == parts;
    } else {
      SplitAfterPlain(a[1..], t, sep);
      assert (a + t)[1..] == a[1..] + t;
      assert [a[0]] + (a[1..] + parts[0]) == a + parts[0];
    }
  }

  /** `split` undoes `join` when no piece holds the separator. */
  lemma {:induction false} SplitJoin(lines: seq<string>, sep: char)
    requires |lines| >= 1 && forall k | 0 <= k < |lines| :: sep !in lines[k]
    ensures Split(Join(lines, [sep]), sep) == lines
  {
    if |lines| == 1 {
      SplitAfterPlain(lines[0], [], sep);
      assert lines[0] + [] == lines[0];
    } else {
      var j := Join(lines[1..], [sep]);
      SplitJoin(lines[1..], sep);
      assert Split([sep] + j, sep) == [""] + lines[1..];
      SplitAfterPlain(lines[0], [sep] + j, sep);
      assert lines[0] + [sep] + j == lines[0] + ([sep] + j);
      assert lines[0] + "" == lines[0];
      assert [lines[0]] + lines[1..] == lines;
    }
  }

  /** Joining one more piece appends the separator and that piece. */
  lemma {:induction false} JoinSnoc(lines: seq<string>, x: string, sep: string)
    requires |lines| >= 1
    ensures Join(lines + [x], sep) == Join(lines, sep) + sep + x
  {
    if |lines| > 1 {
      JoinSnoc(lines[1..], x, sep);
      assert (lines + [x])[1..] == lines[1..] + [x];
    } else {
      assert (lines + [x])[1..] == [x];
    }
  }

  /** Index of the first line boundary at or after `i`, or `|s|`. */
  function LineEnd(s: string, i: nat): (k: nat)
    requires i <= |s|
    decreases |s| - i
    ensures i <= k <= |s|
    ensures forall j | i <= j < k :: !IsLineBreak(s[j])
    ensures k < |s| ==> IsLineBreak(s[k])
  {
    if i == |s| || IsLineBreak(s[i]) then i else LineEnd(s, i + 1)
  }

  /** `s.splitlines()`: no piece holds a line boundary, and a final
      boundary does not open an empty last piece. */
  function SplitLines(s: string): (lines: seq<string>)
    ensures forall k, j | 0 <= k < |lines| && 0 <= j < |lines[k]| :: !IsLineBreak(lines[k][j])
    ensures s == [] <==> lines == []
    decreases |s|
  {
    if s == [] then []
    else
      var k := LineEnd(s, 0);
      if k == |s| then [s]
      else
        var next := if s[k] == '\r' && k + 1 < |s| && s[k + 1] == '\n' then k + 2 else k + 1;
        [s[..k]] + SplitLines(s[next..])
  }

  /** Each line preceded by `prefix` and followed by a newline, as a loop of
      `f.write(f'{prefix}{line}\n')` produces. */
  function IndentLines(lines: seq<string>, prefix: string): (r: string)
    ensures |r| == |lines| * (|prefix| + 1) + SumLengths(lines)
  {
    if lines == [] then "" else prefix + lines[0] + "\n" + IndentLines(lines[1..], prefix)
  }

  function SumLengths(lines: seq<string>): nat {
    if lines == [] then 0 else |lines[0]| + SumLengths(lines[1..])
  }
}

=== FILE: refactor.dfy ===
/**
  `refactor_framework_file`: a framework whose `legacy_content` is an
  XML-like `<system_prompt>` text gets a structured `framework` in its
  place. The loaded document is an input and the document to dump is an
  output; reading and writing the file are left to the caller.
 */
module Refactor {
  import opened Optional
  import opened PyStrings
  import opened Values

  /** The body of the first `open ... close` block: what
      `re.search(open + '(.*?)' + close, s, re.DOTALL).group(1)` gives. The
      lazy body ends at the first `close` after the first `open`; when that
      `open` has no `close` after it, no later one has either. */
  function FirstBody(s: string, open: string, close: string): (r: Option<string>)
    requires |open| > 0 && |close| > 0
    ensures r.Some? ==> |r.value| + |open| + |close| <= |s|
  {
    match Find(s, open, 0, true)
    case None => None
    case Some(i) =>
      match Find(s, close, i + |open|, true)
      case None => None
      case Some(j) => Some(s[i + |open|..j])
  }

  /** `re.findall(open + '(.*?)' + close, s, re.DOTALL)` scanning from
      `pos`: the bodies of the blocks, left to right, each search starting
      where the last block ended. */
  function AllBodies(s: string, open: string, close: string, pos: nat): seq<string>
    requires |open| > 0 && |close| > 0
  {
    BodiesFrom(s, open, close, Find(s, open, pos, true))
  }

  /** The scan once the next `open` has been looked for: `next` is where
      it stands, if anywhere. */
  function BodiesFrom(s: string, open: string, close: string, next: Option<nat>): seq<string>
    requires |open| > 0 && |close| > 0
    requires next.Some? ==> next.value + |open| <= |s|
    decreases if next.Some? then |s| + 1 - next.value else 0, 1
  {
    match next
    case None => []
    case Some(i) => BodyFromClose(s, open, close, i, Find(s, close, i + |open|, true))
  }

  /** The scan once the `close` after the `open` at `i` has been looked
      for: `closeAt` is where it stands, if anywhere. */
  function BodyFromClose(s: string, open: string, close: string, i: nat, closeAt: Option<nat>): seq<string>
    requires |open| > 0 && |close| > 0 && i + |open| <= |s|
    requires closeAt.Some? ==> i + |open| <= closeAt.value && closeAt.value + |close| <= |s|
    decreases |s| + 1 - i, 0
  {
    match closeAt
    case None => []
    case Some(j) => [s[i + |open|..j]] + BodiesFrom(s, open, close, Find(s, open, j + |close|, true))
  }

  /** One `<step name="...">...</step>` of the execution flow. */
  datatype Step = Step(name: string, description: string)

  const StepOpen := "<step name=\""

  /** `re.findall(r'<step name="(.*?)">(.*?)</step>', s)` scanning from
      `pos`, compiled without `re.DOTALL`, so neither group reaches past a
      newline. */
  function StepMatches(s: string, pos: nat): seq<Step> {
    AllPairs(s, StepOpen, "\">", "</step>", pos)
  }

  /** Every `open`-`mid`-`close` pair the scan finds from `pos` on. */
  function AllPairs(s: string, open: string, mid: string, close: string, pos: nat): seq<Step>
    requires |open| > 0 && |mid| > 0 && |close| > 0
  {
    PairsFrom(s, open, mid, close, Find(s, open, pos, true))
  }

  /** `re.findall(open + '(.*?)' + mid + '(.*?)' + close, s)` once the next
      `open` has been looked for, without `re.DOTALL`. The first group ends
      at the first `mid` after the opening and the second at the first
      `close` after that, both on the opening's line; an opening without
      them is passed over and the scan resumes one character later. */
  function PairsFrom(s: string, open: string, mid: string, close: string, next: Option<nat>): seq<Step>
    requires |open| > 0 && |mid| > 0 && |close| > 0
    requires next.Some? ==> next.value + |open| <= |s|
    decreases if next.Some? then |s| + 1 - next.value else 0, 2
  {
    match next
    case None => []
    case Some(p) => PairFromMid(s, open, mid, close, p, Find(s, mid, p + |open|, false))
  }

  /** The pair scan at an opening at `p`, once `mid` has been looked for. */
  function PairFromMid(s: string, open: string, mid: string, close: string, p: nat, midAt: Option<nat>): seq<Step>
    requires |open| > 0 && |mid| > 0 && |close| > 0 && p + |open| <= |s|
    requires midAt.Some? ==> p + |open| <= midAt.value && midAt.value + |mid| <= |s|
    decreases |s| + 1 - p, 1
  {
    match midAt
    case None => PairsFrom(s, open, mid, close, Find(s, open, p + 1, true))
    case Some(e) => PairFromClose(s, open, mid, close, p, e, Find(s, close, e + |mid|, false))
  }

  /** The pair scan at an opening at `p` and a `mid` at `e`, once `close`
      has been looked for. */
  function PairFromClose(s: string, open: string, mid: string, close: string, p: nat, e: nat,
                         closeAt: Option<nat>): seq<Step>
    requires |open| > 0 && |mid| > 0 && |close| > 0 && p + |open| <= e && e + |mid| <= |s|
    requires closeAt.Some? ==> e + |mid| <= closeAt.value && closeAt.value + |close| <= |s|
    decreases |s| + 1 - p, 0
  {
    match closeAt
    case None => PairsFrom(s, open, mid, close, Find(s, open, p + 1, true))
    case Some(q) =>
      [Step(s[p + |open|..e], s[e + |mid|..q])] + PairsFrom(s, open, mid, close, Find(s, open, q + |close|, true))
  }

  /** `[r.strip() for r in xs]` */
  function StripAll(xs: seq<string>): (r: seq<string>)
    ensures |r| == |xs|
    ensures forall i | 0 <= i < |xs| :: r[i] == Strip(xs[i])
  {
    if xs == [] then [] else [Strip(xs[0])] + StripAll(xs[1..])
  }

  /** Both parts of every step stripped. */
  function StripSteps(steps: seq<Step>): (r: seq<Step>)
    ensures |r| == |steps|
    ensures forall i | 0 <= i < |steps| :: r[i] == Step(Strip(steps[i].name), Strip(steps[i].description))
  {
    if steps == [] then []
    else [Step(Strip(steps[0].name), Strip(steps[0].description))] + StripSteps(steps[1..])
  }

  /** What the refactoring takes out of the legacy text. */
  datatype Prompt = Prompt(rules: seq<string>, steps: seq<Step>, finalOutput: string, directive: string)

  /** The stripped body of the first block, `""` without one. */
  function BlockText(s: string, open: string, close: string): (r: string)
    requires |open| > 0 && |close| > 0
    ensures r == [] || (!IsSpace(r[0]) && !IsSpace(r[|r| - 1]))
  {
    match FirstBody(s, open, close)
    case None => ""
    case Some(b) => Strip(b)
  }

  /** The four extractions of `refactor_framework_file`. */
  function ExtractPrompt(legacy: string): Prompt {
    var rules :=
      match FirstBody(legacy, "<formatting_rules>", "</formatting_rules>")
      case None => []
      case Some(b) => StripAll(AllBodies(b, "<rule>", "</rule>", 0));
    var steps :=
      match FirstBody(legacy, "<scratchpad_logic>", "</scratchpad_logic>")
      case None => []
      case Some(b) => StripSteps(StepMatches(b, 0));
    Prompt(rules, steps,
           BlockText(legacy, "<final_output>", "</final_output>"),
           BlockText(legacy, "<directive>", "</directive>"))
  }

  /** The rules as a YAML list of strings. */
  function RuleValues(rules: seq<string>): (r: seq<Value>)
    ensures |r| == |rules|
    ensures forall i | 0 <= i < |rules| :: r[i] == Str(rules[i])
  {
    if rules == [] then [] else [Str(rules[0])] + RuleValues(rules[1..])
  }

  /** `{'name': ..., 'description': ...}` */
  function StepValue(st: Step): Value {
    Map([Entry("name", Str(st.name)), Entry("description", Str(st.description))])
  }

  /** The steps as a YAML list of mappings. */
  function StepValues(steps: seq<Step>): (r: seq<Value>)
    ensures |r| == |steps|
    ensures forall i | 0 <= i < |steps| :: r[i] == StepValue(steps[i])
  {
    if steps == [] then [] else [StepValue(steps[0])] + StepValues(steps[1..])
  }

  /** The new `framework` mapping, in the key order it is built in. */
  function Shape(p: Prompt): Value {
    Map([Entry("system_prompt", Map([
      Entry("formatting_rules", List(RuleValues(p.rules))),
      Entry("execution_flow", Map([
        Entry("steps", List(StepValues(p.steps))),
        Entry("final_output", Str(p.finalOutput))])),
      Entry("directive", Str(p.directive))]))])
  }

  /** What one call does with the file. */
  datatype Outcome =
    | NoLegacyContent          // no `framework` or no `framework.legacy_content`: returns at once
    | UnknownFormat            // no `<system_prompt>` in the legacy content: skipped, file kept
    | Refactored(data: Value)  // the document dumped back to the file

  /** The document holds legacy content the refactoring takes over: a
      mapping whose `framework` is a mapping whose `legacy_content` is a
      text containing `<system_prompt>`. */
  predicate Convertible(data: Value) {
    && data.Map?
    && Lookup(data.entries, "framework").Some?
    && Lookup(data.entries, "framework").value.Map?
    && Lookup(Lookup(data.entries, "framework").value.entries, "legacy_content").Some?
    && Lookup(Lookup(data.entries, "framework").value.entries, "legacy_content").value.Str?
    && PyStrings.Contains(Lookup(Lookup(data.entries, "framework").value.entries, "legacy_content").value.s,
                          "<system_prompt>")
  }

  /** `refactor_framework_file` on the loaded document `data`. The `in`
      tests and `[]` follow Python on every kind of value: on `None` or a
      number `in` raises `TypeError`, on a string it is a substring test and
      on a list an element test, and indexing either with a string raises
      `TypeError`, as does `re.search` on anything but a string. */
  function RefactorFile(data: Value): (r: Result<Outcome>)
    ensures r.Ok? && r.value.Refactored? <==> Convertible(data)
  {
    match Values.Contains(data, "framework")
    case Raise(e) => Raise(e)
    case Ok(hasFramework) =>
      if !hasFramework then Ok(NoLegacyContent)
      else
        match GetItem(data, "framework")
        case Raise(e) => Raise(e)
        case Ok(fw) =>
          match Values.Contains(fw, "legacy_content")
          case Raise(e) => Raise(e)
          case Ok(hasLegacy) =>
            if !hasLegacy then Ok(NoLegacyContent)
            else
              match GetItem(fw, "legacy_content")
              case Raise(e) => Raise(e)
              case Ok(legacy) =>
                match Values.Contains(legacy, "<system_prompt>")
                case Raise(e) => Raise(e)
                case Ok(tagged) =>
                  if !tagged then Ok(UnknownFormat)
                  else if !legacy.Str? then Raise(TypeError)
                  else Ok(Refactored(Map(Put(data.entries, "framework", Shape(ExtractPrompt(legacy.s))))))
  }

  /** `b` is the body of the block that starts at the first `open`, at
      `i`, and ends at the first `close` after it. */
  predicate FirstBlockAt(s: string, open: string, close: string, i: nat, b: string) {
    && OccursAt(s, open, i)
    && (forall k | 0 <= k < i :: !OccursAt(s, open, k))
    && i + |open| + |b| <= |s|
    && s[i + |open|..i + |open| + |b|] == b
    && OccursAt(s, close, i + |open| + |b|)
    && (forall k | i + |open| <= k < i + |open| + |b| :: !OccursAt(s, close, k))
  }

  /** The search finds no block exactly when no `open` has a `close`
      after it. */
  lemma FirstBodyAbsent(s: string, open: string, close: string)
    requires |open| > 0 && |close| > 0
    ensures FirstBody(s, open, close).None? <==>
              forall i, j | OccursAt(s, open, i) && OccursAt(s, close, j) :: j < i + |open|
  {
    FindSpec(s, open, 0, true);
    match Find(s, open, 0, true)
    case None =>
    case Some(i) =>
      FindSpec(s, close, i + |open|, true);
  }

  /** What the search finds is the body of the first block. */
  lemma FirstBodyFound(s: string, open: string, close: string)
    requires |open| > 0 && |close| > 0 && FirstBody(s, open, close).Some?
    ensures exists i | 0 <= i <= |s| :: FirstBlockAt(s, open, close, i, FirstBody(s, open, close).value)
  {
    FindSpec(s, open, 0, true);
    var i := Find(s, open, 0, true).value;
    FindSpec(s, close, i + |open|, true);
    var j := Find(s, close, i + |open|, true).value;
    assert FirstBlockAt(s, open, close, i, s[i + |open|..j]);
  }

  /** Conversely, the body of the first block is what the search finds. */
  lemma FirstBodyFindsBlock(s: string, open: string, close: string, i: nat, b: string)
    requires |open| > 0 && |close| > 0 && FirstBlockAt(s, open, close, i, b)
    ensures FirstBody(s, open, close) == Some(b)
  {
    FindSpec(s, open, 0, true);
    FindSpec(s, close, i + |open|, true);
    assert Find(s, open, 0, true) == Some(i);
    assert Find(s, close, i + |open|, true) == Some(i + |open| + |b|);
  }

  /** A block without the opening tag reads as `""`. */
  lemma AbsentBlockEmpty(s: string, open: string, close: string)
    requires |open| > 0 && |close| > 0 && !PyStrings.Contains(s, open)
    ensures BlockText(s, open, close) == ""
  {
    FindDecidesContains(s, open);
  }

  /** A block standing where the scan stands yields its body, and the
      scan goes on after the block. */
  lemma BlockAt(s: string, open: string, close: string, p: nat, b: string)
    requires |open| > 0 && LoneHead(close)
    requires OccursAt(s, open, p)
    requires p + |open| + |b| <= |s| && s[p + |open|..p + |open| + |b|] == b
    requires !PyStrings.Contains(b, close)
    requires OccursAt(s, close, p + |open| + |b|)
    ensures AllBodies(s, open, close, p) == [b] + AllBodies(s, open, close, p + |open| + |b| + |close|)
  {
    var j := p + |open| + |b|;
    FindHere(s, open, p, true);
    assert s[j] == s[j..j + |close|][0] == close[0];
    NoOccurrenceWithin(s, close, p + |open|, j);
    FindSkips(s, close, p + |open|, j, true);
    FindHere(s, close, j, true);
    BodiesFromStep(s, open, close, Find(s, open, p, true), p, j);
  }

  /** Unfolding the scan at a found `open` and `close`. */
  lemma BodiesFromStep(s: string, open: string, close: string, next: Option<nat>, i: nat, j: nat)
    requires |open| > 0 && |close| > 0 && i + |open| <= |s| && next == Some(i)
    requires Find(s, close, i + |open|, true) == Some(j)
    ensures i + |open| <= j <= |s|
    ensures BodiesFrom(s, open, close, next)
            == [s[i + |open|..j]] + BodiesFrom(s, open, close, Find(s, open, j + |close|, true))
  {
    assert BodiesFrom(s, open, close, next) == BodyFromClose(s, open, close, i, Some(j));
  }

  /** Text in which `open` does not start is passed over. */
  lemma BodiesSkip(s: string, open: string, close: string, k: nat, m: nat)
    requires |open| > 0 && |close| > 0 && k <= m <= |s|
    requires forall x | k <= x < m :: !OccursAt(s, open, x)
    ensures AllBodies(s, open, close, k) == AllBodies(s, open, close, m)
  {
    FindSkips(s, open, k, m, true);
  }

  /** A slice of text with no newline in it holds no newline. */
  lemma LineSlice(s: string, a: nat, b: nat)
    requires a <= b <= |s|
    requires forall k | a <= k < b :: s[k] != '\n'
    ensures '\n' !in s[a..b]
  {
    forall m | 0 <= m < b - a
      ensures s[a..b][m] != '\n'
    {
      assert s[a..b][m] == s[a + m];
    }
  }

  /** The pair found where the scan stands lies on one line. */
  lemma PairOnOneLine(s: string, open: string, mid: string, close: string, p: nat, e: nat, q: nat)
    requires |open| > 0 && |mid| > 0 && |close| > 0 && p + |open| <= |s|
    requires Find(s, mid, p + |open|, false) == Some(e)
    requires Find(s, close, e + |mid|, false) == Some(q)
    ensures p + |open| <= e && e + |mid| <= q <= |s|
    ensures OnOneLine(Step(s[p + |open|..e], s[e + |mid|..q]))
  {
    FindSpec(s, mid, p + |open|, false);
    FindSpec(s, close, e + |mid|, false);
    LineSlice(s, p + |open|, e);
    LineSlice(s, e + |mid|, q);
  }

  /** Neither part of the step holds a line break. */
  predicate OnOneLine(st: Step) {
    '\n' !in st.name && '\n' !in st.description
  }

  /** Unfolding the pair scan at an opening that yields no pair. */
  lemma PairsFromMiss(s: string, open: string, mid: string, close: string, next: Option<nat>, p: nat)
    requires |open| > 0 && |mid| > 0 && |close| > 0
    requires next == Some(p) && p + |open| <= |s|
    requires || Find(s, mid, p + |open|, false).None?
             || Find(s, close, Find(s, mid, p + |open|, false).value + |mid|, false).None?
    ensures PairsFrom(s, open, mid, close, next) == PairsFrom(s, open, mid, close, Find(s, open, p + 1, true))
  {
    var midAt := Find(s, mid, p + |open|, false);
    assert PairsFrom(s, open, mid, close, next) == PairFromMid(s, open, mid, close, p, midAt);
    if midAt.Some? {
      var e := midAt.value;
      assert PairFromMid(s, open, mid, close, p, midAt)
             == PairFromClose(s, open, mid, close, p, e, Find(s, close, e + |mid|, false));
    }
  }

  /** Unfolding the pair scan at an opening that yields a pair. */
  lemma PairsFromHit(s: string, open: string, mid: string, close: string, next: Option<nat>, p: nat, e: nat, q: nat)
    requires |open| > 0 && |mid| > 0 && |close| > 0
    requires next == Some(p) && p + |open| <= |s|
    requires Find(s, mid, p + |open|, false) == Some(e)
    requires Find(s, close, e + |mid|, false) == Some(q)
    requires p + |open| <= e && e + |mid| <= q <= |s|
    ensures PairsFrom(s, open, mid, close, next)
            == [Step(s[p + |open|..e], s[e + |mid|..q])] + PairsFrom(s, open, mid, close, Find(s, open, q + |close|, true))
  {
    assert PairsFrom(s, open, mid, close, next) == PairFromMid(s, open, mid, close, p, Some(e));
    assert PairFromMid(s, open, mid, close, p, Some(e)) == PairFromClose(s, open, mid, close, p, e, Some(q));
  }

  /** Without `re.DOTALL` neither part of a pair reaches past a line
      break. */
  lemma {:induction false} PairsOnOneLine(s: string, open: string, mid: string, close: string, next: Option<nat>)
    requires |open| > 0 && |mid| > 0 && |close| > 0
    requires next.Some? ==> next.value + |open| <= |s|
    decreases if next.Some? then |s| + 1 - next.value else 0
    ensures forall st | st in PairsFrom(s, open, mid, close, next) :: OnOneLine(st)
  {
    if next.Some? {
      var p := next.value;
      var fe := Find(s, mid, p + |open|, false);
      if fe.None? || Find(s, close, fe.value + |mid|, false).None? {
        PairsFromMiss(s, open, mid, close, next, p);
        PairsOnOneLine(s, open, mid, close, Find(s, open, p + 1, true));
      } else {
        var e := fe.value;
        var q := Find(s, close, e + |mid|, false).value;
        PairOnOneLine(s, open, mid, close, p, e, q);
        PairsFromHit(s, open, mid, close, next, p, e, q);
        PairsOnOneLine(s, open, mid, close, Find(s, open, q + |close|, true));
      }
    }
  }

  /** No step the scan finds spans two lines. */
  lemma StepsOnOneLine(s: string)
    ensures forall st | st in StepMatches(s, 0) :: OnOneLine(st)
  {
    PairsOnOneLine(s, StepOpen, "\">", "</step>", Find(s, StepOpen, 0, true));
  }

  /** Blocks written out one after another, each body in `open` and
      `close` tags and followed by `gap` (a line break and indentation,
      say): a rules section is `Blocks("<rule>", "</rule>", rules, gap)`. */
  function Blocks(open: string, close: string, bodies: seq<string>, gap: string): (r: string)
    ensures bodies == [] ==> r == ""
  {
    if bodies == [] then "" else open + bodies[0] + close + gap + Blocks(open, close, bodies[1..], gap)
  }

  /** Where the parts of a block written out from `p` on lie. */
  lemma BlockLayout(s: string, p: nat, open: string, b: string, close: string, gap: string, tail: string)
    requires p <= |s| && s[p..] == open + b + close + gap + tail
    ensures OccursAt(s, open, p)
    ensures p + |open| + |b| <= |s| && s[p + |open|..p + |open| + |b|] == b
    ensures OccursAt(s, close, p + |open| + |b|)
    ensures forall x | p + |open| + |b| + |close| <= x < p + |open| + |b| + |close| + |gap| ::
              s[x] == gap[x - (p + |open| + |b| + |close|)]
    ensures p + |open| + |b| + |close| + |gap| <= |s|
    ensures s[p + |open| + |b| + |close| + |gap|..] == tail
  {
    var r := open + b + close + gap + tail;
    assert s[p..p + |open|] == r[..|open|] == open;
    assert s[p + |open|..p + |open| + |b|] == r[|open|..|open| + |b|] == b;
    assert r[|open| + |b|..|open| + |b| + |close|] == close by {
      assert r == (open + b) + close + (gap + tail);
    }
    assert s[p + |open| + |b|..p + |open| + |b| + |close|] == r[|open| + |b|..|open| + |b| + |close|];
    forall x | p + |open| + |b| + |close| <= x < p + |open| + |b| + |close| + |gap|
      ensures s[x] == gap[x - (p + |open| + |b| + |close|)]
    {
      assert s[x] == r[x - p];
    }
    assert s[p + |open| + |b| + |close| + |gap|..] == r[|open| + |b| + |close| + |gap|..] == tail;
  }

  /** A block at `p` followed by text in which `open` does not start is
      read past: the scan yields the block's body and goes on behind the
      text. */
  lemma BlockThenGap(s: string, p: nat, open: string, b: string, close: string, g: nat)
    requires |open| > 0 && LoneHead(close) && !PyStrings.Contains(b, close)
    requires OccursAt(s, open, p)
    requires p + |open| + |b| <= |s| && s[p + |open|..p + |open| + |b|] == b
    requires OccursAt(s, close, p + |open| + |b|)
    requires p + |open| + |b| + |close| + g <= |s|
    requires forall x | p + |open| + |b| + |close| <= x < p + |open| + |b| + |close| + g :: !OccursAt(s, open, x)
    ensures AllBodies(s, open, close, p) == [b] + AllBodies(s, open, close, p + |open| + |b| + |close| + g)
  {
    var after := p + |open| + |b| + |close|;
    assert AllBodies(s, open, close, p) == [b] + AllBodies(s, open, close, after) by {
      BlockAt(s, open, close, p, b);
    }
    assert AllBodies(s, open, close, after) == AllBodies(s, open, close, after + g) by {
      BodiesSkip(s, open, close, after, after + g);
    }
  }

  /** Blocks written out from `p` to the end read back in order,
      provided no body contains `close` and the gap does not contain
      `open`. */
  lemma {:induction false} BlocksReadBack(s: string, p: nat, open: string, close: string, bodies: seq<string>, gap: string)
    requires LoneHead(open) && LoneHead(close)
    requires forall i | 0 <= i < |bodies| :: !PyStrings.Contains(bodies[i], close)
    requires !PyStrings.Contains(gap, open)
    requires p <= |s| && s[p..] == Blocks(open, close, bodies, gap)
    decreases |bodies|
    ensures AllBodies(s, open, close, p) == bodies
  {
    if bodies == [] {
      FindPastEnd(s, open, p, true);
    } else {
      var b, rest := bodies[0], bodies[1..];
      var next := p + |open| + |b| + |close| + |gap|;
      var tail := Blocks(open, close, rest, gap);
      BlockStep(s, p, open, b, close, gap, tail);
      forall i | 0 <= i < |rest|
        ensures !PyStrings.Contains(rest[i], close)
      {
        assert rest[i] == bodies[i + 1];
      }
      BlocksReadBack(s, next, open, close, rest, gap);
      assert bodies == [b] + rest;
    }
  }

  /** One block written out at `p`, followed by its gap, is read and
      passed over. */
  lemma BlockStep(s: string, p: nat, open: string, b: string, close: string, gap: string, tail: string)
    requires LoneHead(open) && LoneHead(close)
    requires !PyStrings.Contains(b, close) && !PyStrings.Contains(gap, open)
    requires tail == [] || tail[0] == open[0]
    requires p <= |s| && s[p..] == open + b + close + gap + tail
    ensures p + |open| + |b| + |close| + |gap| <= |s|
    ensures s[p + |open| + |b| + |close| + |gap|..] == tail
    ensures AllBodies(s, open, close, p) == [b] + AllBodies(s, open, close, p + |open| + |b| + |close| + |gap|)
  {
    var after := p + |open| + |b| + |close|;
    BlockLayout(s, p, open, b, close, gap, tail);
    assert s[after..] == gap + tail by {
      assert s[after..] == s[p..][after - p..];
      assert open + b + close + gap + tail == (open + b + close) + (gap + tail);
    }
    GapPassed(s, open, after, gap, tail);
    BlockThenGap(s, p, open, b, close, |gap|);
  }

  /** A gap that does not contain `open`, followed by the end or by the
      next `open`, holds no `open` the scan could stop at. */
  lemma GapPassed(s: string, open: string, after: nat, gap: string, tail: string)
    requires LoneHead(open) && !PyStrings.Contains(gap, open)
    requires tail == [] || tail[0] == open[0]
    requires after <= |s| && s[after..] == gap + tail
    ensures after + |gap| <= |s|
    ensures forall x | after <= x < after + |gap| :: !OccursAt(s, open, x)
  {
    var t := s[after..];
    assert s[after..after + |gap|] == t[..|gap|] == gap;
    if tail != [] {
      assert s[after + |gap|] == t[|gap|] == tail[0];
    }
    NoOccurrenceWithin(s, open, after, after + |gap|);
  }

  /** A rules section read on its own gives back its rules, when no rule
      contains `</rule>` and the gap does not contain `<rule>`. */
  lemma RulesRoundTrip(rules: seq<string>, gap: string)
    requires forall i | 0 <= i < |rules| :: !PyStrings.Contains(rules[i], "</rule>")
    requires !PyStrings.Contains(gap, "<rule>")
    ensures AllBodies(Blocks("<rule>", "</rule>", rules, gap), "<rule>", "</rule>", 0) == rules
  {
    var s := Blocks("<rule>", "</rule>", rules, gap);
    assert s[0..] == s;
    assert LoneHead("<rule>") && LoneHead("</rule>");
    BlocksReadBack(s, 0, "<rule>", "</rule>", rules, gap);
  }

  /** Steps written out one after another, each followed by `gap`: an
      execution flow is
      `Pairs("<step name=\"", "\">", "</step>", steps, gap)`. */
  function Pairs(open: string, mid: string, close: string, steps: seq<Step>, gap: string): (r: string)
    ensures steps == [] ==> r == ""
  {
    if steps == [] then ""
    else open + steps[0].name + mid + steps[0].description + close + gap + Pairs(open, mid, close, steps[1..], gap)
  }

  /** Where the parts of a step written out from `p` on lie. */
  lemma PairLayout(s: string, p: nat, open: string, name: string, mid: string, desc: string,
                   close: string, gap: string, tail: string)
    requires p <= |s| && s[p..] == open + name + mid + desc + close + gap + tail
    ensures OccursAt(s, open, p)
    ensures p + |open| + |name| <= |s| && s[p + |open|..p + |open| + |name|] == name
    ensures OccursAt(s, mid, p + |open| + |name|)
    ensures p + |open| + |name| + |mid| + |desc| <= |s|
    ensures s[p + |open| + |name| + |mid|..p + |open| + |name| + |mid| + |desc|] == desc
    ensures OccursAt(s, close, p + |open| + |name| + |mid| + |desc|)
    ensures forall x | p + |open| + |name| + |mid| + |desc| + |close| <= x < p + |open| + |name| + |mid| + |desc| + |close| + |gap| ::
              s[x] == gap[x - (p + |open| + |name| + |mid| + |desc| + |close|)]
    ensures p + |open| + |name| + |mid| + |desc| + |close| + |gap| <= |s|
    ensures s[p + |open| + |name| + |mid| + |desc| + |close| + |gap|..] == tail
  {
    BlockLayout(s, p, open + name + mid, desc, close, gap, tail);
    OccursSplit(s, p, open, name, mid);
  }

  /** Where the three parts of `a + b + c` found at `p` lie. */
  lemma OccursSplit(s: string, p: nat, a: string, b: string, c: string)
    requires OccursAt(s, a + b + c, p)
    ensures OccursAt(s, a, p)
    ensures s[p + |a|..p + |a| + |b|] == b
    ensures OccursAt(s, c, p + |a| + |b|)
  {
    var w := a + b + c;
    var t := s[p..p + |w|];
    assert t == w;
    assert s[p..p + |a|] == t[..|a|] == w[..|a|] == a;
    forall i | 0 <= i < |b| ensures s[p + |a| + i] == b[i] {
      assert s[p + |a| + i] == t[|a| + i] == w[|a| + i];
    }
    assert s[p + |a|..p + |a| + |b|] == b;
    assert s[p + |a| + |b|..p + |w|] == t[|a| + |b|..] == w[|a| + |b|..] == c;
  }

  /** A step at `p` whose name holds neither a line break nor `mid`, and
      whose description holds neither a line break nor `close`, is read as
      it was written. */
  lemma PairAt(s: string, open: string, mid: string, close: string, p: nat, name: string, desc: string)
    requires |open| > 0 && LoneHead(mid) && LoneHead(close)
    requires !PyStrings.Contains(name, mid) && '\n' !in name
    requires !PyStrings.Contains(desc, close) && '\n' !in desc
    requires OccursAt(s, open, p)
    requires p + |open| + |name| <= |s| && s[p + |open|..p + |open| + |name|] == name
    requires OccursAt(s, mid, p + |open| + |name|)
    requires p + |open| + |name| + |mid| + |desc| <= |s|
    requires s[p + |open| + |name| + |mid|..p + |open| + |name| + |mid| + |desc|] == desc
    requires OccursAt(s, close, p + |open| + |name| + |mid| + |desc|)
    ensures AllPairs(s, open, mid, close, p)
            == [Step(name, desc)] + AllPairs(s, open, mid, close, p + |open| + |name| + |mid| + |desc| + |close|)
  {
    var e := p + |open| + |name|;
    var q := e + |mid| + |desc|;
    FindHere(s, open, p, true);
    FindOverLine(s, mid, p + |open|, e, name);
    FindOverLine(s, close, e + |mid|, q, desc);
    PairsFromHit(s, open, mid, close, Find(s, open, p, true), p, e, q);
  }

  /** A search without `re.DOTALL` over a stretch of one line that does
      not contain the pattern lands where the pattern follows it. */
  lemma FindOverLine(s: string, pat: string, a: nat, b: nat, text: string)
    requires LoneHead(pat) && a <= b <= |s| && s[a..b] == text
    requires !PyStrings.Contains(text, pat) && '\n' !in text
    requires OccursAt(s, pat, b)
    ensures Find(s, pat, a, false) == Some(b)
  {
    assert s[b] == s[b..b + |pat|][0] == pat[0];
    NoOccurrenceWithin(s, pat, a, b);
    forall x | a <= x < b
      ensures s[x] != '\n'
    {
      assert s[x] == text[x - a];
    }
    FindSkips(s, pat, a, b, false);
    FindHere(s, pat, b, false);
  }

  /** Text in which `open` does not start is passed over by the pair
      scan. */
  lemma PairsSkip(s: string, open: string, mid: string, close: string, k: nat, m: nat)
    requires |open| > 0 && |mid| > 0 && |close| > 0 && k <= m <= |s|
    requires forall x | k <= x < m :: !OccursAt(s, open, x)
    ensures AllPairs(s, open, mid, close, k) == AllPairs(s, open, mid, close, m)
  {
    FindSkips(s, open, k, m, true);
  }

  /** Steps written out from `p` to the end read back in order, provided
      each stays on its line, no name contains `mid`, no description
      contains `close`, and the gap does not contain `open`. */
  lemma {:induction false} PairsReadBack(s: string, p: nat, open: string, mid: string, close: string,
                                         steps: seq<Step>, gap: string)
    requires LoneHead(open) && LoneHead(mid) && LoneHead(close)
    requires forall i | 0 <= i < |steps| :: !PyStrings.Contains(steps[i].name, mid) && '\n' !in steps[i].name
    requires forall i | 0 <= i < |steps| ::
               !PyStrings.Contains(steps[i].description, close) && '\n' !in steps[i].description
    requires !PyStrings.Contains(gap, open)
    requires p <= |s| && s[p..] == Pairs(open, mid, close, steps, gap)
    decreases |steps|
    ensures AllPairs(s, open, mid, close, p) == steps
  {
    if steps == [] {
      FindPastEnd(s, open, p, true);
    } else {
      var st, rest := steps[0], steps[1..];
      var next := p + |open| + |st.name| + |mid| + |st.description| + |close| + |gap|;
      assert && next <= |s| && s[next..] == Pairs(open, mid, close, rest, gap)
             && AllPairs(s, open, mid, close, p) == [st] + AllPairs(s, open, mid, close, next) by {
        PairStep(s, p, open, st.name, mid, st.description, close, gap, Pairs(open, mid, close, rest, gap));
      }
      assert AllPairs(s, open, mid, close, next) == rest by {
        forall i | 0 <= i < |rest|
          ensures && !PyStrings.Contains(rest[i].name, mid) && '\n' !in rest[i].name
                  && !PyStrings.Contains(rest[i].description, close) && '\n' !in rest[i].description
        {
          assert rest[i] == steps[i + 1];
        }
        PairsReadBack(s, next, open, mid, close, rest, gap);
      }
      assert steps == [st] + rest;
    }
  }

  /** One step written out at `p` is read back, and reading goes on after
      the gap that follows it. */
  lemma PairStep(s: string, p: nat, open: string, name: string, mid: string, desc: string,
                 close: string, gap: string, tail: string)
    requires LoneHead(open) && LoneHead(mid) && LoneHead(close)
    requires !PyStrings.Contains(name, mid) && '\n' !in name
    requires !PyStrings.Contains(desc, close) && '\n' !in desc
    requires !PyStrings.Contains(gap, open)
    requires tail == [] || tail[0] == open[0]
    requires p <= |s| && s[p..] == open + name + mid + desc + close + gap + tail
    ensures p + |open| + |name| + |mid| + |desc| + |close| + |gap| <= |s|
    ensures s[p + |open| + |name| + |mid| + |desc| + |close| + |gap|..] == tail
    ensures AllPairs(s, open, mid, close, p)
            == [Step(name, desc)] + AllPairs(s, open, mid, close, p + |open| + |name| + |mid| + |desc| + |close| + |gap|)
  {
    var after := p + |open| + |name| + |mid| + |desc| + |close|;
    PairLayout(s, p, open, name, mid, desc, close, gap, tail);
    PairAt(s, open, mid, close, p, name, desc);
    assert s[after..] == gap + tail by {
      assert s[after..] == s[p..][after - p..];
      assert open + name + mid + desc + close + gap + tail == (open + name + mid + desc + close) + (gap + tail);
    }
    GapPassed(s, open, after, gap, tail);
    PairsSkip(s, open, mid, close, after, after + |gap|);
  }

  /** An execution flow read on its own gives back its steps, when no
      name contains `">`, no description contains `</step>`, neither holds
      a line break, and the gap does not contain `<step name="`. */
  lemma StepsRoundTrip(steps: seq<Step>, gap: string)
    requires forall i | 0 <= i < |steps| :: !PyStrings.Contains(steps[i].name, "\">") && '\n' !in steps[i].name
    requires forall i | 0 <= i < |steps| ::
               !PyStrings.Contains(steps[i].description, "</step>") && '\n' !in steps[i].description
    requires !PyStrings.Contains(gap, StepOpen)
    ensures StepMatches(Pairs(StepOpen, "\">", "</step>", steps, gap), 0) == steps
  {
    var s := Pairs(StepOpen, "\">", "</step>", steps, gap);
    assert s[0..] == s;
    assert LoneHead(StepOpen) && LoneHead("\">") && LoneHead("</step>");
    PairsReadBack(s, 0, StepOpen, "\">", "</step>", steps, gap);
  }

  /** The rules of a `formatting_rules` section written as `<rule>`
      blocks come out stripped and in order. */
  lemma RulesSection(legacy: string, rules: seq<string>, gap: string)
    requires FirstBody(legacy, "<formatting_rules>", "</formatting_rules>") == Some(Blocks("<rule>", "</rule>", rules, gap))
    requires forall i | 0 <= i < |rules| :: !PyStrings.Contains(rules[i], "</rule>")
    requires !PyStrings.Contains(gap, "<rule>")
    ensures ExtractPrompt(legacy).rules == StripAll(rules)
  {
    RulesRoundTrip(rules, gap);
  }

  /** The steps of a `scratchpad_logic` section written as `<step>`
      elements, one to a line, come out stripped and in order. */
  lemma StepsSection(legacy: string, steps: seq<Step>, gap: string)
    requires FirstBody(legacy, "<scratchpad_logic>", "</scratchpad_logic>")
             == Some(Pairs(StepOpen, "\">", "</step>", steps, gap))
    requires forall i | 0 <= i < |steps| :: !PyStrings.Contains(steps[i].name, "\">") && '\n' !in steps[i].name
    requires forall i | 0 <= i < |steps| ::
               !PyStrings.Contains(steps[i].description, "</step>") && '\n' !in steps[i].description
    requires !PyStrings.Contains(gap, StepOpen)
    ensures ExtractPrompt(legacy).steps == StripSteps(steps)
  {
    StepsRoundTrip(steps, gap);
  }

  /** Everything extracted comes out stripped: each rule, each step's name
      and description, the final output and the directive are their own
      `strip()`. */
  lemma ExtractedStripped(legacy: string)
    ensures var p := ExtractPrompt(legacy);
            && (forall i | 0 <= i < |p.rules| :: Strip(p.rules[i]) == p.rules[i])
            && (forall i | 0 <= i < |p.steps| :: Strip(p.steps[i].name) == p.steps[i].name)
            && (forall i | 0 <= i < |p.steps| :: Strip(p.steps[i].description) == p.steps[i].description)
            && Strip(p.finalOutput) == p.finalOutput && Strip(p.directive) == p.directive
  {
    SectionsStripped(legacy);
    TextsStripped(legacy);
  }

  lemma SectionsStripped(legacy: string)
    ensures var p := ExtractPrompt(legacy);
            && (forall i | 0 <= i < |p.rules| :: Strip(p.rules[i]) == p.rules[i])
            && (forall i | 0 <= i < |p.steps| :: Strip(p.steps[i].name) == p.steps[i].name)
            && (forall i | 0 <= i < |p.steps| :: Strip(p.steps[i].description) == p.steps[i].description)
  {
    var rb := FirstBody(legacy, "<formatting_rules>", "</formatting_rules>");
    var sb := FirstBody(legacy, "<scratchpad_logic>", "</scratchpad_logic>");
    if rb.Some? {
      StripAllTrimmed(AllBodies(rb.value, "<rule>", "</rule>", 0));
    }
    if sb.Some? {
      StripStepsTrimmed(StepMatches(sb.value, 0));
    }
  }

  lemma TextsStripped(legacy: string)
    ensures Strip(ExtractPrompt(legacy).finalOutput) == ExtractPrompt(legacy).finalOutput
    ensures Strip(ExtractPrompt(legacy).directive) == ExtractPrompt(legacy).directive
  {
    BlockTextTrimmed(legacy, "<final_output>", "</final_output>");
    BlockTextTrimmed(legacy, "<directive>", "</directive>");
  }

  lemma BlockTextTrimmed(s: string, open: string, close: string)
    requires |open| > 0 && |close| > 0
    ensures Strip(BlockText(s, open, close)) == BlockText(s, open, close)
  {
    StripFixesTrimmed(BlockText(s, open, close));
  }

  /** Stripped steps are their own strip. */
  lemma StripStepsTrimmed(steps: seq<Step>)
    ensures forall i | 0 <= i < |steps| :: Strip(StripSteps(steps)[i].name) == StripSteps(steps)[i].name
    ensures forall i | 0 <= i < |steps| ::
              Strip(StripSteps(steps)[i].description) == StripSteps(steps)[i].description
  {
    forall i | 0 <= i < |steps|
      ensures Strip(StripSteps(steps)[i].name) == StripSteps(steps)[i].name
      ensures Strip(StripSteps(steps)[i].description) == StripSteps(steps)[i].description
    {
      StripIdempotent(steps[i].name);
      StripIdempotent(steps[i].description);
    }
  }

  /** Stripped texts are their own strip. */
  lemma StripAllTrimmed(xs: seq<string>)
    ensures forall i | 0 <= i < |xs| :: Strip(StripAll(xs)[i]) == StripAll(xs)[i]
  {
    forall i | 0 <= i < |xs|
      ensures Strip(StripAll(xs)[i]) == StripAll(xs)[i]
    {
      StripIdempotent(xs[i]);
    }
  }

  /** Without the section's opening tag there are no rules, no steps, or an
      empty text. */
  lemma MissingSections(legacy: string)
    ensures !PyStrings.Contains(legacy, "<formatting_rules>") ==> ExtractPrompt(legacy).rules == []
    ensures !PyStrings.Contains(legacy, "<scratchpad_logic>") ==> ExtractPrompt(legacy).steps == []
    ensures !PyStrings.Contains(legacy, "<final_output>") ==> ExtractPrompt(legacy).finalOutput == ""
    ensures !PyStrings.Contains(legacy, "<directive>") ==> ExtractPrompt(legacy).directive == ""
  {
    FindDecidesContains(legacy, "<formatting_rules>");
    FindDecidesContains(legacy, "<scratchpad_logic>");
    if !PyStrings.Contains(legacy, "<final_output>") {
      AbsentBlockEmpty(legacy, "<final_output>", "</final_output>");
    }
    if !PyStrings.Contains(legacy, "<directive>") {
      AbsentBlockEmpty(legacy, "<directive>", "</directive>");
    }
  }

  /** A document without a `framework` key is left alone. */
  lemma NoFrameworkSkipped(data: Value)
    requires data.Map? && !HasKey(data.entries, "framework")
    ensures RefactorFile(data) == Ok(NoLegacyContent)
  {
  }

  /** A framework mapping without `legacy_content` is left alone: it may
      be one that was refactored before. */
  lemma NoLegacySkipped(data: Value, fw: seq<Entry>)
    requires data.Map? && Lookup(data.entries, "framework") == Some(Map(fw))
    requires !HasKey(fw, "legacy_content")
    ensures RefactorFile(data) == Ok(NoLegacyContent)
  {
  }

  /** Legacy text without `<system_prompt>` is skipped and the document
      kept. */
  lemma UntaggedSkipped(data: Value, fw: seq<Entry>, legacy: string)
    requires data.Map? && Lookup(data.entries, "framework") == Some(Map(fw))
    requires Lookup(fw, "legacy_content") == Some(Str(legacy))
    requires !PyStrings.Contains(legacy, "<system_prompt>")
    ensures RefactorFile(data) == Ok(UnknownFormat)
  {
  }

  /** A refactored document has the new structure under `framework`, in
      the place the old one had, and every other key as it was. */
  lemma RefactoredDocument(data: Value, fw: seq<Entry>, legacy: string)
    requires data.Map? && Lookup(data.entries, "framework") == Some(Map(fw))
    requires Lookup(fw, "legacy_content") == Some(Str(legacy))
    requires PyStrings.Contains(legacy, "<system_prompt>")
    ensures RefactorFile(data).Ok? && RefactorFile(data).value.Refactored?
    ensures RefactorFile(data).value.data.Map?
    ensures Lookup(RefactorFile(data).value.data.entries, "framework") == Some(Shape(ExtractPrompt(legacy)))
    ensures forall k | k != "framework" :: Lookup(RefactorFile(data).value.data.entries, k) == Lookup(data.entries, k)
    ensures Keys(RefactorFile(data).value.data.entries) == Keys(data.entries)
  {
    assert HasKey(data.entries, "framework");
  }

  /** The rules read back from a `formatting_rules` list, when every item
      is a string. */
  function ReadRules(vs: seq<Value>): (r: Option<seq<string>>)
    ensures r.Some? ==> |r.value| == |vs|
  {
    if vs == [] then Some([])
    else if !vs[0].Str? then None
    else match ReadRules(vs[1..])
      case None => None
      case Some(rest) => Some([vs[0].s] + rest)
  }

  /** `v.get(k)` on a mapping, `None` on anything else or a missing key. */
  function Field(v: Value, k: string): Value {
    if v.Map? then Get(v.entries, k, Null) else Null
  }

  /** A step read back from a `{name, description}` mapping. */
  function ReadStep(v: Value): Option<Step> {
    var n := Field(v, "name");
    var d := Field(v, "description");
    if n.Str? && d.Str? then Some(Step(n.s, d.s)) else None
  }

  /** The steps read back from a `steps` list. */
  function ReadSteps(vs: seq<Value>): (r: Option<seq<Step>>)
    ensures r.Some? ==> |r.value| == |vs|
  {
    if vs == [] then Some([])
    else if ReadStep(vs[0]).None? then None
    else match ReadSteps(vs[1..])
      case None => None
      case Some(rest) => Some([ReadStep(vs[0]).value] + rest)
  }

  /** What a consumer of the new `framework` mapping reads from it. */
  function ReadShape(v: Value): Option<Prompt> {
    var sp := Field(v, "system_prompt");
    var rs := Field(sp, "formatting_rules");
    var flow := Field(sp, "execution_flow");
    var ss := Field(flow, "steps");
    var f := Field(flow, "final_output");
    var d := Field(sp, "directive");
    if !(rs.List? && ss.List? && f.Str? && d.Str?) then None
    else match (ReadRules(rs.items), ReadSteps(ss.items))
      case (Some(rules), Some(steps)) => Some(Prompt(rules, steps, f.s, d.s))
      case _ => None
  }

  /** The rules list reads back as the rules. */
  lemma {:induction false} RulesReadBack(rules: seq<string>)
    ensures ReadRules(RuleValues(rules)) == Some(rules)
  {
    if rules != [] {
      var vs := RuleValues(rules);
      assert vs[1..] == RuleValues(rules[1..]);
      RulesReadBack(rules[1..]);
      assert rules == [rules[0]] + rules[1..];
    }
  }

  /** A key found at `i` and at no earlier index looks up its value. */
  lemma {:induction false} LookupAt(es: seq<Entry>, i: nat)
    requires i < |es| && forall j | 0 <= j < i :: es[j].key != es[i].key
    ensures Lookup(es, es[i].key) == Some(es[i].val)
  {
    if i > 0 {
      assert es[1..][i - 1] == es[i];
      LookupAt(es[1..], i - 1);
    }
  }

  /** A step mapping reads back as its step. */
  lemma StepReadsBack(st: Step)
    ensures ReadStep(StepValue(st)) == Some(st)
  {
    var es := StepValue(st).entries;
    assert es[0].key[0] == 'n' && es[1].key[0] == 'd';
    LookupAt(es, 0);
    LookupAt(es, 1);
  }

  /** The steps list reads back as the steps. */
  lemma {:induction false} StepsReadBack(steps: seq<Step>)
    ensures ReadSteps(StepValues(steps)) == Some(steps)
  {
    if steps != [] {
      var vs := StepValues(steps);
      assert ReadStep(vs[0]) == Some(steps[0]) by {
        StepReadsBack(steps[0]);
      }
      assert ReadSteps(vs[1..]) == Some(steps[1..]) by {
        assert vs[1..] == StepValues(steps[1..]);
        StepsReadBack(steps[1..]);
      }
      assert ReadSteps(vs) == Some([steps[0]] + steps[1..]);
      assert steps == [steps[0]] + steps[1..];
    }
  }

  /** Where the parts of the new `framework` mapping are found. */
  lemma ShapeFields(p: Prompt)
    ensures Field(Field(Shape(p), "system_prompt"), "formatting_rules") == List(RuleValues(p.rules))
    ensures Field(Field(Field(Shape(p), "system_prompt"), "execution_flow"), "steps") == List(StepValues(p.steps))
    ensures Field(Field(Field(Shape(p), "system_prompt"), "execution_flow"), "final_output") == Str(p.finalOutput)
    ensures Field(Field(Shape(p), "system_prompt"), "directive") == Str(p.directive)
  {
    var flow := [Entry("steps", List(StepValues(p.steps))), Entry("final_output", Str(p.finalOutput))];
    var sp := [Entry("formatting_rules", List(RuleValues(p.rules))), Entry("execution_flow", Map(flow)),
               Entry("directive", Str(p.directive))];
    assert Shape(p) == Map([Entry("system_prompt", Map(sp))]);
    assert Field(Shape(p), "system_prompt") == Map(sp) by {
      LookupAt([Entry("system_prompt", Map(sp))], 0);
    }
    assert Field(Map(sp), "formatting_rules") == List(RuleValues(p.rules))
        && Field(Map(sp), "execution_flow") == Map(flow)
        && Field(Map(sp), "directive") == Str(p.directive) by {
      assert sp[0].key[0] == 'f' && sp[1].key[0] == 'e' && sp[2].key[0] == 'd';
      LookupAt(sp, 0);
      LookupAt(sp, 1);
      LookupAt(sp, 2);
    }
    assert Field(Map(flow), "steps") == List(StepValues(p.steps))
        && Field(Map(flow), "final_output") == Str(p.finalOutput) by {
      assert flow[0].key[0] == 's' && flow[1].key[0] == 'f';
      LookupAt(flow, 0);
      LookupAt(flow, 1);
    }
  }

  /** The new `framework` mapping holds only `system_prompt`, so the
      legacy text is gone, and everything extracted can be read back from
      it. */
  lemma ShapeReadsBack(p: Prompt)
    ensures Shape(p).Map? && Keys(Shape(p).entries) == ["system_prompt"]
    ensures ReadShape(Shape(p)) == Some(p)
  {
    ShapeFields(p);
    RulesReadBack(p.rules);
    StepsReadBack(p.steps);
  }
}

=== FILE: remediator.dfy ===
/**
  `YAMLRemediator.fix_yaml_file`: three text fixes applied in order (no-break
  spaces become spaces, a missing `---` marker is prepended, quoted values
  holding `\n`, `\t` or `\"` escapes become literal blocks) and the counters
  the remediator keeps across files. Reading and writing are inputs.

  The escape pattern `(\s+)([a-zA-Z0-9_]+:\s*)"([^"]*(?:\\[nt"])[^"]*)"`
  is replaced by an explicit scanner. Reading it: group 1 is the whole
  whitespace run, since a key character is not whitespace; the key runs to
  the first non-key character, which must be `:`; the value ends at the
  first `"` after the opening one, unless that quote is itself escaped and
  another `"` follows, because the greedy `[^"]*` tries the escape right
  before the quote first.
 */
module Remediator {
  import opened Optional
  import opened PyStrings
  import DocMarkers

  const NBSP: char := '\U{A0}'

  /** `[a-zA-Z0-9_]` */
  predicate IsKeyChar(c: char) {
    ('a' <= c <= 'z') || ('A' <= c <= 'Z') || ('0' <= c <= '9') || c == '_'
  }

  /** End of the whitespace run that starts at `j`. */
  function SpaceEnd(s: string, j: nat): (k: nat)
    requires j <= |s|
    decreases |s| - j
    ensures j <= k <= |s|
  {
    if j == |s| || !IsSpace(s[j]) then j else SpaceEnd(s, j + 1)
  }

  lemma {:induction false} SpaceEndSpec(s: string, j: nat)
    requires j <= |s|
    decreases |s| - j
    ensures forall q | j <= q < SpaceEnd(s, j) :: IsSpace(s[q])
    ensures SpaceEnd(s, j) < |s| ==> !IsSpace(s[SpaceEnd(s, j)])
  {
    if j < |s| && IsSpace(s[j]) {
      SpaceEndSpec(s, j + 1);
    }
  }

  /** End of the run of key characters that starts at `j`. */
  function KeyEnd(s: string, j: nat): (k: nat)
    requires j <= |s|
    decreases |s| - j
    ensures j <= k <= |s|
  {
    if j == |s| || !IsKeyChar(s[j]) then j else KeyEnd(s, j + 1)
  }

  lemma {:induction false} KeyEndSpec(s: string, j: nat)
    requires j <= |s|
    decreases |s| - j
    ensures forall q | j <= q < KeyEnd(s, j) :: IsKeyChar(s[q])
    ensures KeyEnd(s, j) < |s| ==> !IsKeyChar(s[KeyEnd(s, j)])
  {
    if j < |s| && IsKeyChar(s[j]) {
      KeyEndSpec(s, j + 1);
    }
  }

  /** `s[v..r]` holds a backslash followed by `n` or `t`. */
  predicate HasNtEscape(s: string, v: nat, r: nat) {
    exists q | v <= q && q + 1 < r && q + 1 < |s| :: s[q] == '\\' && (s[q + 1] == 'n' || s[q + 1] == 't')
  }

  /** The first `"` at or after `from`. */
  function NextQuote(s: string, from: nat): (r: Option<nat>)
    decreases |s| - from
    ensures r.Some? ==> from <= r.value < |s| && s[r.value] == '"'
  {
    if from >= |s| then None
    else if s[from] == '"' then Some(from)
    else NextQuote(s, from + 1)
  }

  /** No quote lies between `from` and the one `NextQuote` finds, nor after
      `from` at all when it finds none. */
  lemma {:induction false} NextQuoteSpec(s: string, from: nat)
    decreases |s| - from
    ensures var r := NextQuote(s, from);
            && (r.Some? ==> forall k | from <= k < r.value :: s[k] != '"')
            && (r.None? ==> forall k | from <= k < |s| :: s[k] != '"')
  {
    if from < |s| && s[from] != '"' {
      NextQuoteSpec(s, from + 1);
    }
  }

  /** One match of the escape pattern: `indent` is group 1, `key` is group
      2 (the name, the colon and the spaces after it), `value` is group 3;
      the match spans `start .. end`. */
  datatype EscMatch = EscMatch(start: nat, indent: string, key: string, value: string, end: nat)

  /** What the pattern accepts at `p`, stated without a search: a non-empty
      run of whitespace, a key of key characters, a colon and optional
      whitespace, then a quoted value that contains a `\n`, `\t` or `\"`
      escape and no other `"`. Several such matches may start at `p`;
      `EscMatchAt` picks the one the regex engine tries first. */
  predicate EscAccepts(s: string, p: nat, m: EscMatch) {
    && m.start == p && m.end == p + |m.indent| + |m.key| + |m.value| + 2
    && IndentAt(s, p, m.indent)
    && KeyAt(s, p + |m.indent|, m.key)
    && ValueAt(s, p + |m.indent| + |m.key| + 1, m.value)
  }

  /** Group 1 at `p`: a non-empty whitespace run. */
  predicate IndentAt(s: string, p: nat, indent: string) {
    indent != [] && p + |indent| <= |s| && s[p..p + |indent|] == indent && AllSpace(indent)
  }

  /** Group 2 at `a`, followed by the opening quote. */
  predicate KeyAt(s: string, a: nat, key: string) {
    a + |key| < |s| && s[a..a + |key|] == key && IsKeyText(key) && s[a + |key|] == '"'
  }

  /** Group 3 at `v`, followed by the closing quote. */
  predicate ValueAt(s: string, v: nat, val: string) {
    v + |val| < |s| && s[v..v + |val|] == val && s[v + |val|] == '"' && IsEscValue(val)
  }

  predicate AllSpace(t: string) {
    forall q | 0 <= q < |t| :: IsSpace(t[q])
  }

  /** `[a-zA-Z0-9_]+:\s*` in full. */
  predicate IsKeyText(k: string) {
    exists c | 0 < c < |k| ::
      && k[c] == ':'
      && (forall q | 0 <= q < c :: IsKeyChar(k[q]))
      && (forall q | c < q < |k| :: IsSpace(k[q]))
  }

  /** `[^"]*(?:\\[nt"])[^"]*` in full: an escape at `q`, and no `"` but
      possibly the escaped one. */
  predicate IsEscValue(v: string) {
    exists q | 0 <= q < |v| - 1 ::
      v[q] == '\\' && (v[q + 1] == 'n' || v[q + 1] == 't' || v[q + 1] == '"') && NoQuoteBut(v, q + 1)
  }

  /** No `"` in `v` except perhaps at index `i`. */
  predicate NoQuoteBut(v: string, i: int) {
    forall j | 0 <= j < |v| :: j == i || v[j] != '"'
  }

  /** Where the indent and the key group end, when the text at `p` has the
      shape `\s+[a-zA-Z0-9_]+:\s*"`: the key group ends at the opening
      quote. */
  function EscHead(s: string, p: nat): (r: Option<(nat, nat)>)
    ensures r.Some? ==> p < r.value.0 < r.value.1 < |s|
  {
    if p > |s| then None
    else
      var w := SpaceEnd(s, p);
      if w == p then None
      else
        var k := KeyEnd(s, w);
        if k == w || k >= |s| || s[k] != ':' then None
        else
          var b := SpaceEnd(s, k + 1);
          if b >= |s| || s[b] != '"' then None
          else Some((w, b))
  }

  /** Where the quoted value that starts at `v` ends: at the first `"`, or
      at the next one when the first is escaped; `None` when there is no
      closing quote or the value holds no escape. */
  function EscValueEnd(s: string, v: nat): (r: Option<nat>)
    ensures r.Some? ==> v <= r.value < |s|
  {
    var close := NextQuote(s, v);
    if close.None? then None
    else
      var r := close.value;
      var escaped := if r > v && s[r - 1] == '\\' then NextQuote(s, r + 1) else None;
      if escaped.Some? then escaped
      else if HasNtEscape(s, v, r) then Some(r)
      else None
  }

  /** The match the pattern finds when tried at `p`, if any. */
  function EscMatchAt(s: string, p: nat): (r: Option<EscMatch>)
    ensures r.Some? ==> && r.value.start == p
                        && r.value.end == p + |r.value.indent| + |r.value.key| + |r.value.value| + 2
                        && r.value.end <= |s|
  {
    var head := EscHead(s, p);
    if head.None? then None
    else
      var w := head.value.0;
      var b := head.value.1;
      var close := EscValueEnd(s, b + 1);
      if close.None? then None
      else Some(EscMatch(p, s[p..w], s[w..b], s[b + 1..close.value], close.value + 1))
  }

  /** Matches in order, none overlapping, all inside `s[p..n]`. */
  predicate Spaced(ms: seq<EscMatch>, p: nat, n: nat)
    decreases |ms|
  {
    ms == [] || (p <= ms[0].start < ms[0].end <= n && Spaced(ms[1..], ms[0].end, n))
  }

  /** The matches `re.sub` replaces, from position `p` on, in order:
      each starts where the previous one ended or later. */
  function EscScan(s: string, p: nat): (ms: seq<EscMatch>)
    decreases |s| - p
    ensures Spaced(ms, p, |s|)
  {
    if p >= |s| then []
    else
      match EscMatchAt(s, p)
      case Some(m) => [m] + EscScan(s, m.end)
      case None => EscScan(s, p + 1)
  }

  /** `re.sub(pattern, replace_escapes, s[p..])`. Where the pattern
      matches nowhere, the text comes back as it was. */
  function Sub(s: string, p: nat): (r: string)
    decreases |s| - p
    ensures p <= |s| && (forall q | p <= q < |s| :: EscMatchAt(s, q).None?) ==> r == s[p..]
  {
    if p >= |s| then ""
    else
      match EscMatchAt(s, p)
      case Some(m) => Replacement(m) + Sub(s, m.end)
      case None =>
        assert s[p..] == [s[p]] + s[p + 1..];
        [s[p]] + Sub(s, p + 1)
  }

  /** The explicit unescaping: `\n`, then `\t`, then `\"`, each replaced in
      a pass of its own. */
  function Unescape(v: string): string {
    ReplaceAll(ReplaceAll(ReplaceAll(v, "\\n", "\n"), "\\t", "\t"), "\\\"", "\"")
  }

  /** Every line preceded by `prefix`. */
  function Indented(lines: seq<string>, prefix: string): (r: seq<string>)
    ensures |r| == |lines|
  {
    if lines == [] then [] else [prefix + lines[0]] + Indented(lines[1..], prefix)
  }

  lemma {:induction false} IndentedSpec(lines: seq<string>, prefix: string)
    ensures forall i | 0 <= i < |lines| :: Indented(lines, prefix)[i] == prefix + lines[i]
  {
    if lines != [] {
      IndentedSpec(lines[1..], prefix);
    }
  }

  /** The header line, then one line per line of the unescaped value, all
      joined with newlines. */
  function Replacement(m: EscMatch): (r: string)
    ensures StartsWith(r, m.indent + m.key + " |")
  {
    var header := m.indent + m.key + " |";
    var body := Indented(Split(Unescape(m.value), '\n'), m.indent + "  ");
    JoinConsHead(header, "", body, "\n");
    assert header + "" == header;
    Join([header] + body, "\n")
  }

  /** The splice `re.sub` performs, given the matches: the text between
      matches is copied and each match is replaced. */
  function Splice(s: string, p: nat, ms: seq<EscMatch>): string
    requires p <= |s| && Spaced(ms, p, |s|)
    decreases |ms|
  {
    if ms == [] then s[p..]
    else s[p..ms[0].start] + (Replacement(ms[0]) + Splice(s, ms[0].end, ms[1..]))
  }

  /** `SpaceEnd` stops exactly at the first non-space character. */
  lemma {:induction false} SpaceEndAt(s: string, j: nat, e: nat)
    requires j <= e <= |s|
    requires forall q | j <= q < e :: IsSpace(s[q])
    requires e < |s| ==> !IsSpace(s[e])
    ensures SpaceEnd(s, j) == e
    decreases e - j
  {
    if j < e {
      SpaceEndAt(s, j + 1, e);
    }
  }

  /** `KeyEnd` stops exactly at the first non-key character. */
  lemma {:induction false} KeyEndAt(s: string, j: nat, e: nat)
    requires j <= e <= |s|
    requires forall q | j <= q < e :: IsKeyChar(s[q])
    requires e < |s| ==> !IsKeyChar(s[e])
    ensures KeyEnd(s, j) == e
    decreases e - j
  {
    if j < e {
      KeyEndAt(s, j + 1, e);
    }
  }

  /** The key group the scanner reads has the shape `[a-zA-Z0-9_]+:\s*`. */
  lemma KeyTextRead(s: string, w: nat, k: nat, b: nat)
    requires w < k < |s| && s[k] == ':' && b <= |s|
    requires KeyEnd(s, w) == k && SpaceEnd(s, k + 1) == b
    ensures IsKeyText(s[w..b])
  {
    KeyEndSpec(s, w);
    SpaceEndSpec(s, k + 1);
    var key := s[w..b];
    assert key[k - w] == ':';
    assert forall q | 0 <= q < k - w :: key[q] == s[w + q];
    assert forall q | k - w < q < |key| :: key[q] == s[w + q];
  }

  /** A value that ends at the quote after an escaped one. */
  lemma EscapedValueAccepted(s: string, v: nat, r: nat, r2: nat)
    requires v < r < r2 < |s| && s[r - 1] == '\\' && s[r] == '"'
    requires forall k | v <= k < r :: s[k] != '"'
    requires forall k | r + 1 <= k < r2 :: s[k] != '"'
    ensures IsEscValue(s[v..r2])
  {
    var a := s[v..r2];
    assert a[r - 1 - v] == '\\' && a[r - v] == '"';
    assert NoQuoteBut(a, r - v) by {
      forall j | 0 <= j < |a|
        ensures j == r - v || a[j] != '"'
      {
        assert a[j] == s[v + j];
      }
    }
  }

  /** A value up to the first quote, holding a `\n` or `\t` escape. */
  lemma PlainValueAccepted(s: string, v: nat, r: nat)
    requires v <= r <= |s| && HasNtEscape(s, v, r)
    requires forall k | v <= k < r :: s[k] != '"'
    ensures IsEscValue(s[v..r])
  {
    var a := s[v..r];
    var q :| v <= q && q + 1 < r && q + 1 < |s| && s[q] == '\\' && (s[q + 1] == 'n' || s[q + 1] == 't');
    assert a[q - v] == s[q] && a[q - v + 1] == s[q + 1];
    assert NoQuoteBut(a, q - v + 1) by {
      forall j | 0 <= j < |a|
        ensures j == q - v + 1 || a[j] != '"'
      {
        assert a[j] == s[v + j];
      }
    }
  }

  /** The head the scanner reads is a whitespace run and a key group. */
  lemma HeadSound(s: string, p: nat)
    requires EscHead(s, p).Some?
    ensures var (w, b) := EscHead(s, p).value;
            IndentAt(s, p, s[p..w]) && KeyAt(s, w, s[w..b])
  {
    var w := SpaceEnd(s, p);
    SpaceEndSpec(s, p);
    var t := s[p..w];
    assert AllSpace(t) by {
      assert forall q | 0 <= q < |t| :: t[q] == s[p + q];
    }
    KeyTextRead(s, w, KeyEnd(s, w), SpaceEnd(s, KeyEnd(s, w) + 1));
  }

  /** The value the scanner reads closes with a quote and holds an escape. */
  lemma ValueSound(s: string, v: nat)
    requires EscValueEnd(s, v).Some?
    ensures ValueAt(s, v, s[v..EscValueEnd(s, v).value])
  {
    NextQuoteSpec(s, v);
    var r := NextQuote(s, v).value;
    if r > v && s[r - 1] == '\\' && NextQuote(s, r + 1).Some? {
      NextQuoteSpec(s, r + 1);
      EscapedValueAccepted(s, v, r, NextQuote(s, r + 1).value);
    } else {
      PlainValueAccepted(s, v, r);
    }
  }

  /** What a reported match is made of: the head and the value read in
      turn. */
  lemma MatchParts(s: string, p: nat)
    requires EscMatchAt(s, p).Some?
    ensures EscHead(s, p).Some? && EscValueEnd(s, EscHead(s, p).value.1 + 1).Some?
    ensures var w := EscHead(s, p).value.0;
            var b := EscHead(s, p).value.1;
            var e := EscValueEnd(s, b + 1).value;
            EscMatchAt(s, p).value == EscMatch(p, s[p..w], s[w..b], s[b + 1..e], e + 1)
  {
  }

  /** Every match the scanner reports is one the pattern accepts; in
      particular its value always holds an escape. */
  lemma EscMatchSound(s: string, p: nat)
    ensures EscMatchAt(s, p).Some? ==> EscAccepts(s, p, EscMatchAt(s, p).value)
  {
    if EscMatchAt(s, p).Some? {
      var m := EscMatchAt(s, p).value;
      MatchParts(s, p);
      var w := EscHead(s, p).value.0;
      var b := EscHead(s, p).value.1;
      var e := EscValueEnd(s, b + 1).value;
      assert m == EscMatch(p, s[p..w], s[w..b], s[b + 1..e], e + 1);
      assert IndentAt(s, p, m.indent) && KeyAt(s, w, m.key) by {
        HeadSound(s, p);
      }
      assert ValueAt(s, b + 1, m.value) by {
        ValueSound(s, b + 1);
      }
      assert p + |m.indent| == w && w + |m.key| == b && b + 1 + |m.value| == e;
    }
  }

  /** A whitespace run at `p`, followed by a non-space, is what `SpaceEnd`
      reads there. */
  lemma SpaceRunEnd(s: string, p: nat, t: string)
    requires IndentAt(s, p, t) && p + |t| < |s| && !IsSpace(s[p + |t|])
    ensures SpaceEnd(s, p) == p + |t|
  {
    assert forall q | p <= q < p + |t| :: IsSpace(s[q]) by {
      forall q | p <= q < p + |t| ensures IsSpace(s[q]) {
        assert s[q] == t[q - p];
      }
    }
    SpaceEndAt(s, p, p + |t|);
  }

  /** A key group at `a` is what the scanner reads there: key characters
      up to the colon, then spaces up to the quote. */
  lemma KeyRunEnd(s: string, a: nat, key: string)
    requires KeyAt(s, a, key)
    ensures !IsSpace(s[a])
    ensures var k := KeyEnd(s, a);
            && a < k < |s| && s[k] == ':' && SpaceEnd(s, k + 1) == a + |key|
  {
    var c :| 0 < c < |key| && key[c] == ':'
             && (forall q | 0 <= q < c :: IsKeyChar(key[q]))
             && (forall q | c < q < |key| :: IsSpace(key[q]));
    assert forall q | a <= q < a + |key| :: s[q] == key[q - a];
    assert IsKeyChar(s[a]);
    KeyEndAt(s, a, a + c);
    SpaceEndAt(s, a + c + 1, a + |key|);
  }

  /** When an indent and a key group are accepted at `p`, the scanner reads
      the same ones. */
  lemma HeadComplete(s: string, p: nat, indent: string, key: string)
    requires IndentAt(s, p, indent) && KeyAt(s, p + |indent|, key)
    ensures EscHead(s, p) == Some((p + |indent|, p + |indent| + |key|))
  {
    KeyRunEnd(s, p + |indent|, key);
    SpaceRunEnd(s, p, indent);
  }

  /** When an escaped value closed by a quote starts at `v`, the scanner
      reads a value there, at least as long. */
  lemma ValueComplete(s: string, v: nat, val: string)
    requires ValueAt(s, v, val)
    ensures EscValueEnd(s, v).Some? && v + |val| <= EscValueEnd(s, v).value
  {
    var q :| 0 <= q < |val| - 1 && val[q] == '\\'
             && (val[q + 1] == 'n' || val[q + 1] == 't' || val[q + 1] == '"')
             && NoQuoteBut(val, q + 1);
    assert forall j | v <= j < v + |val| :: s[j] == val[j - v];
    NextQuoteSpec(s, v);
    assert NextQuote(s, v).Some?;
    var r := NextQuote(s, v).value;
    if val[q + 1] == '"' {
      assert r == v + q + 1 by {
        assert s[v + q + 1] == '"';
      }
      NextQuoteSpec(s, r + 1);
      assert NextQuote(s, r + 1).Some?;
    } else {
      assert r == v + |val|;
      assert HasNtEscape(s, v, r) by {
        assert s[v + q] == val[q] && s[v + q + 1] == val[q + 1];
      }
    }
  }

  /** A head and a value read in turn make a match. */
  lemma MatchFromParts(s: string, p: nat, b: nat)
    requires EscHead(s, p).Some? && EscHead(s, p).value.1 == b && EscValueEnd(s, b + 1).Some?
    ensures EscMatchAt(s, p).Some? && EscMatchAt(s, p).value.end == EscValueEnd(s, b + 1).value + 1
  {
  }

  /** Whenever the pattern accepts a match at `p`, the scanner reports one
      there, and it is the longest: the regex engine prefers the match whose
      value runs on past an escaped quote. */
  lemma EscMatchComplete(s: string, p: nat, m: EscMatch)
    requires EscAccepts(s, p, m)
    ensures EscMatchAt(s, p).Some?
    ensures m.end <= EscMatchAt(s, p).value.end
  {
    var b := p + |m.indent| + |m.key|;
    HeadComplete(s, p, m.indent, m.key);
    ValueComplete(s, b + 1, m.value);
    MatchFromParts(s, p, b);
  }

  /** Copying one character when no match starts there. */
  lemma SpliceStep(s: string, p: nat, ms: seq<EscMatch>)
    requires p < |s| && Spaced(ms, p + 1, |s|)
    ensures Spaced(ms, p, |s|)
    ensures Splice(s, p, ms) == [s[p]] + Splice(s, p + 1, ms)
  {
    if ms != [] {
      var a := s[p + 1..ms[0].start];
      var t := Replacement(ms[0]) + Splice(s, ms[0].end, ms[1..]);
      assert s[p..ms[0].start] == [s[p]] + a;
      assert ([s[p]] + a) + t == [s[p]] + (a + t);
    } else {
      assert s[p..] == [s[p]] + s[p + 1..];
    }
  }

  /** One step of the scan and of `re.sub` at `p`. */
  lemma ScanStep(s: string, p: nat)
    requires p < |s|
    ensures EscMatchAt(s, p).Some? ==>
              && EscScan(s, p) == [EscMatchAt(s, p).value] + EscScan(s, EscMatchAt(s, p).value.end)
              && Sub(s, p) == Replacement(EscMatchAt(s, p).value) + Sub(s, EscMatchAt(s, p).value.end)
    ensures EscMatchAt(s, p).None? ==>
              EscScan(s, p) == EscScan(s, p + 1) && Sub(s, p) == [s[p]] + Sub(s, p + 1)
  {
  }

  /** Splicing a match that starts right at `p`. */
  lemma SpliceCons(s: string, p: nat, m: EscMatch, rest: seq<EscMatch>)
    requires p <= |s| && m.start == p && Spaced([m] + rest, p, |s|)
    ensures Spaced(rest, m.end, |s|)
    ensures Splice(s, p, [m] + rest) == Replacement(m) + Splice(s, m.end, rest)
  {
    assert ([m] + rest)[1..] == rest;
    assert s[p..m.start] == [];
  }

  /** `re.sub` is the splice of the matches the scan finds: the text
      between them is copied unchanged and each is replaced in place. */
  lemma {:induction false} SubIsSplice(s: string, p: nat)
    requires p <= |s|
    ensures Sub(s, p) == Splice(s, p, EscScan(s, p))
    decreases |s| - p
  {
    if p < |s| {
      ScanStep(s, p);
      if EscMatchAt(s, p).Some? {
        var m := EscMatchAt(s, p).value;
        SubIsSplice(s, m.end);
        SpliceCons(s, p, m, EscScan(s, m.end));
      } else {
        SubIsSplice(s, p + 1);
        SpliceStep(s, p, EscScan(s, p + 1));
      }
    }
  }

  /** A value the scanner accepts contains a backslash. */
  lemma ValueNeedsBackslash(s: string, v: nat)
    ensures EscValueEnd(s, v).Some? ==> '\\' in s
  {
    if EscValueEnd(s, v).Some? {
      ValueSound(s, v);
      var a := s[v..EscValueEnd(s, v).value];
      var q :| 0 <= q < |a| - 1 && a[q] == '\\'
               && (a[q + 1] == 'n' || a[q + 1] == 't' || a[q + 1] == '"')
               && NoQuoteBut(a, q + 1);
      assert s[v + q] == a[q];
    }
  }

  /** Text with no backslash offers the pattern nothing to match. */
  lemma NoBackslashNoMatch(s: string, p: nat)
    requires '\\' !in s
    ensures EscMatchAt(s, p).None?
  {
    if EscHead(s, p).Some? {
      ValueNeedsBackslash(s, EscHead(s, p).value.1 + 1);
    }
  }

  /** Quoted values without escapes are left alone: on text with no
      backslash the escape rewriting finds nothing and changes nothing. */
  lemma {:induction false} NoBackslashUnchanged(s: string, p: nat)
    requires '\\' !in s && p <= |s|
    ensures EscScan(s, p) == []
    ensures Sub(s, p) == s[p..]
    decreases |s| - p
  {
    if p < |s| {
      NoBackslashNoMatch(s, p);
      NoBackslashUnchanged(s, p + 1);
      assert s[p..] == [s[p]] + s[p + 1..];
    }
  }

  /** The letter that follows the backslash when a newline, a tab or a
      quote is written as an escape. */
  function EscapeLetter(c: char): char {
    if c == '\n' then 'n' else if c == '\t' then 't' else '"'
  }

  /** One character, written as an escape when it is in `f`. */
  function EscapeChar(c: char, f: set<char>): string {
    if c in f then ['\\', EscapeLetter(c)] else [c]
  }

  /** `x` with the characters in `f` written as two-character escapes. */
  function EscapeOnly(x: string, f: set<char>): (r: string)
    ensures |r| >= |x|
  {
    if x == [] then [] else EscapeChar(x[0], f) + EscapeOnly(x[1..], f)
  }

  /** A newline, tab or quote written as `\n`, `\t` or `\"`: what a YAML or
      JSON writer produces for a double-quoted value. */
  function Escape(x: string): string {
    EscapeOnly(x, {'\n', '\t', '"'})
  }

  /** One pass of `replace` turns the escape of `d` back into `d` and
      leaves every other escaped or plain character as it is. */
  lemma UndoEscapeChar(c: char, rest: string, f: set<char>, d: char)
    requires c != '\\' && f <= {'\n', '\t', '"'} && d in f
    ensures var pat := ['\\', EscapeLetter(d)];
            ReplaceAll(EscapeChar(c, f) + rest, pat, [d])
            == EscapeChar(c, f - {d}) + ReplaceAll(rest, pat, [d])
  {
    var pat := ['\\', EscapeLetter(d)];
    if c == d {
      ReplaceAllHit(pat, rest, [d]);
    } else if c in f {
      var l := EscapeLetter(c);
      assert l != EscapeLetter(d) && l != '\\';
      ReplaceAllSkip(l, rest, pat, [d]);
      assert ['\\', l] + rest == ['\\'] + ([l] + rest);
      assert (['\\'] + ([l] + rest))[..2] == ['\\', l];
      assert (['\\'] + ([l] + rest))[1..] == [l] + rest;
    } else {
      ReplaceAllSkip(c, rest, pat, [d]);
    }
  }

  /** One pass of `replace` undoes the escaping of one character. */
  lemma {:induction false} UndoOneEscape(x: string, f: set<char>, d: char)
    requires '\\' !in x && f <= {'\n', '\t', '"'} && d in f
    ensures ReplaceAll(EscapeOnly(x, f), ['\\', EscapeLetter(d)], [d]) == EscapeOnly(x, f - {d})
  {
    if x != [] {
      UndoOneEscape(x[1..], f, d);
      UndoEscapeChar(x[0], EscapeOnly(x[1..], f), f, d);
    }
  }

  lemma {:induction false} EscapeNothing(x: string)
    ensures EscapeOnly(x, {}) == x
  {
    if x != [] {
      EscapeNothing(x[1..]);
    }
  }

  /** Unescaping inverts escaping on text without backslashes: the three
      passes of `replace` restore every newline, tab and quote. */
  lemma UnescapeInvertsEscape(x: string)
    requires '\\' !in x
    ensures Unescape(Escape(x)) == x
  {
    var all: set<char> := {'\n', '\t', '"'};
    UndoOneEscape(x, all, '\n');
    assert all - {'\n'} == {'\t', '"'};
    assert "\\n" == ['\\', EscapeLetter('\n')];
    UndoOneEscape(x, {'\t', '"'}, '\t');
    assert {'\t', '"'} - {'\t'} == {'"'};
    assert "\\t" == ['\\', EscapeLetter('\t')];
    UndoOneEscape(x, {'"'}, '"');
    assert {'"'} - {'"'} == {};
    assert "\\\"" == ['\\', EscapeLetter('"')];
    EscapeNothing(x);
  }

  /** Every line with its first `n` characters removed. */
  function Dedented(lines: seq<string>, n: nat): (r: seq<string>)
    requires forall i | 0 <= i < |lines| :: |lines[i]| >= n
    ensures |r| == |lines|
  {
    seq(|lines|, i requires 0 <= i < |lines| => lines[i][n..])
  }

  /** The block a match becomes reads back as the unescaped value: after
      the header, each line starts with the indent and two spaces, holds no
      further newline, and with that prefix removed the lines joined by
      newlines give the unescaped value exactly. */
  lemma BlockReadsBack(m: EscMatch)
    ensures var prefix := m.indent + "  ";
            var lines := Indented(Split(Unescape(m.value), '\n'), prefix);
            && Replacement(m) == Join([m.indent + m.key + " |"] + lines, "\n")
            && (forall i | 0 <= i < |lines| :: StartsWith(lines[i], prefix)
                                               && '\n' !in lines[i][|prefix|..])
            && Join(Dedented(lines, |prefix|), "\n") == Unescape(m.value)
  {
    var prefix := m.indent + "  ";
    var pieces := Split(Unescape(m.value), '\n');
    var lines := Indented(pieces, prefix);
    IndentedSpec(pieces, prefix);
    SplitSpec(Unescape(m.value), '\n');
    assert forall i | 0 <= i < |lines| :: lines[i][|prefix|..] == pieces[i];
    assert Dedented(lines, |prefix|) == pieces;
  }

  /** Because the indent carries the newline before the key, the block is
      the header and the value's lines, each behind the rest of the indent
      and two spaces, separated by empty lines: every content line is
      preceded by an empty one. */
  lemma BlankLineBeforeEachLine(m: EscMatch)
    requires |m.indent| > 0 && m.indent[0] == '\n'
    ensures Replacement(m)
            == Join([m.indent + m.key + " |"] + Indented(Split(Unescape(m.value), '\n'), m.indent[1..] + "  "), "\n\n")
  {
    var r := m.indent[1..] + "  ";
    assert m.indent == "\n" + m.indent[1..];
    assert m.indent + "  " == "\n" + r;
    NewlineIndentBlankLines(m.indent + m.key + " |", Split(Unescape(m.value), '\n'), r);
  }

  /** Lines behind a prefix that starts with a newline, joined by newlines,
      are the lines behind the rest of the prefix joined by blank lines. */
  lemma {:induction false} NewlineIndentBlankLines(h: string, ps: seq<string>, r: string)
    ensures Join([h] + Indented(ps, "\n" + r), "\n") == Join([h] + Indented(ps, r), "\n\n")
    decreases |ps|
  {
    if ps != [] {
      var a := Indented(ps[1..], "\n" + r);
      var b := Indented(ps[1..], r);
      var x := r + ps[0];
      assert ("\n" + r) + ps[0] == "\n" + x;
      assert Indented(ps, "\n" + r) == ["\n" + x] + a;
      assert Indented(ps, r) == [x] + b;
      assert ([h] + (["\n" + x] + a))[1..] == ["\n" + x] + a;
      assert ([h] + ([x] + b))[1..] == [x] + b;
      JoinConsHead("\n", x, a, "\n");
      NewlineIndentBlankLines(x, ps[1..], r);
      assert Join([h] + Indented(ps, "\n" + r), "\n") == h + "\n" + ("\n" + Join([x] + a, "\n"));
      assert Join([h] + Indented(ps, r), "\n\n") == h + "\n\n" + Join([x] + b, "\n\n");
    }
  }

  /** Fix 1: every no-break space becomes a plain space, and nothing else
      changes. */
  function RemoveNbsp(s: string): (r: string)
    ensures NBSP !in r
    ensures |r| == |s| && forall i | 0 <= i < |s| :: s[i] != NBSP ==> r[i] == s[i]
    ensures NBSP !in s ==> r == s
  {
    ReplaceChar(s, NBSP, ' ')
  }

  /** The three fixes in order: no-break spaces, start marker, escapes.
      When the escape pattern finds nothing in the marked text, the escape
      fix leaves it alone. */
  function FixText(s: string): (r: string)
    ensures var t := DocMarkers.AddMarker(RemoveNbsp(s));
            (forall q | 0 <= q < |t| :: EscMatchAt(t, q).None?) ==> r == t
  {
    var t := DocMarkers.AddMarker(RemoveNbsp(s));
    assert t[0..] == t;
    Sub(t, 0)
  }

  /** The remediator's counters (`self.stats`). */
  datatype Stats = Stats(
    filesProcessed: nat,
    filesFixed: nat,
    docMarkersAdded: nat,
    escapesFixed: nat,
    valuesQuoted: nat,
    nbspRemoved: nat,
    errors: seq<string>)

  /** The counters of a fresh remediator. */
  const Initial := Stats(0, 0, 0, 0, 0, 0, [])

  /** Reading a file gives its text, or raises with a message. */
  datatype Read = Text(s: string) | ReadFailed(reason: string)

  /** After one call: the counters, the value returned and the text
      written to the file, if any. */
  datatype FileRun = FileRun(stats: Stats, fixed: bool, written: Option<string>)

  /** The message recorded for an exception. */
  function ErrorMessage(path: string, reason: string): string {
    "Error processing " + path + ": " + reason
  }

  /** `fix_yaml_file`. `writeFailure` is the message of the exception that
      writing the file would raise, if it would. */
  function FixFile(st: Stats, path: string, read: Read, writeFailure: Option<string>): (r: FileRun)
    ensures r.stats.filesProcessed == st.filesProcessed + 1
    ensures r.stats.valuesQuoted == st.valuesQuoted
    ensures r.fixed <==> read.Text? && FixText(read.s) != read.s && writeFailure.None?
    ensures r.fixed <==> r.written.Some?
    ensures r.written.Some? ==> r.written.value == FixText(read.s)
    ensures r.stats.filesFixed == st.filesFixed + (if r.fixed then 1 else 0)
    ensures read.ReadFailed? ==> r.stats.errors == st.errors + [ErrorMessage(path, read.reason)]
    ensures read.Text? && FixText(read.s) != read.s && writeFailure.Some? ==>
              r.stats.errors == st.errors + [ErrorMessage(path, writeFailure.value)]
    ensures read.Text? && (FixText(read.s) == read.s || writeFailure.None?) ==>
              r.stats.errors == st.errors
    ensures read.Text? ==> && r.stats.nbspRemoved == st.nbspRemoved + (if NBSP in read.s then 1 else 0)
                           && r.stats.docMarkersAdded == st.docMarkersAdded
                                + (if DocMarkers.HasStartMarker(RemoveNbsp(read.s)) then 0 else 1)
                           && r.stats.escapesFixed == st.escapesFixed
                                + |EscScan(DocMarkers.AddMarker(RemoveNbsp(read.s)), 0)|
    ensures read.ReadFailed? ==> r.stats == st.(filesProcessed := st.filesProcessed + 1,
                                                errors := r.stats.errors)
  {
    match read
    case ReadFailed(reason) =>
      FileRun(st.(filesProcessed := st.filesProcessed + 1,
                  errors := st.errors + [ErrorMessage(path, reason)]), false, None)
    case Text(original) =>
      var a := RemoveNbsp(original);
      var st1 := if NBSP in original then st.(nbspRemoved := st.nbspRemoved + 1) else st;
      var st2 := if DocMarkers.HasStartMarker(a) then st1
                 else st1.(docMarkersAdded := st1.docMarkersAdded + 1);
      var b := DocMarkers.AddMarker(a);
      var st3 := st2.(escapesFixed := st2.escapesFixed + |EscScan(b, 0)|);
      var content := Sub(b, 0);
      if content == original then
        FileRun(st3.(filesProcessed := st3.filesProcessed + 1), false, None)
      else if writeFailure.Some? then
        FileRun(st3.(filesProcessed := st3.filesProcessed + 1,
                     errors := st3.errors + [ErrorMessage(path, writeFailure.value)]), false, None)
      else
        FileRun(st3.(filesFixed := st3.filesFixed + 1,
                     filesProcessed := st3.filesProcessed + 1), true, Some(content))
  }

  /** Counters that can have come from a run: every file is counted once,
      and a file is either fixed, or failed, or neither. */
  predicate Consistent(st: Stats) {
    st.filesFixed + |st.errors| <= st.filesProcessed && st.valuesQuoted == 0
  }

  /** What the remediator is given for one file. */
  datatype FileInput = FileInput(path: string, read: Read, writeFailure: Option<string>)

  /** `process_directory` after the files are listed and sorted: one
      `fix_yaml_file` call per file, in order. */
  function ProcessAll(st: Stats, files: seq<FileInput>): (r: Stats)
    decreases |files|
    ensures r.filesProcessed == st.filesProcessed + |files|
    ensures st.errors <= r.errors
  {
    if files == [] then st
    else
      var f := files[0];
      ProcessAll(FixFile(st, f.path, f.read, f.writeFailure).stats, files[1..])
  }

  /** One call keeps the counters consistent. */
  lemma FixFileConsistent(st: Stats, path: string, read: Read, writeFailure: Option<string>)
    requires Consistent(st)
    ensures Consistent(FixFile(st, path, read, writeFailure).stats)
  {
  }

  /** Over a whole run every file is counted exactly once, `values_quoted`
      stays zero, fixed files plus errors never exceed the files processed,
      and the errors recorded before the run stay at the head of the list. */
  lemma {:induction false} ProcessAllCounts(st: Stats, files: seq<FileInput>)
    requires Consistent(st)
    ensures ProcessAll(st, files).filesProcessed == st.filesProcessed + |files|
    ensures Consistent(ProcessAll(st, files))
    ensures st.errors <= ProcessAll(st, files).errors
    decreases |files|
  {
    if files != [] {
      var f := files[0];
      FixFileConsistent(st, f.path, f.read, f.writeFailure);
      ProcessAllCounts(FixFile(st, f.path, f.read, f.writeFailure).stats, files[1..]);
    }
  }

  /** Text with no no-break space, with its marker and without a backslash
      goes through all three fixes unchanged. */
  lemma CleanTextFixed(s: string)
    requires NBSP !in s && DocMarkers.HasStartMarker(s) && '\\' !in s
    ensures DocMarkers.HasStartMarker(RemoveNbsp(s))
    ensures EscScan(DocMarkers.AddMarker(RemoveNbsp(s)), 0) == []
    ensures FixText(s) == s
  {
    var b := DocMarkers.AddMarker(RemoveNbsp(s));
    assert b == s by {
      assert RemoveNbsp(s) == s;
    }
    NoBackslashUnchanged(s, 0);
  }

  /** Replacing a match always changes the text: where the opening quote
      of the value stood, the header line has a space. */
  lemma MatchChanges(s: string, p: nat, rest: string)
    requires EscMatchAt(s, p).Some?
    ensures Replacement(EscMatchAt(s, p).value) + rest != s[p..]
  {
    var m := EscMatchAt(s, p).value;
    EscMatchSound(s, p);
    var i := |m.indent| + |m.key|;
    var h := m.indent + m.key + " |";
    assert h[i] == ' ';
    assert Replacement(m)[..|h|] == h;
    assert (Replacement(m) + rest)[i] == ' ';
    assert s[p..][i] == s[p + i] == '"';
  }

  /** `re.sub` leaves `s[p..]` as it was exactly when the scan finds no
      match there. */
  lemma {:induction false} SubUnchangedIff(s: string, p: nat)
    requires p <= |s|
    decreases |s| - p
    ensures Sub(s, p) == s[p..] <==> EscScan(s, p) == []
  {
    if p < |s| {
      if EscMatchAt(s, p).Some? {
        UnchangedAtMatch(s, p);
      } else {
        SubUnchangedIff(s, p + 1);
        UnchangedPastSkip(s, p);
      }
    }
  }

  /** A match where the rewriting stands changes the text, and the scan
      reports it. */
  lemma UnchangedAtMatch(s: string, p: nat)
    requires p < |s| && EscMatchAt(s, p).Some?
    ensures Sub(s, p) != s[p..] && EscScan(s, p) != []
  {
    ScanHit(s, p);
    SubHit(s, p);
    MatchChanges(s, p, Sub(s, EscMatchAt(s, p).value.end));
  }

  /** A character copied where no match starts carries the answer over
      from the next position. */
  lemma UnchangedPastSkip(s: string, p: nat)
    requires p < |s| && EscMatchAt(s, p).None?
    requires Sub(s, p + 1) == s[p + 1..] <==> EscScan(s, p + 1) == []
    ensures Sub(s, p) == s[p..] <==> EscScan(s, p) == []
  {
    ScanSkip(s, p);
    SubSkip(s, p);
    SliceCons(s, p, |s|);
    assert s[p..|s|] == s[p..] && s[p + 1..|s|] == s[p + 1..];
    ConsEq(s[p], Sub(s, p + 1), s[p + 1..]);
  }

  /** A stretch without whitespace is copied and the rewriting goes on
      after it. */
  lemma {:induction false} SubCopies(s: string, p: nat, k: nat)
    requires p <= k <= |s| && forall i | p <= i < k :: !IsSpace(s[i])
    decreases k - p
    ensures Sub(s, p) == s[p..k] + Sub(s, k)
  {
    if p < k {
      assert Sub(s, p) == [s[p]] + Sub(s, p + 1) by {
        NonSpaceNoMatch(s, p);
        SubSkip(s, p);
      }
      assert Sub(s, p + 1) == s[p + 1..k] + Sub(s, k) by {
        SubCopies(s, p + 1, k);
      }
      SliceCons(s, p, k);
      ConcatAssoc([s[p]], s[p + 1..k], Sub(s, k));
    }
  }

  /** Where no match starts, the character is copied. */
  lemma SubSkip(s: string, p: nat)
    requires p < |s| && EscMatchAt(s, p).None?
    ensures Sub(s, p) == [s[p]] + Sub(s, p + 1)
  {
  }

  /** Where a match starts, it is replaced. */
  lemma SubHit(s: string, p: nat)
    requires EscMatchAt(s, p).Some?
    ensures Sub(s, p) == Replacement(EscMatchAt(s, p).value) + Sub(s, EscMatchAt(s, p).value.end)
  {
  }

  /** A match that the pattern finds anywhere from `p` on means the scan
      reports at least one, though perhaps an earlier one that overlaps
      it. */
  lemma {:induction false} ScanFindsMatch(s: string, p: nat, q: nat)
    requires p <= q && EscMatchAt(s, q).Some?
    decreases q - p
    ensures EscScan(s, p) != []
  {
    assert p < |s|;
    if EscMatchAt(s, p).None? {
      assert p < q;
      ScanSkip(s, p);
      ScanFindsMatch(s, p + 1, q);
    } else {
      ScanHit(s, p);
    }
  }

  lemma ScanSkip(s: string, p: nat)
    requires p < |s| && EscMatchAt(s, p).None?
    ensures EscScan(s, p) == EscScan(s, p + 1)
  {
  }

  lemma ScanHit(s: string, p: nat)
    requires EscMatchAt(s, p).Some?
    ensures EscScan(s, p) != []
  {
  }

  /** On text that has its marker and no no-break space, the fixes leave
      it alone exactly when the escape pattern matches nowhere in it. */
  lemma FixTextFixedIff(s: string)
    requires NBSP !in s && DocMarkers.HasStartMarker(s)
    ensures FixText(s) == s <==> forall q: nat | q < |s| :: EscMatchAt(s, q).None?
  {
    assert RemoveNbsp(s) == s;
    assert s[0..] == s;
    SubUnchangedIff(s, 0);
    if exists q: nat | q < |s| :: EscMatchAt(s, q).Some? {
      var q: nat :| q < |s| && EscMatchAt(s, q).Some?;
      ScanFindsMatch(s, 0, q);
    } else {
      NoMatchEmptyScan(s, 0);
    }
  }

  lemma {:induction false} NoMatchEmptyScan(s: string, p: nat)
    requires forall q: nat | p <= q < |s| :: EscMatchAt(s, q).None?
    decreases |s| - p
    ensures EscScan(s, p) == []
  {
    if p < |s| {
      ScanStep(s, p);
      NoMatchEmptyScan(s, p + 1);
    }
  }

  /** A match needs whitespace where it starts. */
  lemma NonSpaceNoMatch(s: string, p: nat)
    requires p < |s| && !IsSpace(s[p])
    ensures EscMatchAt(s, p).None?
  {
  }

  /** Text without whitespace from `p` on is copied as it is. */
  lemma {:induction false} NoSpaceUnchanged(s: string, p: nat)
    requires p <= |s| && forall i | p <= i < |s| :: !IsSpace(s[i])
    decreases |s| - p
    ensures Sub(s, p) == s[p..]
  {
    if p < |s| {
      NonSpaceNoMatch(s, p);
      ScanStep(s, p);
      NoSpaceUnchanged(s, p + 1);
      assert s[p..] == [s[p]] + s[p + 1..];
    }
  }

  /** A text whose second pass through the fixes changes it again. On the
      first pass the value of `a` runs to the second unescaped quote,
      because the first closing quote is escaped; the text of `b`'s value,
      which followed it, becomes a fresh `b: "\n"` line that the pattern
      matches on the next pass. */
  const Twice: string := "---\n a: \"\\\" b: \"\"\\n\""

  /** What one pass makes of `Twice`. */
  const TwiceFixed: string := "---\n a:  |\n\n   \" b: \"\\n\""

  lemma TwiceFirstMatch()
    ensures EscMatchAt(Twice, 3) == Some(EscMatch(3, "\n ", "a: ", "\\\" b: ", 16))
  {
    TwiceFirstHead();
    TwiceFirstValue();
    assert Twice[3..5] == "\n " && Twice[5..8] == "a: " && Twice[9..15] == "\\\" b: ";
  }

  lemma TwiceFirstHead()
    ensures EscHead(Twice, 3) == Some((5, 8))
  {
    var s := Twice;
    assert |s| == 20;
    SpaceEndAt(s, 3, 5);
    KeyEndAt(s, 5, 6);
    SpaceEndAt(s, 7, 8);
  }

  /** The first quote after `a: ` is escaped, so the value runs on to the
      next one. */
  lemma TwiceFirstValue()
    ensures EscValueEnd(Twice, 9) == Some(15)
  {
    var s := Twice;
    assert |s| == 20;
    assert NextQuote(s, 10) == Some(10);
    assert NextQuote(s, 9) == Some(10);
    assert NextQuote(s, 15) == Some(15);
    assert NextQuote(s, 14) == Some(15);
    assert NextQuote(s, 13) == Some(15);
    assert NextQuote(s, 12) == Some(15);
    assert NextQuote(s, 11) == Some(15);
  }


  lemma TwiceUnescape()
    ensures Unescape("\\\" b: ") == "\" b: "
  {
    var v := "\\\" b: ";
    var rest := " b: ";
    assert v == "\\\"" + rest && v[1..] == "\"" + rest;
    ReplaceAllAbsent(v[1..], "\\n", "\n");
    assert ReplaceAll(v, "\\n", "\n") == v;
    ReplaceAllAbsent(v[1..], "\\t", "\t");
    assert ReplaceAll(v, "\\t", "\t") == v;
    ReplaceAllHit("\\\"", rest, "\"");
    ReplaceAllAbsent(rest, "\\\"", "\"");
  }

  /** The replacement for a value of one line. */
  lemma ReplacementOneLine(m: EscMatch, x: string)
    requires Split(Unescape(m.value), '\n') == [x]
    ensures Replacement(m) == (m.indent + m.key + " |") + "\n" + (m.indent + "  " + x)
  {
    var prefix := m.indent + "  ";
    var header := m.indent + m.key + " |";
    assert [x][1..] == [];
    assert Indented([x], prefix) == [prefix + x];
    assert [header] + [prefix + x] == [header, prefix + x];
    assert [header, prefix + x][1..] == [prefix + x];
    assert Join([prefix + x], "\n") == prefix + x;
    assert Replacement(m) == Join([header, prefix + x], "\n");
  }

  lemma TwiceReplacement()
    ensures Replacement(EscMatch(3, "\n ", "a: ", "\\\" b: ", 16)) == "\n a:  |\n\n   \" b: "
  {
    var m := EscMatch(3, "\n ", "a: ", "\\\" b: ", 16);
    var x := "\" b: ";
    TwiceUnescape();
    SplitAfterPlain(x, "", '\n');
    assert x + "" == x;
    ReplacementOneLine(m, x);
    TwiceLiterals();
  }

  /** The text `Twice` turns into, piece by piece. */
  lemma TwiceLiterals()
    ensures "\n " + "a: " + " |" == "\n a:  |"
    ensures "\n " + "  " + "\" b: " == "\n   \" b: "
    ensures "\n a:  |" + "\n" + "\n   \" b: " == "\n a:  |\n\n   \" b: "
    ensures "---" + ("\n a:  |\n\n   \" b: " + "\"\\n\"") == TwiceFixed
    ensures Twice[..3] == "---" && Twice[16..] == "\"\\n\""
  {
  }

  /** Where `Twice` holds no whitespace. */
  lemma TwiceSolid()
    ensures forall i | 0 <= i < 3 :: !IsSpace(Twice[i])
    ensures forall i | 16 <= i < |Twice| :: !IsSpace(Twice[i])
  {
    assert Twice[..3] == "---" && Twice[16..] == "\"\\n\"";
    assert forall i | 0 <= i < 3 :: Twice[i] == '-';
    assert forall i | 16 <= i < |Twice| :: Twice[i] == Twice[16..][i - 16];
  }

  /** One pass over `Twice` gives `TwiceFixed`. */
  lemma TwiceSub()
    ensures Sub(Twice, 0) == TwiceFixed
  {
    var s := Twice;
    var r := "\n a:  |\n\n   \" b: ";
    TwiceLiterals();
    TwiceFirstMatch();
    TwiceReplacement();
    TwiceSolid();
    SubCopies(s, 0, 3);
    ScanStep(s, 3);
    NoSpaceUnchanged(s, 16);
  }

  /** On the second pass the pattern matches `b: "\n"`. */
  lemma TwiceFixedMatch()
    ensures EscMatchAt(TwiceFixed, 16) == Some(EscMatch(16, " ", "b: ", "\\n", 24))
  {
    TwiceFixedHead();
    TwiceFixedValue();
    assert TwiceFixed[16..17] == " " && TwiceFixed[17..20] == "b: " && TwiceFixed[21..23] == "\\n";
  }

  lemma TwiceFixedHead()
    ensures EscHead(TwiceFixed, 16) == Some((17, 20))
  {
    var s := TwiceFixed;
    assert |s| == 24;
    SpaceEndAt(s, 16, 17);
    KeyEndAt(s, 17, 18);
    SpaceEndAt(s, 19, 20);
  }

  lemma TwiceFixedValue()
    ensures EscValueEnd(TwiceFixed, 21) == Some(23)
  {
    var s := TwiceFixed;
    assert |s| == 24;
    assert NextQuote(s, 23) == Some(23);
    assert NextQuote(s, 22) == Some(23);
    assert NextQuote(s, 21) == Some(23);
    assert HasNtEscape(s, 21, 23) by {
      assert s[21] == '\\' && s[22] == 'n';
    }
  }


  /** Both texts have their marker and no no-break space. */
  lemma TwiceMarked()
    ensures NBSP !in Twice && DocMarkers.HasStartMarker(Twice)
    ensures NBSP !in TwiceFixed && DocMarkers.HasStartMarker(TwiceFixed)
  {
    TwiceNoNbsp();
    assert Twice == "---" + Twice[3..] by {
      TwiceLiterals();
    }
    StripKeepsSolidPrefix("---", Twice[3..]);
    assert TwiceFixed == "---" + TwiceFixed[3..] by {
      TwiceFixedStart();
    }
    StripKeepsSolidPrefix("---", TwiceFixed[3..]);
  }

  lemma TwiceNoNbsp()
    ensures NBSP !in Twice && NBSP !in TwiceFixed
  {
  }

  lemma TwiceFixedStart()
    ensures TwiceFixed[..3] == "---"
  {
  }


  /** Running the three fixes on their own output can change it again:
      one pass turns `Twice` into `TwiceFixed`, and a second pass finds
      a match in that and rewrites it. */
  lemma PipelineNotIdempotent()
    ensures FixText(Twice) == TwiceFixed
    ensures FixText(FixText(Twice)) != FixText(Twice)
  {
    TwiceMarked();
    assert RemoveNbsp(Twice) == Twice;
    assert DocMarkers.AddMarker(Twice) == Twice;
    TwiceSub();
    TwiceFixedMatch();
    FixTextFixedIff(TwiceFixed);
  }

  /** A file whose text already has no no-break space, has its marker and
      holds no backslash is left alone: nothing is written and only
      `files_processed` moves. */
  lemma CleanFileUntouched(st: Stats, path: string, s: string, writeFailure: Option<string>)
    requires NBSP !in s && DocMarkers.HasStartMarker(s) && '\\' !in s
    ensures FixFile(st, path, Text(s), writeFailure)
            == FileRun(st.(filesProcessed := st.filesProcessed + 1), false, None)
  {
    CleanFileRun(st, path, s, writeFailure);
    CleanFileStats(st, path, s, writeFailure);
  }

  lemma CleanFileRun(st: Stats, path: string, s: string, writeFailure: Option<string>)
    requires NBSP !in s && DocMarkers.HasStartMarker(s) && '\\' !in s
    ensures !FixFile(st, path, Text(s), writeFailure).fixed
    ensures FixFile(st, path, Text(s), writeFailure).written == None
  {
    CleanTextFixed(s);
  }

  lemma CleanFileStats(st: Stats, path: string, s: string, writeFailure: Option<string>)
    requires NBSP !in s && DocMarkers.HasStartMarker(s) && '\\' !in s
    ensures var r := FixFile(st, path, Text(s), writeFailure).stats;
            && r.filesFixed == st.filesFixed && r.errors == st.errors
            && r.nbspRemoved == st.nbspRemoved && r.docMarkersAdded == st.docMarkersAdded
            && r.escapesFixed == st.escapesFixed
  {
    CleanTextFixed(s);
  }

  /** The marker step of the pipeline: `---\n` goes in front exactly when
      the stripped text lacks the marker, the text after it is unchanged,
      and a second application changes nothing. */
  lemma MarkerStep(s: string)
    ensures DocMarkers.AddMarker(s) == (if DocMarkers.HasStartMarker(s) then s else "---\n" + s)
    ensures DocMarkers.HasStartMarker(DocMarkers.AddMarker(s))
    ensures EndsWith(DocMarkers.AddMarker(s), s)
    ensures DocMarkers.AddMarker(DocMarkers.AddMarker(s)) == DocMarkers.AddMarker(s)
  {
    DocMarkers.AddMarkerMarks(s);
    DocMarkers.AddMarkerKeepsText(s);
  }
}

=== FILE: tagparser.dfy ===
/**
  The legacy tag parser `parse_xml_content`. The pattern
  `<(\w+[\s\w-]*)>(.*?)</\1>` (with `re.DOTALL`) is replaced by an explicit
  left-to-right scanner: `MatchAt` decides one position, `Scan` is
  `re.findall`, `Outside` is `re.sub(pattern, '', text)`.

  Reading the pattern: the name cannot end early, because `>` is not a name
  character, so group 1 is the whole run of name characters after `<`; the
  lazy body stops at the first `</name>` after `<name>`; the back-reference
  is case-sensitive; a position where no match starts is skipped by one.
 */
module TagParser {
  import opened Optional
  import opened PyStrings
  import opened Values

  /** `\w`, over ASCII */
  predicate IsWordChar(c: char) {
    ('a' <= c <= 'z') || ('A' <= c <= 'Z') || ('0' <= c <= '9') || c == '_'
  }

  /** `[\s\w-]` */
  predicate IsNameChar(c: char) {
    IsWordChar(c) || IsSpace(c) || c == '-'
  }

  /** `n` matches `\w+[\s\w-]*` in full. */
  predicate IsTagName(n: string) {
    |n| > 0 && IsWordChar(n[0]) && forall k | 1 <= k < |n| :: IsNameChar(n[k])
  }

  function OpenTag(name: string): string { "<" + name + ">" }

  function CloseTag(name: string): string { "</" + name + ">" }

  /** One match of the pattern: `<name>body</name>` spans `start .. end`. */
  datatype TagMatch = TagMatch(start: nat, name: string, body: string, end: nat)

  /** What the pattern accepts at `i`, stated without a search: `<name>`
      opens at `i`, `body` follows it, `</name>` closes right after the body,
      and no `</name>` starts anywhere earlier inside the body (the lazy
      `.*?`). */
  predicate PairAt(s: string, i: nat, name: string, body: string) {
    var b := i + |name| + 2;
    && IsTagName(name)
    && OccursAt(s, OpenTag(name), i)
    && b + |body| <= |s| && s[b..b + |body|] == body
    && OccursAt(s, CloseTag(name), b + |body|)
    && forall q | b <= q < b + |body| :: !OccursAt(s, CloseTag(name), q)
  }

  /** End of the run of name characters that starts at `j`. */
  function NameEnd(s: string, j: nat): (k: nat)
    requires j <= |s|
    decreases |s| - j
    ensures j <= k <= |s|
  {
    if j == |s| || !IsNameChar(s[j]) then j else NameEnd(s, j + 1)
  }

  /** The run is all name characters and stops at the first other one. */
  lemma {:induction false} NameEndSpec(s: string, j: nat)
    requires j <= |s|
    decreases |s| - j
    ensures forall q | j <= q < NameEnd(s, j) :: IsNameChar(s[q])
    ensures NameEnd(s, j) < |s| ==> !IsNameChar(s[NameEnd(s, j)])
  {
    if j < |s| && IsNameChar(s[j]) {
      NameEndSpec(s, j + 1);
    }
  }

  /** The match the pattern finds when tried at position `i`, if any. */
  function MatchAt(s: string, i: nat): (r: Option<TagMatch>)
    ensures r.Some? ==> && r.value.start == i
                        && r.value.end == i + 2 * |r.value.name| + |r.value.body| + 5
                        && r.value.end <= |s|
  {
    if i + 1 < |s| && s[i] == '<' && IsWordChar(s[i + 1]) then
      var j := NameEnd(s, i + 2);
      if j < |s| && s[j] == '>' then
        var name := s[i + 1..j];
        match Find(s, CloseTag(name), j + 1, true)
        case Some(k) => Some(TagMatch(i, name, s[j + 1..k], k + |CloseTag(name)|))
        case None => None
      else None
    else None
  }

  /** Every match `MatchAt` reports is one the pattern accepts. */
  lemma MatchAtSound(s: string, i: nat)
    requires MatchAt(s, i).Some?
    ensures PairAt(s, i, MatchAt(s, i).value.name, MatchAt(s, i).value.body)
  {
    var k := MatchAtRead(s, i);
    PairFromScan(s, i, NameEnd(s, i + 2), k);
  }

  /** The pieces the scanner reads at `i` form a pair the pattern accepts. */
  lemma PairFromScan(s: string, i: nat, j: nat, k: nat)
    requires i + 1 < |s| && s[i] == '<' && IsWordChar(s[i + 1])
    requires i + 2 <= |s| && j == NameEnd(s, i + 2) && j < |s| && s[j] == '>'
    requires Find(s, CloseTag(s[i + 1..j]), j + 1, true) == Some(k)
    ensures PairAt(s, i, s[i + 1..j], s[j + 1..k])
  {
    OpenFromScan(s, i, j);
    FindSpec(s, CloseTag(s[i + 1..j]), j + 1, true);
  }

  /** The name the scanner reads is a tag name, and `<name>` opens at `i`. */
  lemma OpenFromScan(s: string, i: nat, j: nat)
    requires i + 1 < |s| && s[i] == '<' && IsWordChar(s[i + 1])
    requires i + 2 <= |s| && j == NameEnd(s, i + 2) && j < |s| && s[j] == '>'
    ensures IsTagName(s[i + 1..j]) && OccursAt(s, OpenTag(s[i + 1..j]), i)
  {
    var name := s[i + 1..j];
    NameEndSpec(s, i + 2);
    forall q | 1 <= q < |name| ensures IsNameChar(name[q]) {
      assert name[q] == s[i + 1 + q];
    }
    assert s[i..j + 1] == [s[i]] + name + [s[j]];
  }

  /** What a reported match is made of: the name runs to `NameEnd`, a `>`
      follows, and the body runs to the closing tag `Find` locates. */
  lemma MatchAtRead(s: string, i: nat) returns (k: nat)
    requires MatchAt(s, i).Some?
    ensures var j := NameEnd(s, i + 2);
            && i + 1 < |s| && s[i] == '<' && IsWordChar(s[i + 1])
            && j < |s| && s[j] == '>'
            && MatchAt(s, i).value.name == s[i + 1..j]
            && Find(s, CloseTag(s[i + 1..j]), j + 1, true) == Some(k)
            && MatchAt(s, i).value.body == s[j + 1..k]
  {
    var j := NameEnd(s, i + 2);
    k := Find(s, CloseTag(s[i + 1..j]), j + 1, true).value;
  }

  /** Whenever the pattern accepts `name` and `body` at `i`, `MatchAt` finds
      exactly that match: the scanner misses nothing the regex would take. */
  lemma MatchAtComplete(s: string, i: nat, name: string, body: string)
    requires PairAt(s, i, name, body)
    ensures MatchAt(s, i) == Some(TagMatch(i, name, body, i + 2 * |name| + |body| + 5))
  {
    var j := i + 1 + |name|;
    var k := j + 1 + |body|;
    assert s[j + 1..k] == body;
    assert && i + 1 < |s| && s[i] == '<' && IsWordChar(s[i + 1])
           && NameEnd(s, i + 2) == j && s[j] == '>' && s[i + 1..j] == name by {
      OpenTagRead(s, i, name);
    }
    assert Find(s, CloseTag(name), j + 1, true) == Some(k) by {
      CloseTagFound(s, j + 1, name, body);
    }
    MatchAtFrom(s, i, name, body);
  }

  /** `MatchAt` unfolded for a position where the name and the body have
      been read. */
  lemma MatchAtFrom(s: string, i: nat, name: string, body: string)
    requires i + 1 < |s| && s[i] == '<' && IsWordChar(s[i + 1])
    requires NameEnd(s, i + 2) == i + 1 + |name| && i + 1 + |name| < |s| && s[i + 1 + |name|] == '>'
    requires s[i + 1..i + 1 + |name|] == name
    requires i + 2 + |name| + |body| <= |s| && s[i + 2 + |name|..i + 2 + |name| + |body|] == body
    requires Find(s, CloseTag(name), i + 2 + |name|, true) == Some(i + 2 + |name| + |body|)
    ensures MatchAt(s, i) == Some(TagMatch(i, name, body, i + 2 * |name| + |body| + 5))
  {
  }

  /** An opening tag at `i` is read back with its whole name. */
  lemma OpenTagRead(s: string, i: nat, name: string)
    requires IsTagName(name) && OccursAt(s, OpenTag(name), i)
    ensures i + 1 < |s| && s[i] == '<' && IsWordChar(s[i + 1])
    ensures NameEnd(s, i + 2) == i + 1 + |name|
    ensures s[i + 1 + |name|] == '>'
    ensures s[i + 1..i + 1 + |name|] == name
  {
    var j := i + 1 + |name|;
    assert s[i] == OpenTag(name)[0] == '<';
    assert s[j] == OpenTag(name)[|name| + 1] == '>';
    assert s[i + 1] == name[0];
    var e := NameEnd(s, i + 2);
    NameEndSpec(s, i + 2);
    if e < j {
      assert false;
    }
    assert s[i..j + 1] == OpenTag(name);
    forall k | 0 <= k < |name| ensures s[i + 1 + k] == name[k] {
      assert s[i + 1 + k] == s[i..j + 1][k + 1] == OpenTag(name)[k + 1];
    }
    assert s[i + 1..j] == name;
  }

  /** The lazy body stops at the first closing tag after it. */
  lemma CloseTagFound(s: string, b: nat, name: string, body: string)
    requires |name| > 0
    requires b + |body| <= |s|
    requires OccursAt(s, CloseTag(name), b + |body|)
    requires forall q | b <= q < b + |body| :: !OccursAt(s, CloseTag(name), q)
    ensures Find(s, CloseTag(name), b, true) == Some(b + |body|)
  {
    var c := b + |body|;
    var f := Find(s, CloseTag(name), b, true);
    FindSpec(s, CloseTag(name), b, true);
    if f.None? {
      assert false;
    }
    if f.value < c {
      assert false;
    }
    if f.value > c {
      assert false;
    }
  }

  /** Position `p` lies inside one of the matches. */
  predicate Covered(ms: seq<TagMatch>, p: nat) {
    exists k | 0 <= k < |ms| :: ms[k].start <= p < ms[k].end
  }

  /** The matches from `i` on, in order: each starts at or after the end
      of the one before, lies inside the text, and is what the pattern
      finds at its own start. */
  predicate Found(s: string, ms: seq<TagMatch>, i: nat)
    decreases |ms|
  {
    || ms == []
    || (&& i <= ms[0].start && MatchAt(s, ms[0].start) == Some(ms[0]) && ms[0].end <= |s|
        && Found(s, ms[1..], ms[0].end))
  }

  /** `re.findall` from position `i`: the matches come in order, do not
      overlap, each is what the pattern finds at its own start, and every
      position the scan skips over without a match is one where the pattern
      finds nothing (`ScanCovers`). Each body is strictly shorter than the
      text, which is what makes the recursive parse terminate. */
  function Scan(s: string, i: nat): (ms: seq<TagMatch>)
    decreases |s| - i
    ensures Found(s, ms, i)
    ensures forall k | 0 <= k < |ms| :: |ms[k].body| < |s|
  {
    if i >= |s| then []
    else
      match MatchAt(s, i)
      case Some(m) =>
        var rest := Scan(s, m.end);
        var ms := [m] + rest;
        ms
      case None =>
        Scan(s, i + 1)
  }

  /** The matches come in order, do not overlap, and each is what the
      pattern finds at its own start. */
  lemma ScanSound(s: string, i: nat)
    ensures forall k | 0 <= k < |Scan(s, i)| ::
              i <= Scan(s, i)[k].start && MatchAt(s, Scan(s, i)[k].start) == Some(Scan(s, i)[k])
    ensures forall k | 0 <= k < |Scan(s, i)| :: Scan(s, i)[k].end <= |s|
    ensures forall k | 0 <= k < |Scan(s, i)| - 1 :: Scan(s, i)[k].end <= Scan(s, i)[k + 1].start
  {
    FoundIndexed(s, Scan(s, i), i);
  }

  /** `Found`, stated match by match. */
  lemma {:induction false} FoundIndexed(s: string, ms: seq<TagMatch>, i: nat)
    requires Found(s, ms, i)
    ensures forall k | 0 <= k < |ms| :: i <= ms[k].start && MatchAt(s, ms[k].start) == Some(ms[k])
    ensures forall k | 0 <= k < |ms| :: ms[k].end <= |s|
    ensures forall k | 0 <= k < |ms| - 1 :: ms[k].end <= ms[k + 1].start
    decreases |ms|
  {
    if ms != [] {
      var rest := ms[1..];
      FoundIndexed(s, rest, ms[0].end);
      forall k | 1 <= k < |ms|
        ensures ms[0].end <= ms[k].start && MatchAt(s, ms[k].start) == Some(ms[k]) && ms[k].end <= |s|
      {
        assert ms[k] == rest[k - 1];
      }
      forall k | 1 <= k < |ms| - 1 ensures ms[k].end <= ms[k + 1].start {
        assert ms[k] == rest[k - 1] && ms[k + 1] == rest[k];
      }
    }
  }

  /** The scan is leftmost-first: every position from `i` on at which the
      pattern would match lies inside one of the matches found. */
  lemma {:induction false} ScanCovers(s: string, i: nat, p: nat)
    requires i <= p && MatchAt(s, p).Some?
    ensures Covered(Scan(s, i), p)
    decreases |s| - i
  {
    var ms := Scan(s, i);
    match MatchAt(s, i)
    case Some(m) =>
      if p < m.end {
        assert ms[0] == m;
      } else {
        ScanCovers(s, m.end, p);
        var rest := Scan(s, m.end);
        var k :| 0 <= k < |rest| && rest[k].start <= p < rest[k].end;
        assert ms[k + 1] == rest[k];
      }
    case None =>
      ScanCovers(s, i + 1, p);
  }

  /** All the matches in `s`: `re.findall(pattern, s, re.DOTALL)`. */
  function Matches(s: string): seq<TagMatch> {
    Scan(s, 0)
  }

  /** `re.sub(pattern, '', s)` from position `i`: the text between matches.
      Where the pattern matches nowhere, nothing is removed. */
  function Outside(s: string, i: nat): (r: string)
    decreases |s| - i
    ensures i <= |s| && (forall q | i <= q < |s| :: MatchAt(s, q).None?) ==> r == s[i..]
  {
    if i >= |s| then ""
    else
      match MatchAt(s, i)
      case Some(m) => Outside(s, m.end)
      case None =>
        assert s[i..] == [s[i]] + s[i + 1..];
        [s[i]] + Outside(s, i + 1)
  }

  /** The text between consecutive matches `ms` found from `i` on: before
      the first, between each and the next, and after the last. */
  function Gaps(s: string, i: nat, ms: seq<TagMatch>): string
    requires Found(s, ms, i)
    decreases |ms|
  {
    if ms == [] then (if i <= |s| then s[i..] else "")
    else s[i..ms[0].start] + Gaps(s, ms[0].end, ms[1..])
  }

  /** `re.sub(pattern, '', s)` keeps exactly the gaps between the matches
      `re.findall` reports, so the leftover text is what lies outside
      every match `ScanSound` and `ScanCovers` describe. */
  lemma {:induction false} OutsideIsGaps(s: string, i: nat)
    ensures Outside(s, i) == Gaps(s, i, Scan(s, i))
    decreases |s| - i
  {
    if i < |s| {
      match MatchAt(s, i)
      case Some(m) =>
        assert Outside(s, i) == Outside(s, m.end);
        assert Outside(s, m.end) == Gaps(s, m.end, Scan(s, m.end)) by {
          OutsideIsGaps(s, m.end);
        }
        assert Gaps(s, i, Scan(s, i)) == Gaps(s, m.end, Scan(s, m.end)) by {
          GapsAtMatch(s, i, m);
        }
      case None =>
        assert Outside(s, i) == [s[i]] + Outside(s, i + 1);
        assert Outside(s, i + 1) == Gaps(s, i + 1, Scan(s, i + 1)) by {
          OutsideIsGaps(s, i + 1);
        }
        assert Gaps(s, i, Scan(s, i)) == [s[i]] + Gaps(s, i + 1, Scan(s, i + 1)) by {
          assert Scan(s, i) == Scan(s, i + 1);
          GapsStep(s, i, Scan(s, i + 1));
        }
    }
  }

  /** A match where the scan stands leaves an empty gap in front of it. */
  lemma GapsAtMatch(s: string, i: nat, m: TagMatch)
    requires i < |s| && MatchAt(s, i) == Some(m)
    ensures Gaps(s, i, Scan(s, i)) == Gaps(s, m.end, Scan(s, m.end))
  {
    var rest := Scan(s, m.end);
    assert Scan(s, i) == [m] + rest;
    assert ([m] + rest)[0] == m && ([m] + rest)[1..] == rest;
    assert s[i..m.start] == "";
  }

  /** A character before the first match belongs to the first gap. */
  lemma GapsStep(s: string, i: nat, ms: seq<TagMatch>)
    requires i < |s| && Found(s, ms, i + 1)
    ensures Found(s, ms, i)
    ensures Gaps(s, i, ms) == [s[i]] + Gaps(s, i + 1, ms)
  {
    if ms == [] {
      assert s[i..] == [s[i]] + s[i + 1..];
    } else {
      var st := ms[0].start;
      assert s[i..st] == [s[i]] + s[i + 1..st];
      ConcatAssoc([s[i]], s[i + 1..st], Gaps(s, ms[0].end, ms[1..]));
    }
  }

  /** The text left over at one level: everything outside the matches,
      stripped, with every `-` removed (`re.sub(r'-+', '', ...)` removes
      single hyphens too), stripped again. */
  function LeftoverText(s: string): (r: string)
    ensures '-' !in r
  {
    Strip(Remove(Strip(Outside(s, 0)), '-'))
  }

  /** The dictionary key for a tag name: stripped, then spaces and hyphens
      turned into underscores. */
  function CleanTag(name: string): string {
    var t := Strip(name);
    var u := ReplaceChar(t, ' ', '_');
    ReplaceChar(u, '-', '_')
  }

  /** A key keeps the stripped name's length and characters, except that
      spaces and hyphens become underscores; so it holds neither. */
  lemma CleanTagChars(name: string)
    ensures |CleanTag(name)| == |Strip(name)|
    ensures forall k | 0 <= k < |CleanTag(name)| ::
              CleanTag(name)[k] == (if Strip(name)[k] == ' ' || Strip(name)[k] == '-' then '_'
                                    else Strip(name)[k])
    ensures ' ' !in CleanTag(name) && '-' !in CleanTag(name)
  {
    var t := Strip(name);
    var u := ReplaceChar(t, ' ', '_');
    var key := ReplaceChar(u, '-', '_');
    assert key == CleanTag(name);
    forall k | 0 <= k < |key|
      ensures key[k] == (if t[k] == ' ' || t[k] == '-' then '_' else t[k])
      ensures key[k] != ' ' && key[k] != '-'
    {
      assert u[k] == (if t[k] == ' ' then '_' else t[k]);
    }
  }

  /** What a tag contributes: a lone `content` entry collapses to its value,
      anything else stays a nested mapping. */
  function ChildValue(nested: seq<Entry>): Value {
    if |nested| == 1 && nested[0].key == "content" then nested[0].val else Map(nested)
  }

  /** `parse_xml_content(s)`: the mapping the legacy markup turns into.
      The first loop assigns each match's child under its cleaned name, in
      match order; the `elif` branch of the source (leftover text but an
      empty result) cannot happen, since a match always adds a key. */
  function Parse(s: string): (r: seq<Entry>)
    decreases |s|, 1
    ensures r != []
    ensures UniqueKeys(r)
  {
    if Matches(s) == [] then [Entry("content", Str(Strip(s)))]
    else Finish(PutAll([], Tagged(s)), LeftoverText(s))
  }

  /** The second step of the parse: leftover text, when there is any, goes
      under `additional_content`. */
  function Finish(d: seq<Entry>, rest: string): (r: seq<Entry>)
    requires d != [] && UniqueKeys(d)
    ensures r != [] && UniqueKeys(r)
  {
    if rest != "" then
      PutUnique(d, "additional_content", Str(rest));
      Put(d, "additional_content", Str(rest))
    else d
  }

  /** One assignment per match, in order: the cleaned tag name and the
      child parsed from the stripped body. */
  function Tagged(s: string): (ps: seq<Entry>)
    decreases |s|, 0
  {
    Children(s, Matches(s))
  }

  function Children(s: string, ms: seq<TagMatch>): (ps: seq<Entry>)
    requires forall k | 0 <= k < |ms| :: |ms[k].body| < |s|
    decreases |s|, 0, |ms| + 1
    ensures |ps| == |ms|
  {
    seq(|ms|, k requires 0 <= k < |ms| => Entry(CleanTag(ms[k].name), ChildOf(s, ms[k])))
  }

  /** The value a match of `s` contributes: the stripped body parsed in
      turn, collapsed when that gives a lone `content` entry. (`s` only
      bounds the recursion.) */
  function ChildOf(s: string, m: TagMatch): Value
    requires |m.body| < |s|
    decreases |s|, 0, 0
  {
    ChildValue(Parse(Strip(m.body)))
  }

  /** Text in which the pattern matches nowhere parses to the single entry
      `content` holding the stripped text. */
  lemma NoTagPairGivesContent(s: string)
    requires forall i: nat, name: string, body: string :: !PairAt(s, i, name, body)
    ensures Parse(s) == [Entry("content", Str(Strip(s)))]
  {
    var ms := Matches(s);
    if ms != [] {
      ScanSound(s, 0);
      MatchAtSound(s, ms[0].start);
    }
  }

  /** With at least one match, the keys of the parse are exactly the
      cleaned names of the matched tags, plus `additional_content` when text
      is left over outside them. */
  lemma ParseKeys(s: string, key: string)
    requires Matches(s) != []
    ensures HasKey(Parse(s), key)
            <==> || (exists k | 0 <= k < |Matches(s)| :: CleanTag(Matches(s)[k].name) == key)
                 || (key == "additional_content" && LeftoverText(s) != "")
  {
    ParseShape(s);
    TaggedKeys(s, key);
    FinishKeys(PutAll([], Tagged(s)), LeftoverText(s), key);
  }

  /** The assignment loop creates exactly the cleaned names as keys. */
  lemma TaggedKeys(s: string, key: string)
    ensures HasKey(PutAll([], Tagged(s)), key)
            <==> exists k | 0 <= k < |Matches(s)| :: CleanTag(Matches(s)[k].name) == key
  {
    var ms := Matches(s);
    var ps := Tagged(s);
    PutAllKeys([], ps, key);
    assert !HasKey([], key);
    forall k | 0 <= k < |ms| ensures ps[k].key == CleanTag(ms[k].name) {
      TaggedAt(s, k);
    }
  }

  /** The leftover step adds `additional_content` and nothing else. */
  lemma FinishKeys(d: seq<Entry>, rest: string, key: string)
    requires d != [] && UniqueKeys(d)
    ensures HasKey(Finish(d, rest), key) <==> HasKey(d, key) || (key == "additional_content" && rest != "")
  {
    if rest != "" {
      var p := Put(d, "additional_content", Str(rest));
      assert HasKey(p, key) <==> Lookup(p, key).Some?;
      assert HasKey(d, key) <==> Lookup(d, key).Some?;
    }
  }

  /** The child each match contributes, one per match and in order. */
  lemma TaggedAt(s: string, k: nat)
    requires k < |Matches(s)|
    ensures Tagged(s)[k] == Entry(CleanTag(Matches(s)[k].name), ChildOf(s, Matches(s)[k]))
  {
    var ms := Matches(s);
    assert Tagged(s) == Children(s, ms);
  }

  /** With at least one match, the parse is the loop of assignments
      followed by the leftover step. */
  lemma ParseShape(s: string)
    requires Matches(s) != []
    ensures Parse(s) == Finish(PutAll([], Tagged(s)), LeftoverText(s))
  {
  }

  /** When the same key comes from several matches, the last one wins: the
      parse maps it to that match's child, which is the stripped body's own
      parse, collapsed to its value when that parse is a lone `content`
      entry. */
  lemma LastMatchWins(s: string, j: nat)
    requires j < |Matches(s)|
    requires forall k | j < k < |Matches(s)| ::
               CleanTag(Matches(s)[k].name) != CleanTag(Matches(s)[j].name)
    requires CleanTag(Matches(s)[j].name) != "additional_content"
    ensures Lookup(Parse(s), CleanTag(Matches(s)[j].name)) == Some(ChildOf(s, Matches(s)[j]))
  {
    var ps := Tagged(s);
    var d := PutAll([], ps);
    assert Lookup(d, ps[j].key) == Some(ps[j].val) by {
      forall k | j < k < |ps| ensures ps[k].key != ps[j].key {
        TaggedAt(s, k);
        TaggedAt(s, j);
      }
      PutAllLast([], ps, j);
    }
    TaggedAt(s, j);
    ParseShape(s);
  }

  /** A tag whose body holds no further tag pair is stored as its body's
      stripped text. */
  lemma PlainBodyStoredAsText(body: string)
    requires Matches(Strip(body)) == []
    ensures ChildValue(Parse(Strip(body))) == Str(Strip(body))
  {
    StripIdempotent(body);
  }

  /** Leftover text is stored under `additional_content` exactly when it is
      non-empty, free of hyphens and already stripped. */
  lemma LeftoverStored(s: string)
    requires Matches(s) != []
    requires LeftoverText(s) != ""
    ensures Lookup(Parse(s), "additional_content") == Some(Str(LeftoverText(s)))
    ensures '-' !in LeftoverText(s) && Strip(LeftoverText(s)) == LeftoverText(s)
  {
    StripIdempotent(Remove(Strip(Outside(s, 0)), '-'));
  }
}

=== FILE: values.dfy ===
/**
  The value tree `yaml.safe_load` hands to the scripts, and the few Python
  operations they apply to it: truthiness, `str()`, `in`, `[]`, `.get()` and
  item assignment on an insertion-ordered `dict`.
 */
module Values {
  import opened Optional
  import opened PyStrings

  /** A loaded YAML node. A number is kept as the text Python's `str()`
      gives for it (`1`, `2.5`, `0.0`); mappings keep insertion order, as a
      Python `dict` does, and have string keys. */
  datatype Value =
    | Null
    | Bool(b: bool)
    | Num(text: string)
    | Str(s: string)
    | List(items: seq<Value>)
    | Map(entries: seq<Entry>)

  datatype Entry = Entry(key: string, val: Value)

  /** The exceptions the scripts can raise on badly shaped data. */
  datatype PyError =
    | KeyError(key: string)
    | TypeError
    | AttributeError

  /** A Python expression either yields a value or raises. */
  datatype Result<+T> = Ok(value: T) | Raise(error: PyError)

  /** `bool(v)` */
  predicate Truthy(v: Value) {
    match v
    case Null => false
    case Bool(b) => b
    case Num(t) => t != "0" && t != "0.0" && t != "-0.0"
    case Str(s) => s != ""
    case List(items) => items != []
    case Map(entries) => entries != []
  }

  /** `str(v)` as an f-string interpolates it. Lists and mappings print as
      Python's `repr`, which `repr` supplies. */
  function Show(v: Value, repr: Value -> string): string {
    match v
    case Null => "None"
    case Bool(b) => if b then "True" else "False"
    case Num(t) => t
    case Str(s) => s
    case List(_) => repr(v)
    case Map(_) => repr(v)
  }

  /** The keys of a mapping, in insertion order. */
  function Keys(es: seq<Entry>): (ks: seq<string>)
    ensures |ks| == |es|
    ensures forall i | 0 <= i < |es| :: ks[i] == es[i].key
  {
    if es == [] then [] else [es[0].key] + Keys(es[1..])
  }

  /** No key appears twice, as in every Python `dict`. */
  predicate UniqueKeys(es: seq<Entry>) {
    forall i, j | 0 <= i < j < |es| :: es[i].key != es[j].key
  }

  predicate HasKey(es: seq<Entry>, k: string) {
    k in Keys(es)
  }

  /** `d[k]` when present: the value of the first entry with key `k`. */
  function Lookup(es: seq<Entry>, k: string): (r: Option<Value>)
    ensures r.None? <==> !HasKey(es, k)
  {
    if es == [] then None
    else if es[0].key == k then Some(es[0].val)
    else Lookup(es[1..], k)
  }

  /** `d.get(k, default)` */
  function Get(es: seq<Entry>, k: string, default: Value): Value {
    match Lookup(es, k)
    case Some(v) => v
    case None => default
  }

  /** `d[k] = v`: an existing key keeps its place and takes the new value;
      a new key goes to the end. */
  function Put(es: seq<Entry>, k: string, v: Value): (r: seq<Entry>)
    ensures Lookup(r, k) == Some(v)
    ensures forall k' | k' != k :: Lookup(r, k') == Lookup(es, k')
    ensures Keys(r) == if HasKey(es, k) then Keys(es) else Keys(es) + [k]
  {
    AssignLookup(es, k, v);
    AssignKeys(es, k, v);
    Assign(es, k, v)
  }

  /** The entries `d[k] = v` leaves, walked from the front. */
  function Assign(es: seq<Entry>, k: string, v: Value): seq<Entry> {
    if es == [] then [Entry(k, v)]
    else if es[0].key == k then [Entry(k, v)] + es[1..]
    else [es[0]] + Assign(es[1..], k, v)
  }

  lemma {:induction false} AssignLookup(es: seq<Entry>, k: string, v: Value)
    ensures Lookup(Assign(es, k, v), k) == Some(v)
    ensures forall k' | k' != k :: Lookup(Assign(es, k, v), k') == Lookup(es, k')
  {
    if es != [] && es[0].key != k {
      var r := Assign(es, k, v);
      assert r[1..] == Assign(es[1..], k, v);
      AssignLookup(es[1..], k, v);
    }
  }

  lemma {:induction false} AssignKeys(es: seq<Entry>, k: string, v: Value)
    ensures Keys(Assign(es, k, v)) == if HasKey(es, k) then Keys(es) else Keys(es) + [k]
  {
    if es != [] && es[0].key != k {
      var rest := Assign(es[1..], k, v);
      var r := Assign(es, k, v);
      assert r[1..] == rest;
      AssignKeys(es[1..], k, v);
      assert Keys(r) == [es[0].key] + Keys(rest);
      assert Keys(es) == [es[0].key] + Keys(es[1..]);
      assert HasKey(es, k) <==> HasKey(es[1..], k);
    }
  }

  /** After an item assignment the mapping is not empty. */
  lemma PutNonEmpty(es: seq<Entry>, k: string, v: Value)
    ensures Put(es, k, v) != []
  {
    assert Lookup(Put(es, k, v), k).Some?;
  }

  /** Item assignment keeps the keys of a `dict` distinct. */
  lemma PutUnique(es: seq<Entry>, k: string, v: Value)
    ensures UniqueKeys(es) ==> UniqueKeys(Put(es, k, v))
  {
    if !UniqueKeys(es) { return; }
    var r := Put(es, k, v);
    var ks := Keys(r);
    forall i, j | 0 <= i < j < |r|
      ensures r[i].key != r[j].key
    {
      assert ks[i] == r[i].key && ks[j] == r[j].key;
      if !HasKey(es, k) && j == |es| {
        assert es[i].key == Keys(es)[i];
      } else {
        assert Keys(es)[i] == es[i].key && Keys(es)[j] == es[j].key;
      }
    }
  }

  /** `d[k] = v` for each pair in turn, as a loop of item assignments does. */
  function PutAll(acc: seq<Entry>, ps: seq<Entry>): (r: seq<Entry>)
    ensures UniqueKeys(acc) ==> UniqueKeys(r)
    ensures ps != [] || acc != [] ==> r != []
    decreases |ps|
  {
    if ps == [] then acc
    else
      PutUnique(acc, ps[0].key, ps[0].val);
      PutAll(Put(acc, ps[0].key, ps[0].val), ps[1..])
  }

  /** A key none of the pairs assigns keeps its value. */
  lemma {:induction false} PutAllOther(acc: seq<Entry>, ps: seq<Entry>, k: string)
    requires forall i | 0 <= i < |ps| :: ps[i].key != k
    ensures Lookup(PutAll(acc, ps), k) == Lookup(acc, k)
    decreases |ps|
  {
    if ps != [] {
      assert ps[0].key != k;
      PutAllOther(Put(acc, ps[0].key, ps[0].val), ps[1..], k);
    }
  }

  /** The last assignment to a key wins. */
  lemma PutAllLast(acc: seq<Entry>, ps: seq<Entry>, j: nat)
    requires j < |ps|
    requires forall i | j < i < |ps| :: ps[i].key != ps[j].key
    ensures Lookup(PutAll(acc, ps), ps[j].key) == Some(ps[j].val)
  {
    var pre, post := ps[..j], ps[j + 1..];
    assert ps == pre + ([ps[j]] + post);
    PutAllAppend(acc, pre, [ps[j]] + post);
    var before := PutAll(acc, pre);
    assert ([ps[j]] + post)[1..] == post;
    forall i | 0 <= i < |post| ensures post[i].key != ps[j].key {
      assert post[i] == ps[j + 1 + i];
    }
    PutAllOther(Put(before, ps[j].key, ps[j].val), post, ps[j].key);
  }

  /** Running the loop over two lists of pairs is running it over the
      first and then over the second. */
  lemma {:induction false} PutAllAppend(acc: seq<Entry>, pre: seq<Entry>, post: seq<Entry>)
    ensures PutAll(acc, pre + post) == PutAll(PutAll(acc, pre), post)
    decreases |pre|
  {
    if pre == [] {
      assert pre + post == post;
    } else {
      assert (pre + post)[0] == pre[0];
      assert (pre + post)[1..] == pre[1..] + post;
      PutAllAppend(Put(acc, pre[0].key, pre[0].val), pre[1..], post);
    }
  }

  /** The keys after the loop are the old keys and the assigned ones. */
  lemma {:induction false} PutAllKeys(acc: seq<Entry>, ps: seq<Entry>, k: string)
    ensures HasKey(PutAll(acc, ps), k)
            <==> HasKey(acc, k) || exists i | 0 <= i < |ps| :: ps[i].key == k
    decreases |ps|
  {
    if ps != [] {
      var acc' := Put(acc, ps[0].key, ps[0].val);
      PutAllKeys(acc', ps[1..], k);
      assert HasKey(acc', k) <==> HasKey(acc, k) || ps[0].key == k by {
        assert Lookup(acc', k).Some? <==> HasKey(acc', k);
      }
      if exists i | 0 <= i < |ps| :: ps[i].key == k {
        var i :| 0 <= i < |ps| && ps[i].key == k;
        if i > 0 {
          assert ps[1..][i - 1].key == k;
        }
      }
    }
  }

  /** Writing the value a key already has changes nothing. */
  lemma {:induction false} PutPresent(es: seq<Entry>, k: string)
    requires UniqueKeys(es) && HasKey(es, k)
    ensures Put(es, k, Lookup(es, k).value) == es
  {
    if es[0].key != k {
      assert UniqueKeys(es[1..]);
      PutPresent(es[1..], k);
    }
  }

  /** `key in container` for a string key: a dict tests its keys, a string
      tests for a substring, a list tests its elements; anything else raises
      `TypeError`. */
  function Contains(container: Value, key: string): Result<bool> {
    match container
    case Map(es) => Ok(HasKey(es, key))
    case Str(s) => Ok(PyStrings.Contains(s, key))
    case List(items) => Ok(Str(key) in items)
    case _ => Raise(TypeError)
  }

  /** `container[key]` for a string key: a dict looks it up or raises
      `KeyError`; every other kind of value raises `TypeError`. */
  function GetItem(container: Value, key: string): (r: Result<Value>)
    ensures r.Ok? <==> container.Map? && HasKey(container.entries, key)
    ensures r.Ok? ==> Lookup(container.entries, key) == Some(r.value)
  {
    match container
    case Map(es) =>
      (match Lookup(es, key)
       case Some(v) => Ok(v)
       case None => Raise(KeyError(key)))
    case _ => Raise(TypeError)
  }
}
